=== FILE: README.md ===
# QuranWithTahir academy core, modelled in Dafny

This project models the logic of the QuranWithTahir academy web
application. Each part is a pure function or an effect-free method over
immutable data, with the
properties the application relies on proved about it. The parts are:

- **Finance engine.** Enrolment finances in cents: the tier price, the
  family discount, the 60/40 split between academy and tutor, and the
  operations breakdown.
- **Pricing quote.** The quote on the pricing page: currency,
  student count and billing cycle.
- **Registry of users.**
  - The salted `SecureVault` envelope in which the registry is stored.
  - Academy identifiers and the one-time-code check.
  - Enrolment, payment, status updates and deletion.
- **Shell and portal.**
  - The root shell's enrolment identifier and back-end hand-off.
  - The member portal: sign-in, profile hydration, the family wing,
    payment and sign-out.
  - The admin console: key check, ledger and registry filter.
- **Live audio sessions.** The live classroom, the Hifz mentor and the
  pronunciation lab:
  - base64 transport, following RFC 4648 section 4 for encoding and
    the WHATWG forgiving-base64 decoder behind `atob`;
  - PCM16 little-endian capture and `decodeAudioData`;
  - the gap-free playback scheduler with its interruption handling;
  - the session state machines, the transcript and feedback buffers,
    the error cues and the simulated scores.
- **Daily duas.** The filter and the one-at-a-time player.
- **Catalogue filters.** The tutors, resources, FAQ and courses pages,
  with the tutor badge and availability colours.
- **Arabic text utilities.** Diacritic stripping, letter folding and
  Eastern Arabic numerals.
- **Receipts.** The transaction hash and the plain-text receipt.
- **Internationalisation.** Language detection, persistence of the
  choice, the translation fallback chain and the document direction.

Shared modules are:

- `Wrappers`: `Option` and `Result`.
- `Text`: the ASCII case maps, `includes`, `split`, JavaScript `trim`,
  `slice(-n)`, digit filtering, `Filter`, `Dedup` and `FindIndex`.
- `Base64`.
- `JsMath`: `Math.floor` and `Math.round` on exact reals.
- `Pcm`.
- `Playback`.

Randomness (`Math.random`), the clock (`Date.now`,
`AudioContext.currentTime`) and the browser language are parameters.
Money is integer cents and exchange rates are exact rationals.

## Model

| member | source | states |
|---|---|---|
| FinanceEngine.TierPrice | utils/FinanceEngine.ts:12-16 | the three academy tiers are priced between 65 and 110 dollars |
| FinanceEngine.DiscountRate | utils/FinanceEngine.ts:50-52 | the family discount is 0 for one student and never above 20% |
| FinanceEngine.DiscountMonotone | utils/FinanceEngine.ts:50-52 | more students never mean a smaller discount rate |
| FinanceEngine.Share | utils/FinanceEngine.ts:54 | a rounded share is within half a cent of the exact fraction |
| FinanceEngine.BaseCents | utils/FinanceEngine.ts:45-46 | the base price in cents is never negative, and at rate 1 it is 100 times the tier price |
| FinanceEngine.Calculate | utils/FinanceEngine.ts:40-74 | the gross is the base times the count; net = gross - discount; academy fee + tutor earning = net exactly |
| FinanceEngine.CalculateDefault | utils/FinanceEngine.ts:40-44 | the default arguments are the standard tier, one student and rate 1 |
| FinanceEngine.RatesAddUp | utils/FinanceEngine.ts:8-23 | the four operations rates add up to the 60% commission, and commission and tutor share add up to 100% |
| FinanceEngine.FeeNoTie | utils/FinanceEngine.ts:57 | 60% of a whole number of cents is never a half-cent tie, so the fee is within 0.4 cent of exact |
| FinanceEngine.DiscountBounded | utils/FinanceEngine.ts:47-55 | for non-negative input, the discount lies between 0 and the gross, and so does the net |
| FinanceEngine.UnitRateExact | utils/FinanceEngine.ts:46-54 | at rate 1 the discount is exactly a tenth of the gross for two students, a fifth for three or more, and none for one |
| FinanceEngine.StandardOneStudent | utils/FinanceEngine.ts:40-74 | one standard student: 6500 cents net, 3900 to the academy and 2600 to the tutor |
| FinanceEngine.StandardTwoStudents | utils/FinanceEngine.ts:40-74 | two standard students: 13000 gross, 1300 discount, 11700 net, 7020 fee, 4680 tutor |
| FinanceEngine.OpsNearFee | utils/FinanceEngine.ts:67-71 | the four separately rounded operations lines differ from the academy fee by at most 2 cents |
| Pricing.ExchangeRate | components/PricingPage.tsx:22 | every rate is in (0, 1], and it is exactly 1 only for dollars |
| Pricing.FamilyFactor | components/PricingPage.tsx:86-89 | the price factor is 0.9 for two students, 0.8 for three or more and 1 otherwise |
| Pricing.CalculatePrice | components/PricingPage.tsx:83-99 | a non-negative base and count never give a negative quote |
| Pricing.MonthlyUsdSingleIsBase | components/PricingPage.tsx:83-99 | one student, monthly, in dollars, pays exactly the base price |
| Pricing.PlansQuoteTheirBase | components/PricingPage.tsx:24-67 | each of the three plans (35, 65, 110) quotes its own base price |
| Pricing.ConvertedOnce | components/PricingPage.tsx:84 | every unrounded quote is the exchange rate times the dollar quote |
| Pricing.QuarterIsDiscountedMonths | components/PricingPage.tsx:94-98 | a quarter is 2.55 times the unrounded monthly price, rounded once |
| Pricing.MonotoneInBase | components/PricingPage.tsx:83-99 | a larger base price never lowers the quote |
| Pricing.MonotoneInCount | components/PricingPage.tsx:86-91 | over the selectable counts 1, 2 and 3, adding a student never lowers the quote |
| Pricing.FamilyExamples | components/PricingPage.tsx:83-99 | two students on the standard plan pay 117 a month; three on the elite plan pay 673 a quarter |
| JsMath.Round | components/PricingPage.tsx:98 | `Math.round(x)` is the integer within (x - 1/2, x + 1/2] |
| JsMath.RoundMonotone | components/PricingPage.tsx:98 | rounding preserves order |
| Registry.Encrypt | components/App.tsx:32-36 | the envelope fails exactly when the text has a code point above U+00FF; otherwise it decodes to text, separator and salt |
| Registry.Decrypt | components/App.tsx:37-47 | there is a result exactly when the text decodes and its second ":::" field is the salt; the result is the text before the first separator, followed there by the separator and the salt; otherwise the registry is empty |
| Registry.VaultRoundTrip | components/App.tsx:31-48 | a storable text with no separator and no trailing colon reads back unchanged |
| Registry.EnvelopeSplits | components/App.tsx:35-40 | such an envelope splits into exactly the text and the salt |
| Registry.VaultLosesTrailingColon | components/App.tsx:37-47 | a text ending in a colon reads back as the empty registry |
| Registry.SeparatorInValueEmptiesRegistry | components/App.tsx:37-47 | a registry holding a user named `a:::b` reads back as the empty registry |
| Registry.DecryptSuffix | components/App.tsx:31-48 | the corrected reader returns a text only when the decoded text is that text followed by separator and salt |
| Registry.SuffixVaultRoundTrip | components/App.tsx:31-48 | with the corrected reader every storable text reads back unchanged |
| Registry.IdPrefix | components/App.tsx:155 | the role prefix is five characters beginning "QWT-" |
| Registry.IdNumber | components/App.tsx:157 | the random part is always a four-digit number from 1000 to 9999 |
| Registry.GenerateAcademyId | components/App.tsx:154-159 | every identifier starts with its role prefix and a dash |
| Registry.AcademyIdFields | components/App.tsx:154-159 | an identifier splits on "-" into "QWT", the role letter, the year and the four-digit random number, which read back as their values |
| Registry.OtpInput | components/App.tsx:377-380 | the code field keeps only digits, at most four of them, and never grows |
| Registry.OtpInputIgnoresOverflow | components/App.tsx:377 | whatever is typed after the first four characters is ignored |
| Registry.OtpOverlongAccepted | components/App.tsx:377-380 | typing "12345" leaves "1234" in the field, an accepted code |
| Registry.OtpInputKeepsCode | components/App.tsx:377-380 | typing an accepted code, followed by anything, leaves exactly that code in the field |
| Registry.BuyClass | components/App.tsx:189-198 | exactly the users with that id are marked paid; nobody else changes |
| Registry.BuyClassIdempotent | components/App.tsx:189-198 | paying twice is paying once |
| Registry.UpdateStatus | components/App.tsx:227-236 | matching users get the status, the tier only when one is given and the role only when one is given; nothing else changes |
| Registry.UpdateKeepsIds | components/App.tsx:227-236 | an update never changes an identifier or the payment flag |
| Registry.DeleteExactly | components/App.tsx:238-240 | every copy of a user with another id is kept, no user with that id is, and the kept users stay in registry order |
| Registry.DeleteIdempotent | components/App.tsx:238-240 | deleting twice is deleting once |
| Registry.OrElse | components/App.tsx:205-212 | `v \|\| fallback`: a non-empty value wins, otherwise the fallback |
| Registry.NewUser | components/App.tsx:203-216 | the new user is approved, unpaid, standard tier, with the form's fields or their documented defaults |
| Registry.FinalizeEnrollment | components/App.tsx:200-225 | the new user is appended and nothing else in the registry changes; the flow ends on the dashboard |
| Registry.VerifyOtp | components/App.tsx:173-187 | a wrong code only sets the violation message and ends submitting; an accepted code appends the pending form as an e-mail student with a fresh student id, keeps every earlier user, clears the form and the code screen and opens the dashboard; with no pending form the state stays submitting |
| Registry.VerifiedStudentReadsBack | components/App.tsx:154-159 | after an accepted code the earlier users are in place and the last one has the form's e-mail, is approved and unpaid, and has an id that reads back as a student's of that year |
| Registry.EnrolThenPay | components/App.tsx:189-225 | a freshly enrolled user who then pays is marked paid and stays approved |
| AppRoot.Stamp | App.tsx:91 | the stamp is the last four digits of the clock: at most four digits, worth the clock modulo 10000 |
| AppRoot.EnrolmentId | App.tsx:91 | the identifier is "QWT-", the role's initial, "-" and the stamp |
| AppRoot.EnrolmentIdShape | App.tsx:91 | from a clock of 1000 on, the identifier has 10 characters, and a student's starts "QWT-S-" |
| AppRoot.DigitsValueAppend | App.tsx:91 | the value of concatenated digit strings is the shifted first value plus the second |
| AppRoot.RegisterRequest | App.tsx:92-99 | the request carries the form's fields, the generated id and the course default |
| AppRoot.AfterRegister | App.tsx:101-106 | on success, the dashboard; on failure, the alert with the back end's error; never left submitting |
| StatCounter.NumericValue | App.tsx:35 | a statistic with no digits counts as 0 |
| StatCounter.Suffix | App.tsx:36 | the suffix holds no digit |
| StatCounter.ValueAndSuffixCover | App.tsx:35-36 | the digits and the suffix together account for every character |
| StatCounter.ReadsBack | App.tsx:35-36 | a number followed by a digit-free suffix reads back as that number and suffix |
| StatCounter.RatingReadsAsFifty | App.tsx:35-36 | the statistic "5.0" counts up to 50 with suffix "." |
| StatCounter.Progress | App.tsx:48-52 | progress never exceeds 1, and reaches it exactly when the 2500 ms have elapsed |
| StatCounter.Displayed | App.tsx:53-56 | the count shown stays between 0 and the value, and is the value once the animation ends |
| Portal.Hydrate | components/PortalPage.tsx:59-66 | falsy metrics get their showcase values (12, 1450, 35, QARI, 88); every other field is copied |
| Portal.HydrateIdempotent | components/PortalPage.tsx:59-66 | hydrating twice is hydrating once |
| Portal.HandleAccess | components/PortalPage.tsx:47-68 | the first matching user, hydrated, is signed in; with no match only the error is set |
| Portal.IdLoginIgnoresPassword | components/PortalPage.tsx:51-52 | the identifier form ignores the password field |
| Portal.UnknownStaysOut | components/PortalPage.tsx:56 | an unrecognised visitor stays signed out with the error message |
| Portal.FirstUserFoundById | components/PortalPage.tsx:52 | the first user is found by their id typed in lower case with surrounding white space |
| Portal.FamilyMembers | components/PortalPage.tsx:42-45 | a guardian sees every copy of every user linked to them and nobody else, in registry order; anybody else sees nobody |
| Portal.Tabs | components/PortalPage.tsx:383-388 | the family tab appears exactly for a guardian, between the overview and the curriculum |
| Portal.PaymentSuccess | components/PortalPage.tsx:70-76 | signed in, the user is marked paid, the gateway closes and their id goes to the registry; signed out, nothing happens |
| Portal.PaymentReachesRegistry | components/PortalPage.tsx:70-76 | after a payment the registry entry and the portal's copy both say paid |
| Portal.Logout | components/PortalPage.tsx:405 | signing out clears the user and the AI view and nothing else |
| Portal.LogoutHidesFamily | components/PortalPage.tsx:405 | after signing out there is no family wing |
| AdminDashboard.PaddedKeyAccepted | components/AdminDashboard.tsx:40 | the director key in any case, with white space around it, is accepted |
| AdminDashboard.AcceptedKeyIsPadded | components/AdminDashboard.tsx:40 | an accepted key is the director key in some case, with only white space around it |
| AdminDashboard.HandleAuth | components/AdminDashboard.tsx:42-45 | the console opens exactly when it was open or the key is valid |
| AdminDashboard.Lock | components/AdminDashboard.tsx:97 | locking closes the console and keeps the typed key |
| AdminDashboard.StudentFinances | components/AdminDashboard.tsx:49 | a student is billed for their tier, or standard when none, for one student at rate 1 |
| AdminDashboard.MissingTierIsStandard | components/AdminDashboard.tsx:49 | a student without a tier brings 6500 cents, 3900 to the academy |
| AdminDashboard.FinancialSummary | components/AdminDashboard.tsx:48-55 | the ledger revenue is always commission plus faculty owed |
| AdminDashboard.LedgerIsSum | components/AdminDashboard.tsx:47-55 | the ledger is the sum over the approved students of their net and fee |
| AdminDashboard.LedgerCountsApprovedStudents | components/AdminDashboard.tsx:47-55 | appending a user changes the ledger only when they are an approved student, and then by their net |
| AdminDashboard.Filtered | components/AdminDashboard.tsx:57-62 | the table keeps every copy of every user matching the status filter and the search and nobody else, in order |
| AdminDashboard.AllEmptyShowsRegistry | components/AdminDashboard.tsx:57-62 | with no filter and no search the whole registry is shown |
| Text.ContainsAt | components/TutorsPage.tsx:121 | `includes` holds exactly when the needle occurs at some offset |
| Text.SplitJoin | components/App.tsx:40 | joining the pieces of `split` with the separator gives back the text |
| Text.Trim | components/PortalPage.tsx:52 | `trim` returns the middle slice that neither starts nor ends with white space; everything cut off is white space |
| Text.TrimFramed | components/PortalPage.tsx:52 | trimming white space from around a core returns the core |
| Text.FilterIsSubsequence | components/TutorsPage.tsx:119 | `filter` keeps a subsequence of its input |
| Text.FilterCount | components/TutorsPage.tsx:119 | `filter` keeps each passing element as often as it occurs and drops every other one |
| Text.FilterAppend | components/AdminDashboard.tsx:47 | filtering a concatenation is concatenating the filtered parts |
| Text.Dedup | components/TutorsPage.tsx:110-114 | `[...new Set(s)]` has no repeats and the same members as `s` |
| Text.DedupFirstOccurrenceOrder | components/TutorsPage.tsx:110-114 | `[...new Set(s)]` lists its members in the order of their first occurrences in `s` |
| Base64.Encode | components/LiveClassroom.tsx:71-75 | the encoding has 4 characters per started group of 3 bytes, with `=` only in the last two places |
| Base64.Decode | components/LiveClassroom.tsx:77-82 | decoding succeeds exactly when the text, without white space and padding, is base 64 characters and not one past a group |
| Base64.RoundTrip | components/LiveClassroom.tsx:71-82 | decoding an encoding gives back the bytes |
| Base64.UnpaddedAccepted | components/LiveClassroom.tsx:77-82 | an encoding without its padding decodes too |
| Base64.Btoa | components/LiveClassroom.tsx:74 | `btoa` fails exactly on a code point above U+00FF |
| Base64.AtobBtoa | components/LiveClassroom.tsx:71-82 | `atob(btoa(s))` is `s` for every Latin-1 string |
| Base64.DecodeEncode | components/LiveClassroom.tsx:71-82 | the byte-level `decode(encode(b))` is `b` |
| Pcm.Trunc | components/LiveClassroom.tsx:144 | truncation toward zero |
| Pcm.Wrap16 | components/LiveClassroom.tsx:143-144 | storing into an Int16Array wraps modulo 65536 and keeps values already in range |
| Pcm.QuantizeInRange | components/LiveClassroom.tsx:143-144 | a sample in [-1, 1) is stored within one step of 1/32768 of its value |
| Pcm.QuantizeOneWraps | components/LiveClassroom.tsx:144 | a full-scale sample of 1.0 wraps to -32768 |
| Pcm.QuantizeOverdriveWraps | components/LiveClassroom.tsx:144 | an overdriven sample of 1.5 wraps to -16384 |
| Pcm.CaptureBlock | components/LiveClassroom.tsx:141-148 | every captured sample is stored as ToInt16 of its product with 32768, congruent to the truncated product modulo 2^16; an in-range sample is kept to within one quantisation step |
| Pcm.CaptureWraps | components/LiveClassroom.tsx:143-144 | a captured 1.0 is stored as -32768 and a captured 1.5 as -16384: the capture wraps instead of clipping |
| Pcm.SignedUnsigned | components/LiveClassroom.tsx:85 | reading an int16's two bytes back as signed gives the same int16 |
| Pcm.WordInjective | components/LiveClassroom.tsx:85 | two bytes form distinct 16-bit words |
| Pcm.PackLE | components/LiveClassroom.tsx:146 | each value takes two little-endian bytes |
| Pcm.ViewInt16 | components/LiveClassroom.tsx:85 | an Int16Array view exists exactly for an even byte count, one value per two bytes; otherwise a RangeError |
| Pcm.ViewPack | components/LiveClassroom.tsx:85 | viewing packed values gives them back |
| Pcm.PackView | components/LiveClassroom.tsx:85 | packing a view gives the bytes back |
| Pcm.FrameCount | components/LiveClassroom.tsx:86-87 | a frame count is at least 1 and its frames fit the data; odd data is a RangeError |
| Pcm.DecodeAudioData | components/LiveClassroom.tsx:84-93 | one channel per stream, sample i of channel c is the dequantised value at i * channels + c, every sample in [-1, 1); a bad shape is an error |
| Pcm.CapturePayload | components/LiveClassroom.tsx:141-148 | the base-64 payload of a captured block decodes to the block's int16 values |
| Pcm.CaptureRoundTrip | components/LiveClassroom.tsx:71-93 | capture, transport and decode reproduce every in-range sample to within one step |
| Playback.Flush | components/LiveClassroom.tsx:168-172 | an interrupt stops every queued source and resets the cursor to 0 |
| Playback.PlayAudio | components/LiveClassroom.tsx:174-185 | a buffer starts at or after both the clock plus offset and the cursor, the cursor moves to its end, and a fresh id is queued; a decode failure schedules nothing |
| Playback.Handle | components/AiHifzMentor.tsx:119-151 | a message with no audio or no context changes nothing; an interrupt empties the queue; the configured order decides whether audio in an interrupting message still plays |
| Playback.OnEnded | components/LiveClassroom.tsx:185 | an ended source removes itself and nothing else |
| Playback.OnEndedOnlyItself | components/LiveClassroom.tsx:185 | other queued sources stay queued |
| Playback.NoContextDrops | components/LiveClassroom.tsx:175 | without an output context an audio message is ignored |
| Playback.ReanchorAfterInterrupt | components/LiveClassroom.tsx:168-177 | after an interrupt the next buffer starts at clock plus offset |
| Playback.RunNoOverlap | components/LiveClassroom.tsx:174-185 | without interrupts, buffers play back to back, never overlap, and the cursor never goes back |
| Playback.RunIdsFresh | components/LiveClassroom.tsx:179-185 | every scheduled source gets an id not used before the run |
| Playback.RunIdsIncreasing | components/LiveClassroom.tsx:179-185 | ids of scheduled sources increase along a run |
| LiveClassroom.AddLog | components/LiveClassroom.tsx:67-69 | the new entry goes first, older entries follow, at most 15 kept |
| LiveClassroom.AddLogTwice | components/LiveClassroom.tsx:67-69 | two entries appear newest first, above the older log |
| LiveClassroom.Start | components/LiveClassroom.tsx:106-108 | starting logs the initialisation and opens the output |
| LiveClassroom.OnOpen | components/LiveClassroom.tsx:132-136 | opening activates the session with status "Active Sync" |
| LiveClassroom.OnErrorOrClose | components/LiveClassroom.tsx:189-190 | an error or close only deactivates |
| LiveClassroom.StartFailed | components/LiveClassroom.tsx:194-196 | a failed start only sets "Link Failure" |
| LiveClassroom.OnMessage | components/LiveClassroom.tsx:166-188 | the session takes the scheduler step with offset 0.05 and interrupt first; a decodable buffer with an output context is queued under a fresh id and moves the cursor past its own end, at least 0.05 s after the clock; an interrupt flushes playback; other messages never move the cursor back nor drop queued audio |
| LiveClassroom.StartsAfterSafetyOffset | components/LiveClassroom.tsx:174-183 | every buffer starts at least 0.05 s after the clock and not before the cursor |
| LiveClassroom.InterruptSkipsAudio | components/LiveClassroom.tsx:168-172 | an interrupting message schedules no audio, even audio it carries |
| LiveClassroom.ReanchorsAfterInterrupt | components/LiveClassroom.tsx:168-177 | after an interrupt the next buffer starts exactly at clock plus 0.05 |
| HifzMentor.AppendTranscript | components/AiHifzMentor.tsx:136-137 | the transcript is the last up-to-150 characters of old text, a space and the new text |
| HifzMentor.Cue | components/AiHifzMentor.tsx:141 | the cue is the text's first sentence, a prefix without a full stop |
| HifzMentor.RecordErrors | components/AiHifzMentor.tsx:140-141 | only texts mentioning makhraj or hesitation add their cue; the list stays duplicate-free |
| HifzMentor.RecordErrorsKeepsInvariant | components/AiHifzMentor.tsx:140-141 | the error list stays duplicate-free and at most 5 long, and a new cue is appended last |
| HifzMentor.StopSession | components/AiHifzMentor.tsx:58-71 | stopping ends the drill, stops all audio and keeps the cursor |
| HifzMentor.OnError | components/AiHifzMentor.tsx:152 | an error is a stop |
| HifzMentor.OnClose | components/AiHifzMentor.tsx:153 | a close only deactivates |
| HifzMentor.OnMessage | components/AiHifzMentor.tsx:119-151 | the session takes the scheduler step with offset 0 and audio first; a decodable buffer is queued and moves the cursor to max(cursor, clock) plus its length; unless decoding threw, a transcription is appended to the transcript and recorded as an error cue; a message without one keeps both; an interrupt flushes; a decode failure stops the handler before the transcript |
| HifzMentor.StartsAtClockOrCursor | components/AiHifzMentor.tsx:123-129 | with no offset, a buffer starts at the later of the clock and the cursor |
| HifzMentor.AudioThenInterrupt | components/AiHifzMentor.tsx:121-150 | audio in an interrupting message is scheduled, then flushed |
| HifzMentor.DecodeFailureStopsHandler | components/AiHifzMentor.tsx:123-124 | a bad payload still moves the cursor to its anchor but schedules nothing and skips the rest |
| HifzMentor.StopKeepsCursor | components/AiHifzMentor.tsx:58-71 | after a stop, the next buffer still waits for the old cursor |
| PronunciationLab.AppendFeedback | components/AiPronunciationLab.tsx:84 | feedback is the last up-to-500 characters of old text, a space and the new text |
| PronunciationLab.Score | components/AiPronunciationLab.tsx:88-91 | praise words give the high scores, then correction words the low ones, otherwise the scores stay |
| PronunciationLab.IncorrectCountsAsCorrect | components/AiPronunciationLab.tsx:90 | "Incorrect" contains "correct", so it gets the correction scores |
| PronunciationLab.NoKeywordKeepsScores | components/AiPronunciationLab.tsx:88-91 | a text with no keyword keeps the scores |
| PronunciationLab.OnTranscription | components/AiPronunciationLab.tsx:82-92 | a transcription updates feedback and scores only |
| PronunciationLab.SelectVerse | components/AiPronunciationLab.tsx:179 | choosing a verse clears scores and feedback |
| PronunciationLab.SelectVerseLast | components/AiPronunciationLab.tsx:179 | only the last verse chosen matters |
| PronunciationLab.StopAnalysis | components/AiPronunciationLab.tsx:114-121 | stopping ends recording with "Analysis Complete" and keeps the results |
| PronunciationLab.ErrorThenClose | components/AiPronunciationLab.tsx:95-96 | an error leaves recording on until the close, which keeps the failure status |
| DailyDuas.FilteredDuas | components/DailyDuasPage.tsx:86-91 | exactly the duas matching the age mode and the search, in order |
| DailyDuas.AllEmptyShowsEverything | components/DailyDuasPage.tsx:86-91 | no mode and no search show every dua |
| DailyDuas.KidsModeHidesOnlyAnxiety | components/DailyDuasPage.tsx:19-91 | kids mode hides only the adults-only dua |
| DailyDuas.AdultsModeHidesOnlyKnowledge | components/DailyDuasPage.tsx:19-91 | adults mode hides only the kids-only dua |
| DailyDuas.StopAudio | components/DailyDuasPage.tsx:122-128 | stopping leaves nothing playing and keeps the loading state |
| DailyDuas.OnClick | components/DailyDuasPage.tsx:130-148 | clicking the playing dua stops it; a click while loading is ignored; otherwise the dua is requested |
| DailyDuas.OnResponse | components/DailyDuasPage.tsx:160-191 | loading always ends; a missing or undecodable payload alerts and plays nothing, a good one plays the dua |
| DailyDuas.OnEnded | components/DailyDuasPage.tsx:178-181 | a finished recitation leaves nothing playing |
| DailyDuas.PlayThenToggle | components/DailyDuasPage.tsx:130-185 | after playing a dua, clicking it again stops everything |
| DailyDuas.LoadingIgnoresClicks | components/DailyDuasPage.tsx:136 | while one dua loads, clicks on another do nothing |
| Tutors.Specializations | components/TutorsPage.tsx:110-114 | "All" first, then every specialization once |
| Tutors.FacultySpecializations | components/TutorsPage.tsx:110-114 | the faculty list offers "All" and its six specializations in order |
| Tutors.FilteredTutors | components/TutorsPage.tsx:118-130 | exactly the tutors matching search, specialization and availability, in order |
| Tutors.ResetShowsEveryone | components/TutorsPage.tsx:404 | after "Reset All Filters" every tutor is shown |
| Tutors.NoLanguagesSearch | components/TutorsPage.tsx:123 | a tutor without languages is found only by name or specialization |
| Tutors.FemaleTutorFilter | components/TutorsPage.tsx:118-130 | filtering on "Female Tutor" shows only the second tutor |
| Tutors.BadgeStyle | components/TutorsPage.tsx:132-147 | each of the five colours is chosen exactly when its rule's words are mentioned and no earlier rule's are: emerald, blue, purple, rose, and slate when none is |
| Tutors.TajweedBeforeHifz | components/TutorsPage.tsx:134-142 | a tag naming tajweed and hifz gets the tajweed colour |
| Tutors.RoseMeansNoEarlierRule | components/TutorsPage.tsx:134-145 | a rose badge means female or kids and none of the earlier words |
| Tutors.AvailabilityColour | components/TutorsPage.tsx:149-156 | each status has its colour; anything else gets slate |
| Tutors.StatusesHaveColours | components/TutorsPage.tsx:149-156 | the three statuses get three distinct non-default colours |
| Resources.FilteredResources | components/ResourcesPage.tsx:84-88 | exactly the resources matching category and title or tag search, in order |
| Resources.Clear | components/ResourcesPage.tsx:210 | clearing the filters shows the whole library |
| Resources.AllEmptyShowsLibrary | components/ResourcesPage.tsx:84-88 | all six resources are shown with no filter |
| Resources.DescriptionNotSearched | components/ResourcesPage.tsx:86-87 | the description plays no part in the search |
| Resources.RecitationOnlyUnderAll | components/ResourcesPage.tsx:52-82 | the recitation resource's category has no tab, so only "All" shows it |
| Faq.FilteredFaqs | components/FaqPage.tsx:97-101 | exactly the questions matching the tab and the search in question or answer, in order |
| Faq.AllEmptyShowsEverything | components/FaqPage.tsx:17-58 | all eight questions are shown with no filter |
| Faq.NoEmptyTab | components/FaqPage.tsx:60 | every tab has at least one question |
| Faq.Click | components/FaqPage.tsx:68 | a click toggles the accordion |
| Faq.ClickTwice | components/FaqPage.tsx:68 | two clicks restore it |
| Courses.FilteredCourses | components/CoursesPage.tsx:109-112 | exactly the courses whose title or description contains the query, in order |
| Courses.EmptyQueryShowsAll | constants.tsx:32-85 | an empty query shows all four courses |
| Courses.ToggleSyllabus | components/CoursesPage.tsx:76 | the syllabus button toggles |
| Courses.ToggleTwice | components/CoursesPage.tsx:76 | two clicks restore it |
| Arabic.Fold | script.js:76-78 | the three alefs become bare alef, teh marbuta heh, alef maksura yeh; no variant survives |
| Arabic.StripDiacritics | script.js:75 | the result has no mark from U+064B to U+065F and is a subsequence of the text |
| Arabic.Normalize | script.js:74-79 | normalised text has no diacritic and no variant letter, one letter per kept letter |
| Arabic.NormalizeLength | script.js:75 | the length is kept exactly when there are no diacritics |
| Arabic.KeepsPlainLetters | script.js:74-79 | plain letters survive, and only alef, heh and yeh can appear from elsewhere |
| Arabic.SuperscriptAlefKept | script.js:75 | the superscript alef (U+0670) is outside the stripped range and is kept |
| Arabic.NormalizeIdempotent | script.js:74-79 | normalising twice is normalising once |
| Arabic.ToArabicNumerals | script.js:82-85 | every ASCII digit becomes its Eastern form and other characters stay |
| Arabic.NumeralsRoundTrip | script.js:82-85 | mapping the Eastern digits back gives the text again |
| Invoice.TransactionHash | utils/InvoiceGenerator.ts:35-37 | "0x" and forty lower-case hexadecimal digits |
| Invoice.HashRecordsDraws | utils/InvoiceGenerator.ts:36 | each digit names the sixteenth of [0, 1) its random draw fell in |
| Invoice.InvoiceFieldsReadBack | utils/InvoiceGenerator.ts:12-30 | with single-line fields, the receipt has 16 lines, each a label followed by its field |
| Invoice.LabelsSingleLine | utils/InvoiceGenerator.ts:14-30 | no template label contains a line break |
| Invoice.ReceiptCarriesHash | utils/InvoiceGenerator.ts:27 | with a generated hash the TXID line is 52 characters and carries "0x" after the label |
| I18n.Detect | components/I18nContext.tsx:16-24 | a non-empty saved choice wins; otherwise the browser's primary subtag if it is EN, AR, UR or FR; else EN |
| I18n.NeverDetectsTurkishOrMalay | components/I18nContext.tsx:21-23 | detection never picks TR or MS |
| I18n.DetectIgnoresCase | components/I18nContext.tsx:21 | the browser tag's case does not matter |
| I18n.DetectExamples | components/I18nContext.tsx:16-24 | "fr-CA" gives FR, "de-DE" gives EN, and an empty saved value falls through to "ar" |
| I18n.SetLang | components/I18nContext.tsx:26-29 | the choice is applied and stored |
| I18n.ChoiceSurvivesReload | components/I18nContext.tsx:16-29 | a stored choice is what a reload detects, whatever the browser says |
| I18n.Translate | components/I18nContext.tsx:31-33 | the language's non-empty entry, else the English one, else the key; fails for a language missing from the table |
| I18n.TranslationNeverBlank | components/I18nContext.tsx:31-33 | a non-empty key never translates to an empty text |
| I18n.MissingEntryReadsEnglish | components/I18nContext.tsx:32 | a missing entry reads as the English one |
| I18n.EnglishReadsItself | components/I18nContext.tsx:32 | English reads its own entry, or the key |
| I18n.IsRtl | components/I18nContext.tsx:35 | right-to-left exactly when the table's DIR entry is "rtl" |
| I18n.Document | components/I18nContext.tsx:37-40 | the document language is the lower-cased code and the direction is rtl or ltr as the table says |
| I18n.SwitchSetsDirection | components/I18nContext.tsx:26-40 | switching language sets the direction from the new language's entry |

## Findings

| source | as written | input that shows it | evidently intended | confidence | as-written member | corrected member |
|---|---|---|---|---|---|---|
| components/App.tsx:37-47 | `decrypt` splits the decoded text on ":::" and takes the first two fields, so a registry whose JSON text holds ":::" fails the salt check and the store is reset to `[]` | a registry holding a user named `a:::b`, whose JSON text is `["a:::b"]` | every stored registry reads back unchanged | high, not executed | Registry.SeparatorInValueEmptiesRegistry | Registry.SuffixVaultRoundTrip |

`Registry.DecryptSuffix` takes the text before the final separator and
salt. `Registry.SuffixVaultRoundTrip` proves that it returns every storable
text unchanged. `Registry.Decrypt` remains the model of the code as
written.

## Left out

- Web Audio, microphones, WebSockets and the Gemini SDK are left out. The
  model keeps only what the code computes from their events: session
  callbacks are functions on a state record, and the audio clock is a
  parameter.
- Asynchrony and timers are left out (`setTimeout` delays,
  `requestAnimationFrame`, `await`). Each callback is one atomic step.
- `utils/ApiService.ts`, the PHP and Python back end, and
  `translations.ts` are not part of this model. The back-end answer is a
  parameter, and the translation table is a parameter of `I18n.Translate`.
- `JSON.stringify` and `JSON.parse` are left out: the registry's JSON text
  is an opaque string in the vault model.
- Case maps cover only the ASCII letters. JavaScript's full Unicode
  `toLowerCase`/`toUpperCase` is not modelled.
- Floating point is left out. Money is integer cents, and the division
  by 100 into dollars is not modelled. Rates are exact rationals, so the
  binary rounding of 0.78 or 0.6 is not reproduced.
- `toLocaleString` and `toFixed` are left out. The receipt takes the
  amount as text.
- StatCounter.NumericValue: `parseInt` of a number above 2^53 loses
  precision in the source. The model keeps every digit.
- StatCounter.Displayed: the easing `1 - (1 - p)^5` is an input in [0, 1]
  and is not computed.
- Pcm.Trunc: NaN and infinite samples are not modelled, because samples
  are exact reals.
- Registry.VaultRoundTrip: it requires that the text holds no ":::" and
  does not end in a colon. Both requirements are needed, as
  Registry.SeparatorInValueEmptiesRegistry and
  Registry.VaultLosesTrailingColon show. The JSON text of an array ends
  in "]", so the second one never arises in the application.
- `RegistryUser` fields that no modelled operation reads are left out:
  `linkedStudentIds`, `lastRecitedAyah` and `preferredLanguage`.
- Catalogue fields that no filter reads are left out: images, prices,
  biographies and syllabi.
- The confidence figure of the Hifz mentor is left out. Each
  transcription sets it to a random whole number from 80 to 99, shown as
  "AI Confidence"; it is a display value that no other state reads.
- The `console.log` in `generateInvoice` and the `console.warn` in
  `decrypt` are left out.
- The UI effects in `script.js` are left out: the cursor glow, the FPS
  monitor, and the Ctrl-key handler that only logs a console message.
- The rendering of every page (JSX, styles, icons) is left out.
- Registry.OtpInput: the typed text is the whole new field value, and
  the four-character cap keeps its first four characters. Editing in the
  middle of a full field, which the browser also blocks, is not modelled.
- HifzMentor.AppendTranscript: `slice(-150)` counts UTF-16 code units,
  while the model counts Unicode scalar values. With a character outside
  the Basic Multilingual Plane the model keeps one more character, and
  the source can cut a surrogate pair in half.
- PronunciationLab.AppendFeedback: the same code-unit gap as for the
  transcript, with `slice(-500)`.
- HifzMentor.OnMessage: a transcription event whose `text` is undefined
  is not modelled. The source then appends " undefined" and throws at
  `text.toLowerCase()`, which also skips the interrupt handling.
- PronunciationLab.OnTranscription: the same undefined-text path is not
  modelled. The source appends " undefined" and then throws.

=== FILE: admin.dfy ===
/** The director's console: the access key, the ledger of approved
    students, and the filtered user table. */
module AdminDashboard {
  import opened Wrappers
  import opened Text
  import opened Registry
  import opened FinanceEngine

  /* ---------------- access ---------------- */

  const DirectorKey: string := "TAHIR-DIRECTOR-2025"

  /** `validateKey(k)`. */
  predicate ValidateKey(k: string) {
    Upper(Trim(k)) == DirectorKey
  }

  /** Any spelling of the key in upper or lower case, with white space
      around it, opens the console. */
  lemma PaddedKeyAccepted(pre: string, key: string, post: string)
    requires AllJsSpace(pre) && AllJsSpace(post) && Upper(key) == DirectorKey
    ensures ValidateKey(pre + key + post)
  {
    assert |key| == |DirectorKey|;
    assert UpperChar(key[0]) == 'T' && UpperChar(key[|key| - 1]) == '5';
    TrimFramed(pre, key, post);
  }

  /** Every accepted input is the key, in some case spelling, framed by
      white space. */
  lemma AcceptedKeyIsPadded(k: string)
    requires ValidateKey(k)
    ensures exists i :: TrimmedAt(k, Trim(k), i) && Upper(k[i..i + |DirectorKey|]) == DirectorKey
  {
    var i :| TrimmedAt(k, Trim(k), i);
    assert |Trim(k)| == |DirectorKey|;
    assert k[i..i + |DirectorKey|] == Trim(k);
  }

  datatype Console = Console(authenticated: bool, accessKey: string)

  /** `handleAuth`: the console opens only through a valid key. */
  function HandleAuth(c: Console): (r: Console)
    ensures r.authenticated <==> c.authenticated || ValidateKey(c.accessKey)
    ensures r.accessKey == c.accessKey
  {
    if ValidateKey(c.accessKey) then c.(authenticated := true) else c
  }

  /** "Lock Session". */
  function Lock(c: Console): (r: Console)
    ensures !r.authenticated && r.accessKey == c.accessKey
  {
    c.(authenticated := false)
  }

  /* ---------------- the ledger ---------------- */

  predicate IsApprovedStudent(u: User) {
    u.status == Approved && u.role == Student
  }

  /** `approvedStudents`. */
  function ApprovedStudents(reg: seq<User>): (r: seq<User>)
    ensures |r| <= |reg|
  {
    Filter(reg, IsApprovedStudent)
  }

  /** The finances of one student: `curr.tier || 'STANDARD'`, one
      student, rate 1. */
  function StudentFinances(u: User): (f: Finances)
    ensures f == Calculate(if u.tier.Some? then u.tier.value else Standard, 1, 1.0)
    ensures f.net == f.academyFee + f.tutorEarning
  {
    Calculate(if u.tier.Some? then u.tier.value else Standard, 1, 1.0)
  }

  /** A student with no tier is charged as a standard one: 65.00, of which
      39.00 goes to the academy. */
  lemma MissingTierIsStandard(u: User)
    requires u.tier.None?
    ensures StudentFinances(u).net == 6500 && StudentFinances(u).academyFee == 3900
  {
    StandardOneStudent();
  }

  /** The three running totals, in cents. */
  datatype Summary = Summary(totalRevenue: int, totalCommission: int, totalFacultyOwed: int)

  /** `reduce` step: adds one student's net, fee and earning. */
  function Accumulate(acc: Summary, users: seq<User>): (r: Summary)
    ensures acc.totalRevenue == acc.totalCommission + acc.totalFacultyOwed ==>
              r.totalRevenue == r.totalCommission + r.totalFacultyOwed
    decreases |users|
  {
    if |users| == 0 then acc
    else
      var f := StudentFinances(users[0]);
      Accumulate(Summary(acc.totalRevenue + f.net, acc.totalCommission + f.academyFee,
                         acc.totalFacultyOwed + f.tutorEarning), users[1..])
  }

  /** `financialSummary`: the fold over the approved students. */
  function FinancialSummary(reg: seq<User>): (r: Summary)
    ensures r.totalRevenue == r.totalCommission + r.totalFacultyOwed
  {
    Accumulate(Summary(0, 0, 0), ApprovedStudents(reg))
  }

  /** Reference sums, from the right. */
  function SumNet(users: seq<User>): int {
    if |users| == 0 then 0 else SumNet(users[..|users| - 1]) + StudentFinances(users[|users| - 1]).net
  }

  function SumFee(users: seq<User>): int {
    if |users| == 0 then 0 else SumFee(users[..|users| - 1]) + StudentFinances(users[|users| - 1]).academyFee
  }

  /** The fold from the left adds up the same amounts as the sums. */
  lemma {:induction false} AccumulateSums(acc: Summary, users: seq<User>)
    ensures Accumulate(acc, users).totalRevenue == acc.totalRevenue + SumNet(users)
    ensures Accumulate(acc, users).totalCommission == acc.totalCommission + SumFee(users)
    decreases |users|
  {
    if |users| > 0 {
      var f := StudentFinances(users[0]);
      var next := Summary(acc.totalRevenue + f.net, acc.totalCommission + f.academyFee,
                          acc.totalFacultyOwed + f.tutorEarning);
      assert Accumulate(acc, users) == Accumulate(next, users[1..]);
      AccumulateSums(next, users[1..]);
      SumsCons(users);
    }
  }

  /** Splitting off the first element of a sum. */
  lemma {:induction false} SumsCons(users: seq<User>)
    requires |users| > 0
    ensures SumNet(users) == StudentFinances(users[0]).net + SumNet(users[1..])
    ensures SumFee(users) == StudentFinances(users[0]).academyFee + SumFee(users[1..])
    decreases |users|
  {
    if |users| > 1 {
      var init := users[..|users| - 1];
      assert init[1..] == users[1..][..|users[1..]| - 1];
      assert init[0] == users[0];
      SumsCons(init);
    }
  }

  /** The ledger totals are the sums over the approved students of the net
      and of the academy fee. */
  lemma LedgerIsSum(reg: seq<User>)
    ensures FinancialSummary(reg).totalRevenue == SumNet(ApprovedStudents(reg))
    ensures FinancialSummary(reg).totalCommission == SumFee(ApprovedStudents(reg))
  {
    AccumulateSums(Summary(0, 0, 0), ApprovedStudents(reg));
  }

  /** Registering anyone who is not an approved student leaves the ledger
      as it was; registering one adds exactly their net. */
  lemma LedgerCountsApprovedStudents(reg: seq<User>, u: User)
    ensures !IsApprovedStudent(u) ==> FinancialSummary(reg + [u]) == FinancialSummary(reg)
    ensures IsApprovedStudent(u) ==>
              FinancialSummary(reg + [u]).totalRevenue == FinancialSummary(reg).totalRevenue + StudentFinances(u).net
  {
    FilterAppend(reg, [u], IsApprovedStudent);
    assert [u][1..] == [];
    if !IsApprovedStudent(u) {
      assert ApprovedStudents(reg + [u]) == ApprovedStudents(reg) + [];
      assert ApprovedStudents(reg) + [] == ApprovedStudents(reg);
    } else {
      LedgerIsSum(reg);
      LedgerIsSum(reg + [u]);
      var a := ApprovedStudents(reg);
      assert (a + [u])[..|a + [u]| - 1] == a;
    }
  }

  /* ---------------- the user table ---------------- */

  /** `'ALL' | 'PENDING' | 'APPROVED' | 'REJECTED'`. */
  datatype StatusFilter = AllStatuses | OnlyStatus(status: Status)

  predicate MatchesFilter(u: User, f: StatusFilter) {
    f.AllStatuses? || u.status == f.status
  }

  predicate MatchesSearch(u: User, q: string) {
    ContainsCI(u.name, q) || ContainsCI(u.academyId, q)
  }

  /** `filtered`. */
  function Filtered(reg: seq<User>, f: StatusFilter, q: string): (r: seq<User>)
    ensures IsSubsequence(r, reg)
    ensures forall i :: 0 <= i < |reg| ==> (reg[i] in r <==> MatchesFilter(reg[i], f) && MatchesSearch(reg[i], q))
    ensures forall u :: u in r ==> MatchesFilter(u, f) && MatchesSearch(u, q)
    ensures forall u :: multiset(r)[u] == if MatchesFilter(u, f) && MatchesSearch(u, q) then multiset(reg)[u] else 0
  {
    var p := (u: User) => MatchesFilter(u, f) && MatchesSearch(u, q);
    FilterIsSubsequence(reg, p);
    FilterAt(reg, p);
    FilterCount(reg, p);
    Filter(reg, p)
  }

  /** 'ALL' with an empty search shows the whole registry. */
  lemma AllEmptyShowsRegistry(reg: seq<User>)
    ensures Filtered(reg, AllStatuses, "") == reg
  {
    forall i | 0 <= i < |reg|
      ensures MatchesSearch(reg[i], "")
    {
      ContainsCIEmpty(reg[i].name);
    }
    FilterAllPass(reg, (u: User) => MatchesFilter(u, AllStatuses) && MatchesSearch(u, ""));
  }
}

=== FILE: app_root.dfy ===
/** The root application shell: the identifier it gives a new enrolment
    and what the page does once the back end answers. */
module AppRoot {
  import opened Wrappers
  import opened Text
  import Registry

  function Pow10(k: nat): (p: nat)
    ensures p >= 1
  {
    if k == 0 then 1 else 10 * Pow10(k - 1)
  }

  /** A numeral of `|s|` digits denotes less than `10^|s|`. */
  lemma {:induction false} DigitsValueBound(s: string)
    requires AllDigits(s)
    ensures DigitsValue(s) < Pow10(|s|)
    decreases |s|
  {
    if |s| > 0 {
      DigitsValueBound(s[..|s| - 1]);
    }
  }

  /** The value of two numerals written one after the other. */
  lemma {:induction false} DigitsValueAppend(a: string, b: string)
    requires AllDigits(a) && AllDigits(b)
    ensures AllDigits(a + b)
    ensures DigitsValue(a + b) == DigitsValue(a) * Pow10(|b|) + DigitsValue(b)
    decreases |b|
  {
    if |b| == 0 {
      assert a + b == a;
    } else {
      var b1 := b[..|b| - 1];
      var ab := a + b;
      assert ab[..|ab| - 1] == a + b1;
      assert ab[|ab| - 1] == b[|b| - 1];
      DigitsValueAppend(a, b1);
      var x := DigitsValue(a);
      var p := Pow10(|b1|);
      var d := DigitValue(b[|b| - 1]);
      assert DigitsValue(ab) == (x * p + DigitsValue(b1)) * 10 + d;
      assert DigitsValue(b) == DigitsValue(b1) * 10 + d;
      assert Pow10(|b|) == 10 * p;
      ShiftDigit(x, p, DigitsValue(b1), d);
    }
  }

  lemma ShiftDigit(x: int, p: int, y: int, d: int)
    ensures (x * p + y) * 10 + d == x * (10 * p) + (y * 10 + d)
  {
  }

  /** `Date.now().toString().slice(-4)`: the last four digits of the
      timestamp, leading zeros included. */
  function Stamp(now: nat): (r: string)
    ensures |r| <= 4 && AllDigits(r)
    ensures now >= 1000 ==> |r| == 4
    ensures DigitsValue(r) == now % 10000
  {
    StampFacts(now);
    TakeLast(Decimal(now), 4)
  }

  lemma StampFacts(now: nat)
    ensures var r := TakeLast(Decimal(now), 4);
            && |r| <= 4 && AllDigits(r)
            && (now >= 1000 ==> |r| == 4)
            && DigitsValue(r) == now % 10000
  {
    var s := Decimal(now);
    DigitsValueBound(s);
    if |s| <= 4 {
      Pow10Monotone(|s|, 4);
      if |s| <= 3 {
        Pow10Monotone(|s|, 3);
      }
      Mod10000(0, now);
      assert TakeLast(s, 4) == s;
    } else {
      StampLong(s);
    }
  }

  lemma {:induction false} Pow10Monotone(i: nat, j: nat)
    requires i <= j
    ensures Pow10(i) <= Pow10(j)
    ensures Pow10(3) == 1000 && Pow10(4) == 10000
    decreases j
  {
    if i < j {
      Pow10Monotone(i, j - 1);
    }
  }

  /** For a numeral longer than four digits, the last four digits denote
      its value modulo 10000. */
  lemma StampLong(s: string)
    requires AllDigits(s) && |s| > 4
    ensures DigitsValue(TakeLast(s, 4)) == DigitsValue(s) % 10000
  {
    var r := TakeLast(s, 4);
    var hi := s[..|s| - 4];
    assert s == hi + r;
    DigitsValueAppend(hi, r);
    DigitsValueBound(r);
    Pow10Monotone(4, 4);
    Mod10000(DigitsValue(hi), DigitsValue(r));
  }

  lemma Mod10000(q: int, v: int)
    requires 0 <= v < 10000
    ensures (q * 10000 + v) % 10000 == v
  {
  }

  /** `QWT-${role[0]}-${Date.now().toString().slice(-4)}`. */
  function EnrolmentId(role: Registry.Role, now: nat): (id: string)
    ensures 6 <= |id| <= 10 && id[..4] == "QWT-" && id[4] == Registry.RoleName(role)[0] && id[5] == '-'
    ensures id[6..] == Stamp(now)
  {
    var c := Registry.RoleName(role)[0];
    var stamp := Stamp(now);
    IdLayout(c, stamp);
    "QWT-" + [c] + "-" + stamp
  }

  lemma IdLayout(c: char, stamp: string)
    ensures var id := "QWT-" + [c] + "-" + stamp;
            && |id| == 6 + |stamp| && id[..4] == "QWT-" && id[4] == c && id[5] == '-' && id[6..] == stamp
  {
    var id := "QWT-" + [c] + "-" + stamp;
    assert id[..4] == "QWT-";
    assert id[6..] == stamp;
  }

  /** Every timestamp after the first second of 1970 gives a ten-character
      identifier whose last four characters are the timestamp modulo 10000;
      a student's starts with "QWT-S-". */
  lemma EnrolmentIdShape(role: Registry.Role, now: nat)
    requires now >= 1000
    ensures var id := EnrolmentId(role, now);
            && |id| == 10 && DigitsValue(id[6..]) == now % 10000
            && (role == Registry.Student ==> id[..6] == "QWT-S-")
  {
  }

  /** The registration request the shell sends. */
  datatype Request = Request(academyId: string, name: Option<string>, email: string, password: Option<string>,
                             role: Registry.Role, course: string)

  function RegisterRequest(form: Registry.Form, role: Registry.Role, now: nat): (q: Request)
    ensures q.academyId == EnrolmentId(role, now) && q.role == role
    ensures q.name == form.name && q.email == form.email && q.password == form.password
    ensures q.course == Registry.OrElse(form.course, "General Tajweed")
  {
    Request(EnrolmentId(role, now), form.name, form.email, form.password, role,
            Registry.OrElse(form.course, "General Tajweed"))
  }

  datatype Shell = Shell(page: Registry.Page, submitting: bool, alert: Option<string>)

  /** `finalizeEnrollment` after the back end answers: the dashboard on
      success, an alert otherwise; never left submitting. */
  function AfterRegister(s: Shell, success: bool, error: string): (r: Shell)
    ensures !r.submitting
    ensures success ==> r.page == Registry.Dashboard && r.alert == s.alert
    ensures !success ==> r.page == s.page && r.alert == Some("Scholarly Enrollment Error: " + error)
  {
    if success then Shell(Registry.Dashboard, false, s.alert)
    else Shell(s.page, false, Some("Scholarly Enrollment Error: " + error))
  }
}

=== FILE: arabic.dfy ===
/** The Arabic text utilities: search normalization (diacritics removed,
    letter variants folded) and Eastern Arabic numerals. */
module Arabic {
  import opened Text

  /** The harakat and other marks of U+064B to U+065F. */
  predicate IsDiacritic(c: char) {
    'ً' <= c <= 'ٟ'
  }

  /** The five letters folded by normalization: alef with hamza above,
      alef with hamza below, alef with madda, teh marbuta, alef maksura. */
  predicate IsVariant(c: char) {
    c == 'أ' || c == 'إ' || c == 'آ' || c == 'ة' || c == 'ى'
  }

  /** The letter replacements: the three alefs to bare alef, teh marbuta
      to heh, alef maksura to yeh. */
  function Fold(c: char): (r: char)
    ensures !IsVariant(r) && !IsDiacritic(r)
    ensures IsDiacritic(c) || IsVariant(c) || r == c
    ensures (c == 'أ' || c == 'إ' || c == 'آ') ==> r == 'ا'
    ensures c == 'ة' ==> r == 'ه'
    ensures c == 'ى' ==> r == 'ي'
    requires !IsDiacritic(c)
  {
    if c == 'أ' || c == 'إ' || c == 'آ' then 'ا'
    else if c == 'ة' then 'ه'
    else if c == 'ى' then 'ي'
    else c
  }

  /** The first `replace`: every diacritic removed. */
  function StripDiacritics(s: string): (r: string)
    ensures forall i :: 0 <= i < |r| ==> !IsDiacritic(r[i])
    ensures IsSubsequence(r, s)
  {
    var p := (c: char) => !IsDiacritic(c);
    FilterIsSubsequence(s, p);
    FilterAt(s, p);
    var r := Filter(s, p);
    assert forall i :: 0 <= i < |r| ==> r[i] in r;
    r
  }

  /** `ArabicEngine.normalize`. */
  function Normalize(s: string): (r: string)
    ensures |r| == |StripDiacritics(s)| <= |s|
    ensures forall i :: 0 <= i < |r| ==> !IsDiacritic(r[i]) && !IsVariant(r[i])
    ensures forall i :: 0 <= i < |r| ==> r[i] == Fold(StripDiacritics(s)[i])
  {
    var t := StripDiacritics(s);
    seq(|t|, i requires 0 <= i < |t| => Fold(t[i]))
  }

  /** The text keeps its length exactly when it has no diacritics. */
  lemma NormalizeLength(s: string)
    ensures |Normalize(s)| == |s| <==> forall i :: 0 <= i < |s| ==> !IsDiacritic(s[i])
  {
    FilterShrinks(s, c => !IsDiacritic(c));
  }

  /** A character that is neither a mark nor a folded letter, such as the
      superscript alef U+0670, survives normalization; one that is not a
      replacement either appears in the result only if it was there. */
  lemma KeepsPlainLetters(s: string, c: char)
    requires !IsDiacritic(c) && !IsVariant(c)
    ensures c in s ==> c in Normalize(s)
    ensures c != 'ا' && c != 'ه' && c != 'ي' && c in Normalize(s) ==> c in s
  {
    var t := StripDiacritics(s);
    FilterMembers(s, x => !IsDiacritic(x));
    if c in t {
      var i :| 0 <= i < |t| && t[i] == c;
      assert Normalize(s)[i] == c;
    }
    if c != 'ا' && c != 'ه' && c != 'ي' && c in Normalize(s) {
      var i :| 0 <= i < |Normalize(s)| && Normalize(s)[i] == c;
      assert t[i] == c;
    }
  }

  /** The superscript alef is one such character, and the folded alef
      variants never survive. */
  lemma SuperscriptAlefKept(s: string)
    ensures 'ٰ' in s <==> 'ٰ' in Normalize(s)
    ensures 'أ' !in Normalize(s) && 'إ' !in Normalize(s) && 'آ' !in Normalize(s)
  {
    KeepsPlainLetters(s, 'ٰ');
  }

  /** Normalizing twice is normalizing once. */
  lemma NormalizeIdempotent(s: string)
    ensures Normalize(Normalize(s)) == Normalize(s)
  {
    var r := Normalize(s);
    FilterAllPass(r, c => !IsDiacritic(c));
    assert StripDiacritics(r) == r;
  }

  /* ---------------- numerals ---------------- */

  /** The Eastern Arabic digit for `d`, U+0660 plus `d`. */
  function EasternDigit(d: nat): (c: char)
    requires d < 10
    ensures '٠' <= c <= '٩' && c as int - 0x0660 == d
  {
    (0x0660 + d) as char
  }

  predicate IsEasternDigit(c: char) {
    '٠' <= c <= '٩'
  }

  /** `ArabicEngine.toArabicNumerals` on the decimal text of the number:
      each ASCII digit becomes its Eastern form, everything else stays. */
  function ToArabicNumerals(s: string): (r: string)
    ensures |r| == |s|
    ensures forall i :: 0 <= i < |r| ==> !IsDigit(r[i])
    ensures forall i :: 0 <= i < |s| && IsDigit(s[i]) ==> IsEasternDigit(r[i]) && r[i] as int - 0x0660 == DigitValue(s[i])
    ensures forall i :: 0 <= i < |s| && !IsDigit(s[i]) ==> r[i] == s[i]
  {
    seq(|s|, i requires 0 <= i < |s| => if IsDigit(s[i]) then EasternDigit(DigitValue(s[i])) else s[i])
  }

  /** The reverse replacement, Eastern digits to ASCII ones. */
  function ToWesternNumerals(s: string): (r: string)
    ensures |r| == |s|
    ensures forall i :: 0 <= i < |r| ==> !IsEasternDigit(r[i])
  {
    seq(|s|, i requires 0 <= i < |s| => if IsEasternDigit(s[i]) then DigitChar(s[i] as int - 0x0660) else s[i])
  }

  /** Text written with ASCII digits only comes back from the Eastern form
      unchanged. */
  lemma NumeralsRoundTrip(s: string)
    requires forall i :: 0 <= i < |s| ==> !IsEasternDigit(s[i])
    ensures ToWesternNumerals(ToArabicNumerals(s)) == s
  {
  }
}

=== FILE: base64.dfy ===
/** The text transport of the live-audio pipeline: bytes become a Latin-1
    "binary string" (`String.fromCharCode`), which `btoa` encodes with the
    base 64 alphabet of section 4 of RFC 4648; `atob` decodes with the
    forgiving-base64 algorithm of the WHATWG Infra standard and
    `charCodeAt` turns the result back into bytes. */
module Base64 {
  import opened Wrappers

  type byte = x: int | 0 <= x < 256
  type sextet = x: int | 0 <= x < 64

  /** `atob`/`btoa` signal every failure as this DOMException. */
  datatype DomError = InvalidCharacterError

  /* ---------------- the alphabet (RFC 4648, table 1) ---------------- */

  function Char64(v: sextet): (c: char)
    ensures c != '='
  {
    if v < 26 then ('A' as int + v) as char
    else if v < 52 then ('a' as int + (v - 26)) as char
    else if v < 62 then ('0' as int + (v - 52)) as char
    else if v == 62 then '+'
    else '/'
  }

  predicate IsChar64(c: char) {
    ('A' <= c <= 'Z') || ('a' <= c <= 'z') || ('0' <= c <= '9') || c == '+' || c == '/'
  }

  function Value64(c: char): (v: sextet)
    requires IsChar64(c)
    ensures Char64(v) == c
  {
    if 'A' <= c <= 'Z' then c as int - 'A' as int
    else if 'a' <= c <= 'z' then c as int - 'a' as int + 26
    else if '0' <= c <= '9' then c as int - '0' as int + 52
    else if c == '+' then 62
    else 63
  }

  lemma Char64Value(v: sextet)
    ensures IsChar64(Char64(v)) && Value64(Char64(v)) == v
  {
  }

  predicate AllChar64(s: string) {
    forall i :: 0 <= i < |s| ==> IsChar64(s[i])
  }

  /* ---------------- encoding ---------------- */

  /** The four characters of one full 24-bit group. */
  function Quad(b0: byte, b1: byte, b2: byte): string {
    [Char64(b0 / 4), Char64(b0 % 4 * 16 + b1 / 16), Char64(b1 % 16 * 4 + b2 / 64), Char64(b2 % 64)]
  }

  /** The encoding without its `=` padding: full groups, then two
      characters for one leftover byte or three for two. */
  function EncodeUnpadded(b: seq<byte>): (r: string)
    ensures |r| == |b| / 3 * 4 + (if |b| % 3 == 0 then 0 else |b| % 3 + 1)
    ensures |r| % 4 != 1
    ensures AllChar64(r)
  {
    if |b| == 0 then []
    else if |b| == 1 then [Char64(b[0] / 4), Char64(b[0] % 4 * 16)]
    else if |b| == 2 then [Char64(b[0] / 4), Char64(b[0] % 4 * 16 + b[1] / 16), Char64(b[1] % 16 * 4)]
    else
      var r := Quad(b[0], b[1], b[2]) + EncodeUnpadded(b[3..]);
      assert forall i :: 0 <= i < 4 ==> IsChar64(r[i]) by {
        Char64Value(b[0] / 4);
        Char64Value(b[0] % 4 * 16 + b[1] / 16);
        Char64Value(b[1] % 16 * 4 + b[2] / 64);
        Char64Value(b[2] % 64);
      }
      r
  }

  /** `=` characters that complete the final group to four characters. */
  function Padding(n: nat): string {
    if n % 3 == 1 then "==" else if n % 3 == 2 then "=" else ""
  }

  /** Base 64 encoding (RFC 4648 section 4), with padding. */
  function Encode(b: seq<byte>): (r: string)
    ensures |r| == 4 * ((|b| + 2) / 3)
    ensures forall i :: 0 <= i < |r| ==> IsChar64(r[i]) || (r[i] == '=' && i >= |r| - 2)
  {
    EncodeUnpadded(b) + Padding(|b|)
  }

  /* ---------------- forgiving decoding ---------------- */

  /** ASCII white space, which the forgiving decoder removes first. */
  predicate IsAsciiSpace(c: char) {
    c == '\t' || c == '\n' || c == '\U{000C}' || c == '\r' || c == ' '
  }

  function RemoveSpace(s: string): (r: string)
    ensures |r| <= |s|
    ensures forall i :: 0 <= i < |r| ==> !IsAsciiSpace(r[i])
    ensures (forall i :: 0 <= i < |s| ==> !IsAsciiSpace(s[i])) ==> r == s
  {
    if |s| == 0 then []
    else if IsAsciiSpace(s[0]) then RemoveSpace(s[1..])
    else [s[0]] + RemoveSpace(s[1..])
  }

  /** When the length is a multiple of four, one or two trailing `=` are
      dropped. */
  function StripPadding(s: string): (r: string)
    ensures IsPrefix(r, s) && |s| - 2 <= |r|
  {
    if |s| % 4 == 0 && |s| >= 2 && s[|s| - 2] == '=' && s[|s| - 1] == '=' then s[..|s| - 2]
    else if |s| % 4 == 0 && |s| >= 1 && s[|s| - 1] == '=' then s[..|s| - 1]
    else s
  }

  predicate IsPrefix(p: string, s: string) {
    |p| <= |s| && s[..|p|] == p
  }

  /** Decodes groups of four characters into three bytes; a final group of
      two or three characters yields one or two bytes and its leftover
      low bits are discarded. */
  function DecodeUnpadded(s: string): (r: seq<byte>)
    requires AllChar64(s) && |s| % 4 != 1
    ensures |r| == |s| / 4 * 3 + (if |s| % 4 == 0 then 0 else |s| % 4 - 1)
  {
    if |s| == 0 then []
    else if |s| == 2 then [Value64(s[0]) * 4 + Value64(s[1]) / 16]
    else if |s| == 3 then
      [Value64(s[0]) * 4 + Value64(s[1]) / 16, Value64(s[1]) % 16 * 16 + Value64(s[2]) / 4]
    else
      [Value64(s[0]) * 4 + Value64(s[1]) / 16,
       Value64(s[1]) % 16 * 16 + Value64(s[2]) / 4,
       Value64(s[2]) % 4 * 64 + Value64(s[3])]
      + DecodeUnpadded(s[4..])
  }

  /** The forgiving-base64 decode of the WHATWG Infra standard (what
      `atob` runs): remove white space, drop padding, reject a length that
      leaves one character over or any character outside the alphabet. */
  function Decode(s: string): (r: Result<seq<byte>, DomError>)
    ensures r.Success? <==> (var t := StripPadding(RemoveSpace(s)); |t| % 4 != 1 && AllChar64(t))
  {
    var t := StripPadding(RemoveSpace(s));
    if |t| % 4 == 1 then Failure(InvalidCharacterError)
    else if !AllChar64(t) then Failure(InvalidCharacterError)
    else Success(DecodeUnpadded(t))
  }

  /* ---------------- round trip ---------------- */

  /** Splitting a number below 64 * 16 at bit 4 and joining it again. */
  lemma Split16(hi: int, lo: int)
    requires 0 <= hi && 0 <= lo < 16
    ensures (hi * 16 + lo) / 16 == hi && (hi * 16 + lo) % 16 == lo
  {
  }

  lemma Split4(hi: int, lo: int)
    requires 0 <= hi && 0 <= lo < 4
    ensures (hi * 4 + lo) / 4 == hi && (hi * 4 + lo) % 4 == lo
  {
  }

  /** The arithmetic of one group: the sextets of three bytes give back
      those bytes. */
  lemma QuadBytes(b0: byte, b1: byte, b2: byte)
    ensures var q := Quad(b0, b1, b2);
            AllChar64(q)
            && Value64(q[0]) * 4 + Value64(q[1]) / 16 == b0
            && Value64(q[1]) % 16 * 16 + Value64(q[2]) / 4 == b1
            && Value64(q[2]) % 4 * 64 + Value64(q[3]) == b2
  {
    var c0, c1, c2, c3 := b0 / 4, b0 % 4 * 16 + b1 / 16, b1 % 16 * 4 + b2 / 64, b2 % 64;
    Char64Value(c0);
    Char64Value(c1);
    Char64Value(c2);
    Char64Value(c3);
    Split16(b0 % 4, b1 / 16);
    Split4(b1 % 16, b2 / 64);
    assert c0 * 4 + c1 / 16 == b0;
    assert c1 % 16 * 16 + c2 / 4 == b1;
    assert c2 % 4 * 64 + c3 == b2;
  }

  /** Decoding a full group in front of the rest. */
  lemma DecodeQuadFront(q: string, rest: string)
    requires |q| == 4 && AllChar64(q) && AllChar64(rest) && |rest| % 4 != 1
    ensures AllChar64(q + rest) && |q + rest| % 4 != 1
    ensures DecodeUnpadded(q + rest)
            == [Value64(q[0]) * 4 + Value64(q[1]) / 16,
                Value64(q[1]) % 16 * 16 + Value64(q[2]) / 4,
                Value64(q[2]) % 4 * 64 + Value64(q[3])]
               + DecodeUnpadded(rest)
  {
    var e := q + rest;
    assert e[4..] == rest;
    assert e[0] == q[0] && e[1] == q[1] && e[2] == q[2] && e[3] == q[3];
  }

  lemma OneByteRoundTrip(b0: byte)
    ensures DecodeUnpadded(EncodeUnpadded([b0])) == [b0]
  {
    var c0, c1 := b0 / 4, b0 % 4 * 16;
    Char64Value(c0);
    Char64Value(c1);
    var e := EncodeUnpadded([b0]);
    assert e == [Char64(c0), Char64(c1)];
    assert Value64(e[0]) == c0 && Value64(e[1]) == c1;
    assert c1 / 16 == b0 % 4;
    assert DecodeUnpadded(e) == [c0 * 4 + c1 / 16];
  }

  lemma TwoBytesRoundTrip(b0: byte, b1: byte)
    ensures DecodeUnpadded(EncodeUnpadded([b0, b1])) == [b0, b1]
  {
    var c0, c1, c2 := b0 / 4, b0 % 4 * 16 + b1 / 16, b1 % 16 * 4;
    Char64Value(c0);
    Char64Value(c1);
    Char64Value(c2);
    Split16(b0 % 4, b1 / 16);
    var e := EncodeUnpadded([b0, b1]);
    assert e == [Char64(c0), Char64(c1), Char64(c2)];
    assert Value64(e[0]) == c0 && Value64(e[1]) == c1 && Value64(e[2]) == c2;
    assert c2 / 4 == b1 % 16;
    assert DecodeUnpadded(e) == [c0 * 4 + c1 / 16, c1 % 16 * 16 + c2 / 4];
  }

  /** Decoding the group of three bytes in front of any valid rest. */
  lemma DecodeGroupFront(b0: byte, b1: byte, b2: byte, rest: string)
    requires AllChar64(rest) && |rest| % 4 != 1
    ensures AllChar64(Quad(b0, b1, b2) + rest) && |Quad(b0, b1, b2) + rest| % 4 != 1
    ensures DecodeUnpadded(Quad(b0, b1, b2) + rest) == [b0, b1, b2] + DecodeUnpadded(rest)
  {
    QuadBytes(b0, b1, b2);
    DecodeQuadFront(Quad(b0, b1, b2), rest);
  }

  /** One full group in front: if the rest round-trips, so does the whole. */
  lemma GroupRoundTrip(b: seq<byte>)
    requires |b| >= 3
    requires DecodeUnpadded(EncodeUnpadded(b[3..])) == b[3..]
    ensures DecodeUnpadded(EncodeUnpadded(b)) == b
  {
    var rest := EncodeUnpadded(b[3..]);
    assert EncodeUnpadded(b) == Quad(b[0], b[1], b[2]) + rest;
    DecodeGroupFront(b[0], b[1], b[2], rest);
    SplitThree(b);
  }

  lemma SplitThree<T>(s: seq<T>)
    requires |s| >= 3
    ensures [s[0], s[1], s[2]] + s[3..] == s
  {
  }

  lemma {:induction false} UnpaddedRoundTrip(b: seq<byte>)
    ensures DecodeUnpadded(EncodeUnpadded(b)) == b
  {
    if |b| == 1 {
      OneByteRoundTrip(b[0]);
      assert b == [b[0]];
    } else if |b| == 2 {
      TwoBytesRoundTrip(b[0], b[1]);
      assert b == [b[0], b[1]];
    } else if |b| >= 3 {
      UnpaddedRoundTrip(b[3..]);
      GroupRoundTrip(b);
    }
  }

  /** The padded encoding has no white space and loses exactly its
      padding in the decoder's first steps. */
  lemma {:induction false} PreparedEncoding(b: seq<byte>)
    ensures StripPadding(RemoveSpace(Encode(b))) == EncodeUnpadded(b)
  {
    var e := Encode(b);
    assert forall i :: 0 <= i < |e| ==> !IsAsciiSpace(e[i]);
    assert RemoveSpace(e) == e;
    var k := (|b| + 2) / 3;
    assert |e| == 4 * k;
    StripEncoded(EncodeUnpadded(b), |b|);
  }

  lemma StripEncoded(u: string, n: nat)
    requires AllChar64(u) && |u| + |Padding(n)| >= 0
    requires (|u| + |Padding(n)|) % 4 == 0
    requires n % 3 == 0 <==> |u| % 4 == 0
    ensures StripPadding(u + Padding(n)) == u
  {
    var e := u + Padding(n);
    if n % 3 == 0 {
      assert e == u;
      if |u| > 0 {
        assert IsChar64(u[|u| - 1]);
      }
    } else if n % 3 == 1 {
      assert e[..|e| - 2] == u;
    } else {
      assert e[..|e| - 1] == u;
      assert |u| % 4 == 3;
      assert IsChar64(e[|e| - 2]);
    }
  }

  /** `decode(encode(b)) == b` for every byte sequence. */
  lemma {:induction false} RoundTrip(b: seq<byte>)
    ensures Decode(Encode(b)) == Success(b)
  {
    PreparedEncoding(b);
    UnpaddedRoundTrip(b);
  }

  /** The forgiving decoder also accepts the encoding with its padding left
      off. */
  lemma UnpaddedAccepted(b: seq<byte>)
    ensures Decode(EncodeUnpadded(b)) == Success(b)
  {
    var u := EncodeUnpadded(b);
    assert RemoveSpace(u) == u by {
      assert forall i :: 0 <= i < |u| ==> !IsAsciiSpace(u[i]);
    }
    if |u| > 0 {
      assert IsChar64(u[|u| - 1]);
    }
    assert StripPadding(u) == u;
    UnpaddedRoundTrip(b);
  }

  /* ---------------- btoa / atob on Latin-1 strings ---------------- */

  predicate IsLatin1(s: string) {
    forall i :: 0 <= i < |s| ==> s[i] as int < 256
  }

  /** `String.fromCharCode(bytes[0], ...)`: the binary string of a byte
      sequence. */
  function BinaryString(b: seq<byte>): (r: string)
    ensures |r| == |b| && IsLatin1(r)
    ensures forall i :: 0 <= i < |b| ==> r[i] as int == b[i]
  {
    if |b| == 0 then [] else [b[0] as char] + BinaryString(b[1..])
  }

  /** `s.charCodeAt(i)` for every index of a Latin-1 string. */
  function CharCodes(s: string): (r: seq<byte>)
    requires IsLatin1(s)
    ensures |r| == |s|
    ensures forall i :: 0 <= i < |s| ==> r[i] == s[i] as int
  {
    if |s| == 0 then [] else [s[0] as int] + CharCodes(s[1..])
  }

  /** `btoa(s)`: throws unless every code unit is at most U+00FF. */
  function Btoa(s: string): (r: Result<string, DomError>)
    ensures r.Success? <==> IsLatin1(s)
    ensures r.Success? ==> r.value == Encode(CharCodes(s))
  {
    if IsLatin1(s) then Success(Encode(CharCodes(s))) else Failure(InvalidCharacterError)
  }

  /** `atob(s)`: the decoded bytes as a binary string. */
  function Atob(s: string): (r: Result<string, DomError>)
    ensures r.Success? <==> Decode(s).Success?
    ensures r.Success? ==> IsLatin1(r.value) && CharCodes(r.value) == Decode(s).value
  {
    match Decode(s)
    case Success(b) =>
      var t := BinaryString(b);
      assert CharCodes(t) == b;
      Success(t)
    case Failure(e) => Failure(e)
  }

  /** `atob(btoa(s)) == s` for every Latin-1 string. */
  lemma {:induction false} AtobBtoa(s: string)
    requires IsLatin1(s)
    ensures Btoa(s).Success? && Atob(Btoa(s).value) == Success(s)
  {
    RoundTrip(CharCodes(s));
    assert BinaryString(CharCodes(s)) == s;
  }

  /* ---------------- the components' encode / decode ---------------- */

  /** The components' `encode(bytes)`: `btoa` of the binary string, which
      never throws because every code unit is a byte. */
  function EncodeBytes(b: seq<byte>): (r: string)
    ensures Btoa(BinaryString(b)) == Success(r)
    ensures |r| == 4 * ((|b| + 2) / 3)
  {
    assert CharCodes(BinaryString(b)) == b;
    Encode(b)
  }

  /** The components' `decode(base64)` (`decodeBase64` in the prayer page):
      one byte per character of `atob`'s result, equal to its char code. */
  function DecodeBytes(s: string): (r: Result<seq<byte>, DomError>)
    ensures r.Success? <==> Atob(s).Success?
    ensures r.Success? ==> |r.value| == |Atob(s).value|
                           && forall i :: 0 <= i < |r.value| ==> r.value[i] == Atob(s).value[i] as int
  {
    match Atob(s)
    case Success(bin) => Success(CharCodes(bin))
    case Failure(e) => Failure(e)
  }

  /** `decode(encode(bytes)) == bytes`. */
  lemma {:induction false} DecodeEncode(b: seq<byte>)
    ensures DecodeBytes(EncodeBytes(b)) == Success(b)
  {
    RoundTrip(b);
  }
}

=== FILE: courses.dfy ===
/** The course catalogue: a search over titles and descriptions, and the
    syllabus toggle of each course card. */
module Courses {
  import opened Text

  datatype Level = Beginner | Intermediate | Advanced | AllLevels

  /** `EnhancedCourse`, without pictures, keywords and marketing figures. */
  datatype Course = Course(id: string, title: string, description: string, level: Level, curriculum: seq<string>)

  /** `COURSES`. */
  const Catalogue: seq<Course> := [
    Course("1", "Noorani Qaida Mastery",
           "The Director's proprietary 'Foundation First' methodology. We focus on 'Makharij' (articulation points) using an interactive, kid-friendly methodology that ensures 100% correct pronunciation from day one.",
           Beginner, ["Alphabet Recognition", "Harakaat (Vowels)", "Tanween Mastery", "Joint Letters"]),
    Course("2", "Tajweed & Tarteel Masterclass",
           "Learn to recite the Quran like a Qari. This course covers the intricate rules of Noon Sakinah, Meem Sakinah, and Madd, transforming your recitation into a spiritual art form under the Director's syllabus.",
           Intermediate, ["Rules of Noon Sakinah", "Rules of Meem Sakinah", "Sifat-ul-Huroof", "Stop Rules (Waqf)"]),
    Course("3", "Elite Hifz (Memorization)",
           "A scientifically structured memorization program based on the Director's 'Isnad' system. We use the 'Lauh' and 'Sabak' techniques to ensure long-term retention and spiritual connection.",
           Advanced, ["Short Surahs", "Juz Amma", "Full Quran Path", "Revision Techniques"]),
    Course("4", "Tafseer & Academic Wisdom",
           "Deep contextual analysis (Sabab al-Nuzul) and linguistic miracles of the Holy Quran with senior academic scholars hand-picked by the Director.",
           Advanced, ["Historical Context", "Linguistic Miracles", "Modern Application", "Ethics of Quran"])
  ]

  predicate Keeps(q: string, c: Course) {
    ContainsCI(c.title, q) || ContainsCI(c.description, q)
  }

  /** `filteredCourses`. */
  function FilteredCourses(q: string): (r: seq<Course>)
    ensures IsSubsequence(r, Catalogue)
    ensures forall i :: 0 <= i < |Catalogue| ==> (Catalogue[i] in r <==> Keeps(q, Catalogue[i]))
    ensures forall c :: c in r ==> ContainsCI(c.title, q) || ContainsCI(c.description, q)
  {
    FilterIsSubsequence(Catalogue, c => Keeps(q, c));
    FilterAt(Catalogue, c => Keeps(q, c));
    Filter(Catalogue, c => Keeps(q, c))
  }

  /** The empty query lists all four courses. */
  lemma EmptyQueryShowsAll()
    ensures FilteredCourses("") == Catalogue && |Catalogue| == 4
  {
    forall i | 0 <= i < |Catalogue|
      ensures Keeps("", Catalogue[i])
    {
      ContainsCIEmpty(Catalogue[i].title);
    }
    FilterAllPass(Catalogue, c => Keeps("", c));
  }

  /** `CourseCard`'s state. */
  datatype Card = Card(showCurriculum: bool)

  /** "View/Hide Full Syllabus" flips the syllabus. */
  function ToggleSyllabus(c: Card): (r: Card)
    ensures r.showCurriculum != c.showCurriculum
  {
    Card(!c.showCurriculum)
  }

  /** Two clicks leave the card as it was. */
  lemma ToggleTwice(c: Card)
    ensures ToggleSyllabus(ToggleSyllabus(c)) == c
  {
  }
}

=== FILE: daily_duas.dfy ===
/** The daily supplications page: the catalogue, its filter by age mode
    and search text, and the play button. Playing asks a speech service
    for audio, so `handlePlay` is split at its `await`: the click runs up
    to the request, and the completion runs when the response (or its
    absence) arrives. */
module DailyDuas {
  import opened Wrappers
  import opened Text
  import Playback

  datatype AgeGroup = Kids | Youth | Adults | Elderly

  datatype Dua = Dua(id: string, intent: string, translation: string, ageGroups: seq<AgeGroup>)

  /** `DUAS`, without the Arabic text, transliteration and reference. */
  const Duas: seq<Dua> := [
    Dua("1", "Waking Up", "All praise is for Allah who gave us life after having taken it from us and unto Him is the resurrection.", [Kids, Youth, Adults, Elderly]),
    Dua("2", "For Parents", "My Lord, have mercy upon them as they brought me up [when I was] small.", [Kids, Youth, Adults]),
    Dua("3", "Seeking Knowledge", "My Lord, increase me in knowledge.", [Kids, Youth]),
    Dua("4", "Removing Anxiety", "O Allah, I seek refuge in You from anxiety and sorrow, weakness and laziness...", [Youth, Adults, Elderly]),
    Dua("5", "For Protection", "In the Name of Allah, Who with His Name nothing can cause harm in the earth nor in the heavens...", [Kids, Youth, Adults, Elderly])
  ]

  /** `activeMode`: 'All', 'Kids' or 'Adults'. */
  datatype Mode = AllAges | KidsMode | AdultsMode

  predicate MatchesMode(d: Dua, mode: Mode) {
    match mode
    case AllAges => true
    case KidsMode => Kids in d.ageGroups
    case AdultsMode => Adults in d.ageGroups
  }

  predicate MatchesSearch(d: Dua, query: string) {
    ContainsCI(d.intent, query) || ContainsCI(d.translation, query)
  }

  /** `filteredDuas`. */
  function FilteredDuas(mode: Mode, query: string): (r: seq<Dua>)
    ensures IsSubsequence(r, Duas)
    ensures forall i :: 0 <= i < |Duas| ==> (Duas[i] in r <==> MatchesMode(Duas[i], mode) && MatchesSearch(Duas[i], query))
    ensures forall d :: d in r ==> MatchesMode(d, mode) && MatchesSearch(d, query)
  {
    FilterIsSubsequence(Duas, d => MatchesMode(d, mode) && MatchesSearch(d, query));
    FilterAt(Duas, d => MatchesMode(d, mode) && MatchesSearch(d, query));
    Filter(Duas, d => MatchesMode(d, mode) && MatchesSearch(d, query))
  }

  /** 'All' with an empty search shows the whole catalogue. */
  lemma AllEmptyShowsEverything()
    ensures FilteredDuas(AllAges, "") == Duas
  {
    EmptySearchMatchesAll();
    FilterAllPass(Duas, d => MatchesMode(d, AllAges) && MatchesSearch(d, ""));
  }

  lemma EmptySearchMatchesAll()
    ensures forall i :: 0 <= i < |Duas| ==> MatchesSearch(Duas[i], "")
  {
    forall i | 0 <= i < |Duas|
      ensures MatchesSearch(Duas[i], "")
    {
      ContainsCIEmpty(Duas[i].intent);
    }
  }

  /** Whatever the search, the kids mode never shows the anxiety dua ('4')
      and shows every other dua the search matches. */
  lemma KidsModeHidesOnlyAnxiety(query: string)
    ensures Duas[3] !in FilteredDuas(KidsMode, query)
    ensures forall i :: 0 <= i < |Duas| && i != 3 ==> (Duas[i] in FilteredDuas(KidsMode, query) <==> MatchesSearch(Duas[i], query))
  {
    assert Kids !in Duas[3].ageGroups;
  }

  /** Whatever the search, the adults mode never shows the knowledge dua
      ('3') and shows every other dua the search matches. */
  lemma AdultsModeHidesOnlyKnowledge(query: string)
    ensures Duas[2] !in FilteredDuas(AdultsMode, query)
    ensures forall i :: 0 <= i < |Duas| && i != 2 ==> (Duas[i] in FilteredDuas(AdultsMode, query) <==> MatchesSearch(Duas[i], query))
  {
    assert Adults !in Duas[2].ageGroups;
  }

  /* ---------------- the play button ---------------- */

  /** `playingId`, `loadingId`, and whether `sourceNodeRef` holds a source. */
  datatype Player = Player(playing: Option<string>, loading: Option<string>, hasSource: bool)

  const Idle: Player := Player(None, None, false)

  /** `stopAudio`: stop and drop the source; nothing is playing. */
  function StopAudio(p: Player): (r: Player)
    ensures r.playing.None? && !r.hasSource && r.loading == p.loading
  {
    p.(playing := None, hasSource := false)
  }

  /** What a click does before the request: `requested` names the dua
      whose audio was requested, if a request was made. */
  datatype Click = Click(player: Player, requested: Option<string>)

  /** `handlePlay` up to the speech request: a click on the playing dua
      stops it; a click while anything loads is ignored; otherwise the dua
      is marked loading, current audio is stopped and its audio is
      requested. */
  function OnClick(p: Player, d: Dua): (c: Click)
    ensures p.playing == Some(d.id) ==> c == Click(StopAudio(p), None)
    ensures p.playing != Some(d.id) && p.loading.Some? ==> c == Click(p, None)
    ensures p.playing != Some(d.id) && p.loading.None? ==>
              c.requested == Some(d.id) && c.player.loading == Some(d.id)
              && c.player.playing.None? && !c.player.hasSource
  {
    if p.playing == Some(d.id) then Click(StopAudio(p), None)
    else if p.loading.Some? then Click(p, None)
    else Click(StopAudio(p.(loading := Some(d.id))), Some(d.id))
  }

  /** The rest of `handlePlay` once the response is in: a missing or empty
      payload, or audio that cannot be decoded, is an error reported to the
      user (`alerted`); otherwise the buffer plays and its dua is marked
      playing. Either way nothing is loading afterwards. */
  datatype Completion = Completion(player: Player, alerted: bool)

  function OnResponse(p: Player, id: string, payload: Option<string>): (c: Completion)
    ensures c.player.loading.None?
    ensures c.alerted <==> payload.None? || payload.value == "" || Playback.BufferFrames(payload.value).Failure?
    ensures c.alerted ==> c.player == p.(loading := None)
    ensures !c.alerted ==> c.player == Player(Some(id), None, true)
  {
    if payload.None? || payload.value == "" then Completion(p.(loading := None), true)
    else if Playback.BufferFrames(payload.value).Failure? then Completion(p.(loading := None), true)
    else Completion(Player(Some(id), None, true), false)
  }

  /** `source.onended`: the source has already stopped, so clearing
      `playingId` and the source leaves the state `stopAudio` leaves. */
  function OnEnded(p: Player): (r: Player)
    ensures r.playing.None? && !r.hasSource && r.loading == p.loading
  {
    StopAudio(p)
  }

  /** A click on an idle page followed by a good response plays that dua;
      a second click on it stops it without a new request. */
  lemma PlayThenToggle(d: Dua, payload: string)
    requires payload != "" && Playback.BufferFrames(payload).Success?
    ensures var c := OnClick(Idle, d);
            var p := OnResponse(c.player, c.requested.value, Some(payload)).player;
            && p.playing == Some(d.id)
            && OnClick(p, d) == Click(Player(None, None, false), None)
  {
  }

  /** While one dua loads, clicks on any other dua change nothing. */
  lemma LoadingIgnoresClicks(p: Player, d: Dua, e: Dua)
    requires OnClick(p, d).requested.Some? && e.id != d.id
    ensures var q := OnClick(p, d).player; OnClick(q, e) == Click(q, None)
  {
  }
}

=== FILE: faq.dfy ===
/** The FAQ page: a category tab and a search over questions and answers,
    and the open/closed state of each entry. */
module Faq {
  import opened Text

  datatype FaqItem = FaqItem(category: string, question: string, answer: string)

  /** `FAQ_DATA`. */
  const FaqData: seq<FaqItem> := [
    FaqItem("Admissions", "How does the 3-day free trial work?",
            "Our free trial is a zero-obligation period where you can experience our teaching methodology. You will be matched with a tutor based on your goals, have 3 live sessions, and receive an initial assessment. No credit card is required to start."),
    FaqItem("Admissions", "Are there any age restrictions for students?",
            "We welcome students from age 4 to adulthood. For younger children, we use specialized Montessori-style digital tools to keep them engaged with the Noorani Qaida."),
    FaqItem("Curriculum", "Can I choose my own schedule?",
            "Yes. Our platform operates 24/7. You can select your preferred days and times during enrollment. We have tutors available in all global timezones (UK, USA, Australia, etc.)."),
    FaqItem("Curriculum", "How long does it take to complete the Noorani Qaida?",
            "On average, a consistent student completes the Qaida in 3-5 months. However, our tutors prioritize 'Itqan' (perfection) over speed to ensure the foundation of Tajweed is unshakable."),
    FaqItem("Technology", "What equipment do I need for the live classes?",
            "A stable internet connection and a device with a camera and microphone (Laptop, Tablet, or Smartphone) are all you need. Our proprietary classroom runs directly in your browser—no software installation required."),
    FaqItem("Faculty", "Are there female tutors available for sisters?",
            "Absolutely. We have a dedicated wing of Ijazah-holding female scholars (Ustadhas) specifically for sisters and young children."),
    FaqItem("Faculty", "How do you vet your tutors?",
            "Our vetting process is rigorous: we verify Ijazahs from reputable institutions like Al-Azhar, conduct background checks, and evaluate pedagogical skills. Only the top 1% of applicants are accepted."),
    FaqItem("Pricing", "What payment methods are supported?",
            "We accept all major credit/debit cards via our secure encrypted gateway. PayPal and direct bank transfers are also available for certain regions. You will receive an official invoice for every payment.")
  ]

  /** `CATEGORIES`. */
  const Categories: seq<string> := ["All", "Admissions", "Curriculum", "Faculty", "Technology", "Pricing"]

  predicate Keeps(category: string, q: string, f: FaqItem) {
    (category == "All" || f.category == category)
    && (ContainsCI(f.question, q) || ContainsCI(f.answer, q))
  }

  /** `filteredFaqs`. */
  function FilteredFaqs(category: string, q: string): (r: seq<FaqItem>)
    ensures IsSubsequence(r, FaqData)
    ensures forall i :: 0 <= i < |FaqData| ==> (FaqData[i] in r <==> Keeps(category, q, FaqData[i]))
    ensures forall f :: f in r ==> (category == "All" || f.category == category)
                                   && (ContainsCI(f.question, q) || ContainsCI(f.answer, q))
  {
    var p := (f: FaqItem) => Keeps(category, q, f);
    var all := FaqData;
    FilterIsSubsequence(all, p);
    FilterAt(all, p);
    Filter(all, p)
  }

  /** 'All' with an empty query lists all eight entries. */
  lemma AllEmptyShowsEverything()
    ensures FilteredFaqs("All", "") == FaqData && |FaqData| == 8
  {
    forall i | 0 <= i < |FaqData|
      ensures Keeps("All", "", FaqData[i])
    {
      ContainsCIEmpty(FaqData[i].question);
    }
    FilterAllPass(FaqData, f => Keeps("All", "", f));
  }

  /** No tab is empty: with an empty query every category shows at least
      one entry. */
  lemma NoEmptyTab(category: string)
    requires category in Categories
    ensures |FilteredFaqs(category, "")| > 0
  {
    var i := if category == "All" || category == "Admissions" then 0
             else if category == "Curriculum" then 2
             else if category == "Faculty" then 5
             else if category == "Technology" then 4
             else 7;
    ContainsCIEmpty(FaqData[i].question);
    assert Keeps(category, "", FaqData[i]);
    assert FaqData[i] in FilteredFaqs(category, "");
  }

  /** `FaqAccordion`'s state. */
  datatype Accordion = Accordion(isOpen: bool)

  const ClosedAccordion: Accordion := Accordion(false)

  /** A click on the question flips the entry. */
  function Click(a: Accordion): (r: Accordion)
    ensures r.isOpen != a.isOpen
  {
    Accordion(!a.isOpen)
  }

  /** Two clicks leave the entry as it was; the first click opens a closed
      one. */
  lemma ClickTwice(a: Accordion)
    ensures Click(Click(a)) == a
    ensures Click(ClosedAccordion).isOpen
  {
  }
}

=== FILE: finance.dfy ===
/** The enrolment finance engine: fixed tier prices, the family discount,
    and the academy/tutor split, all in integer cents. */
module FinanceEngine {
  import opened JsMath

  /** `ACADEMY_COMMISSION_RATE` and `TUTOR_SHARE_RATE`. */
  const CommissionRate: real := 0.6
  const TutorShareRate: real := 0.4

  /** `OPS_BREAKDOWN`: how the commission is spent. */
  const Infrastructure: real := 0.15
  const Security: real := 0.15
  const Administration: real := 0.20
  const Marketing: real := 0.10

  /** `FacultyTier`. */
  datatype Tier = Standard | Senior | Elite

  /** `PRICE_TIERS`, in whole currency units. */
  function TierPrice(t: Tier): (p: nat)
    ensures 65 <= p <= 110
  {
    match t
    case Standard => 65
    case Senior => 85
    case Elite => 110
  }

  /** The family discount: none for one student, a tenth for exactly two, a
      fifth for three or more. */
  function DiscountRate(studentCount: int): (d: real)
    ensures 0.0 <= d <= 0.2
    ensures studentCount <= 1 ==> d == 0.0
  {
    if studentCount == 2 then 0.1
    else if studentCount >= 3 then 0.2
    else 0.0
  }

  /** A larger family never gets a smaller discount. */
  lemma DiscountMonotone(m: int, n: int)
    requires m <= n
    ensures DiscountRate(m) <= DiscountRate(n)
  {
  }

  datatype Ops = Ops(infrastructure: int, security: int, admin: int, marketing: int)

  /** `CalculationResult`, with every amount in cents (the source divides
      each one by 100 only to report it). */
  datatype Finances = Finances(gross: int, discount: int, net: int, academyFee: int, tutorEarning: int, tier: Tier, ops: Ops)

  /** `Math.round(cents * fraction)`: a share of an amount, to the nearest
      cent. */
  function Share(cents: int, fraction: real): (r: int)
    ensures cents as real * fraction - 0.5 < r as real <= cents as real * fraction + 0.5
  {
    Round(cents as real * fraction)
  }

  /** `Math.round(basePrice * rate * 100)`: one student's price in cents. */
  function BaseCents(tier: Tier, rate: real): (r: int)
    ensures rate >= 0.0 ==> r >= 0
    ensures rate == 1.0 ==> r == 100 * TierPrice(tier)
  {
    RoundInt(100 * TierPrice(tier));
    Round(TierPrice(tier) as real * rate * 100.0)
  }

  /** `calculateEnrollmentFinances(tierName, studentCount, rate)`. */
  function Calculate(tier: Tier, studentCount: int, rate: real): (r: Finances)
    ensures r.gross == BaseCents(tier, rate) * studentCount
    ensures r.discount == Share(r.gross, DiscountRate(studentCount))
    ensures r.net == r.gross - r.discount
    ensures r.academyFee == Share(r.net, CommissionRate)
    ensures r.academyFee + r.tutorEarning == r.net
    ensures r.ops == Ops(Share(r.net, Infrastructure), Share(r.net, Security), Share(r.net, Administration), Share(r.net, Marketing))
    ensures r.tier == tier
  {
    var gross := BaseCents(tier, rate) * studentCount;
    var discount := Share(gross, DiscountRate(studentCount));
    var net := gross - discount;
    var fee := Share(net, CommissionRate);
    Finances(gross, discount, net, fee, net - fee, tier,
      Ops(Share(net, Infrastructure), Share(net, Security), Share(net, Administration), Share(net, Marketing)))
  }

  /** The default arguments: one student of the standard tier at rate 1. */
  function CalculateDefault(): (r: Finances)
    ensures r == Calculate(Standard, 1, 1.0)
  {
    Calculate(Standard, 1, 1.0)
  }

  /** The operations shares add up to the commission, and commission and
      tutor share add up to the whole. */
  lemma RatesAddUp()
    ensures Infrastructure + Security + Administration + Marketing == CommissionRate
    ensures CommissionRate + TutorShareRate == 1.0
  {
  }

  /** Three fifths of a whole number of cents is never half-way between two
      integers, so the academy fee is within two fifths of a cent of 60%
      of the net and the direction of tie-breaking never matters. */
  lemma FeeNoTie(net: int)
    ensures var fee := Share(net, CommissionRate);
            -0.4 <= fee as real - net as real * CommissionRate <= 0.4
  {
    var q := (3 * net) / 5;
    var m := (3 * net) % 5;
    assert 3 * net == 5 * q + m;
    var x := net as real * CommissionRate;
    assert x == q as real + m as real / 5.0;
    if m <= 2 {
      RoundUnique(x, q);
    } else {
      RoundUnique(x, q + 1);
    }
  }

  /** For a non-negative count and rate the discount lies between zero and
      the gross, so the net is never negative. */
  lemma DiscountBounded(tier: Tier, studentCount: int, rate: real)
    requires studentCount >= 0 && rate >= 0.0
    ensures var r := Calculate(tier, studentCount, rate);
            0 <= r.discount <= r.gross && 0 <= r.net <= r.gross
  {
    var gross := BaseCents(tier, rate) * studentCount;
    assert gross >= 0;
    var d := DiscountRate(studentCount);
    RoundMonotone(0.0, gross as real * d);
    RoundInt(0);
    if gross > 0 {
      assert gross as real * d + 0.5 <= gross as real;
    } else {
      assert gross as real * d == 0.0;
      RoundInt(0);
    }
  }

  /** At rate 1 the gross is a whole number of currency units, so the
      family discount is exact: a tenth of the gross for two students and
      a fifth for three or more. */
  lemma UnitRateExact(tier: Tier, studentCount: int)
    ensures var r := Calculate(tier, studentCount, 1.0);
            && r.gross == 100 * TierPrice(tier) * studentCount
            && (studentCount == 2 ==> 10 * r.discount == r.gross)
            && (studentCount >= 3 ==> 5 * r.discount == r.gross)
            && (studentCount <= 1 ==> r.discount == 0)
  {
    var p := TierPrice(tier);
    var gross := 100 * p * studentCount;
    if studentCount == 2 {
      RoundInt(10 * p * studentCount);
      assert gross as real * 0.1 == (10 * p * studentCount) as real;
    } else if studentCount >= 3 {
      RoundInt(20 * p * studentCount);
      assert gross as real * 0.2 == (20 * p * studentCount) as real;
    } else {
      RoundInt(0);
    }
  }

  /** One standard student at rate 1: 65.00 net, 39.00 to the academy and
      26.00 to the tutor. */
  lemma StandardOneStudent()
    ensures var r := Calculate(Standard, 1, 1.0);
            r.gross == 6500 && r.discount == 0 && r.net == 6500 && r.academyFee == 3900 && r.tutorEarning == 2600
  {
    UnitRateExact(Standard, 1);
    RoundInt(3900);
    assert 6500.0 * CommissionRate == 3900.0;
  }

  /** Two standard students at rate 1: 130.00 gross, 13.00 discount, 117.00
      net, 70.20 to the academy and 46.80 to the tutor. */
  lemma StandardTwoStudents()
    ensures var r := Calculate(Standard, 2, 1.0);
            r.gross == 13000 && r.discount == 1300 && r.net == 11700 && r.academyFee == 7020 && r.tutorEarning == 4680
  {
    UnitRateExact(Standard, 2);
    RoundInt(7020);
    assert 11700.0 * CommissionRate == 7020.0;
  }

  /** The four operations lines are each the rounded share of the net, and
      together they differ from the academy fee by at most two cents. */
  lemma OpsNearFee(tier: Tier, studentCount: int, rate: real)
    ensures var r := Calculate(tier, studentCount, rate);
            var total := r.ops.infrastructure + r.ops.security + r.ops.admin + r.ops.marketing;
            -2 <= total - r.academyFee <= 2
  {
    var r := Calculate(tier, studentCount, rate);
    FeeNoTie(r.net);
  }
}

=== FILE: hifz_mentor.dfy ===
/** The Hifz mentor: the scheduler with no safety offset and the interrupt
    examined after the audio, the rolling transcript, the list of detected
    error cues, and the session status. */
module HifzMentor {
  import opened Wrappers
  import opened Text
  import opened Playback

  const Scheduler: Config := Config(0.0, AudioFirst)

  /** The transcript keeps this many trailing characters. */
  const TranscriptCap: nat := 150

  /** The error list keeps this many cues. */
  const ErrorCap: nat := 5

  /* ---------------- transcript and error cues ---------------- */

  /** `(prev + ' ' + text).slice(-150)`. */
  function AppendTranscript(prev: string, text: string): (r: string)
    ensures |r| <= TranscriptCap
    ensures var full := prev + " " + text;
            && |r| <= |full| && r == full[|full| - |r|..]
            && (|full| <= TranscriptCap ==> r == full)
            && (|full| > TranscriptCap ==> |r| == TranscriptCap)
  {
    TakeLast(prev + " " + text, TranscriptCap)
  }

  /** The text mentions a pronunciation or hesitation problem. */
  predicate IsErrorCue(text: string) {
    Mentions(text, "makhraj") || Mentions(text, "hesitation")
  }

  /** The cue recorded for a text: its first sentence, `text.split('.')[0]`. */
  function Cue(text: string): (c: string)
    ensures IsPrefix(c, text) && '.' !in c
  {
    BeforeFirst(text, '.')
  }

  /** `[...new Set([...prev, cue])].slice(-5)` when the text is an error
      cue; otherwise the list is left alone. */
  function RecordErrors(prev: seq<string>, text: string): (r: seq<string>)
    ensures !IsErrorCue(text) ==> r == prev
    ensures IsErrorCue(text) ==> NoDup(r) && |r| <= ErrorCap
    ensures forall x :: x in r ==> x in prev || x == Cue(text)
  {
    if IsErrorCue(text) then
      var d := Dedup(prev + [Cue(text)]);
      var r := TakeLast(d, ErrorCap);
      assert forall x :: x in r ==> x in d;
      r
    else prev
  }

  /** On a list that already holds at most five distinct cues, recording an
      error keeps it so, a cue already present changes nothing, and a new
      cue becomes the last entry (dropping the oldest one when the list is
      full). */
  lemma RecordErrorsKeepsInvariant(prev: seq<string>, text: string)
    requires NoDup(prev) && |prev| <= ErrorCap
    ensures var r := RecordErrors(prev, text);
            && NoDup(r) && |r| <= ErrorCap
            && (IsErrorCue(text) && Cue(text) in prev ==> r == prev)
            && (IsErrorCue(text) && Cue(text) !in prev ==>
                  r == TakeLast(prev + [Cue(text)], ErrorCap) && r[|r| - 1] == Cue(text))
  {
    if IsErrorCue(text) {
      DedupAppend(prev, Cue(text));
    }
  }

  /* ---------------- the session ---------------- */

  datatype Mentor = Mentor(active: bool, status: string, transcript: string, errors: seq<string>, sched: Sched)

  const InitialMentor: Mentor := Mentor(false, "Ready for Drill", "", [], Initial)

  /** A server message: inline audio, output transcription, interrupt flag. */
  datatype ServerMsg = ServerMsg(audio: Option<string>, transcription: Option<string>, interrupted: bool)

  /** `startSession` before the connection opens. */
  function Start(m: Mentor): (r: Mentor)
    ensures r.status == "Waking Scholarly Archives..." && r == m.(status := r.status)
  {
    m.(status := "Waking Scholarly Archives...")
  }

  /** The `catch` of `startSession`. */
  function StartFailed(m: Mentor): (r: Mentor)
    ensures r.status == "Vocal sensor access denied." && r == m.(status := r.status)
  {
    m.(status := "Vocal sensor access denied.")
  }

  /** `onopen`. */
  function OnOpen(m: Mentor): (r: Mentor)
    ensures r.active && r.status == "Recitation Active"
    ensures r.transcript == m.transcript && r.errors == m.errors && r.sched == m.sched
  {
    m.(active := true, status := "Recitation Active")
  }

  /** `stopSession`: stops and forgets every queued source and concludes
      the drill, but leaves the cursor where it was. */
  function StopSession(m: Mentor): (r: Mentor)
    ensures !r.active && r.status == "Drill Concluded"
    ensures r.sched.queued == {} && r.sched.cursor == m.sched.cursor && r.sched.nextId == m.sched.nextId
    ensures r.transcript == m.transcript && r.errors == m.errors
  {
    m.(active := false, status := "Drill Concluded", sched := m.sched.(queued := {}))
  }

  /** `onerror` stops the session. */
  function OnError(m: Mentor): (r: Mentor)
    ensures r == StopSession(m)
  {
    StopSession(m)
  }

  /** `onclose` only marks the session inactive. */
  function OnClose(m: Mentor): (r: Mentor)
    ensures !r.active && r.status == m.status && r.sched == m.sched
    ensures r.transcript == m.transcript && r.errors == m.errors
  {
    m.(active := false)
  }

  /** `onmessage`: audio first; if decoding throws, the handler stops
      there. Otherwise the transcription updates the transcript and the
      error list, and an interrupt then flushes the queue (the flush is
      part of the scheduler step, and the two touch disjoint state). */
  function OnMessage(m: Mentor, msg: ServerMsg, now: real): (r: Mentor)
    requires Valid(m.sched)
    ensures Valid(r.sched)
    ensures r.active == m.active && r.status == m.status
    ensures msg.transcription.None? ==> r.transcript == m.transcript && r.errors == m.errors
    ensures msg.interrupted && !Handle(Scheduler, m.sched, Msg(msg.audio, msg.interrupted), now, true).aborted ==>
              r.sched.queued == {} && r.sched.cursor == 0.0
    ensures Handle(Scheduler, m.sched, Msg(msg.audio, msg.interrupted), now, true).aborted ==>
              r.transcript == m.transcript && r.errors == m.errors && r.sched.queued == m.sched.queued
    ensures !Handle(Scheduler, m.sched, Msg(msg.audio, msg.interrupted), now, true).aborted && msg.transcription.Some? ==>
              r.transcript == AppendTranscript(m.transcript, msg.transcription.value)
              && r.errors == RecordErrors(m.errors, msg.transcription.value)
    ensures r.sched == Handle(Scheduler, m.sched, Msg(msg.audio, msg.interrupted), now, true).next
    ensures !msg.interrupted && msg.audio.Some? && msg.audio.value != "" && BufferFrames(msg.audio.value).Success? ==>
              && r.sched.queued == m.sched.queued + {m.sched.nextId}
              && r.sched.nextId == m.sched.nextId + 1
              && r.sched.cursor == Max(m.sched.cursor, now) + Duration(BufferFrames(msg.audio.value).value)
  {
    var o := Handle(Scheduler, m.sched, Msg(msg.audio, msg.interrupted), now, true);
    if o.aborted then m.(sched := o.next)
    else if msg.transcription.Some? then
      var text := msg.transcription.value;
      m.(sched := o.next, transcript := AppendTranscript(m.transcript, text), errors := RecordErrors(m.errors, text))
    else m.(sched := o.next)
  }

  /** With no offset a buffer starts at the later of the device clock and
      the previous buffer's end, and moves the cursor to its own end. */
  lemma StartsAtClockOrCursor(s: Sched, m: Msg, now: real)
    requires Valid(s) && !m.interrupted && HasAudio(m) && BufferFrames(m.audio.value).Success?
    ensures var o := Handle(Scheduler, s, m, now, true);
            && o.scheduled.Some?
            && o.scheduled.value.start == Max(s.cursor, now)
            && o.next.cursor == o.scheduled.value.start + Duration(BufferFrames(m.audio.value).value)
  {
  }

  /** A message with audio and an interrupt schedules the audio and then
      flushes it along with everything else. */
  lemma AudioThenInterrupt(s: Sched, m: Msg, now: real)
    requires Valid(s) && m.interrupted && HasAudio(m) && BufferFrames(m.audio.value).Success?
    ensures var o := Handle(Scheduler, s, m, now, true);
            && o.scheduled.Some? && o.scheduled.value.start == Max(s.cursor, now)
            && o.next.queued == {} && o.next.cursor == 0.0
  {
  }

  /** A payload that fails to decode rejects the handler after the cursor
      was anchored: the cursor moves to the later of itself and the clock,
      and the rest of the message, its interrupt included, is not
      processed. */
  lemma DecodeFailureStopsHandler(m: Mentor, msg: ServerMsg, now: real)
    requires Valid(m.sched)
    requires msg.audio.Some? && msg.audio.value != "" && BufferFrames(msg.audio.value).Failure?
    ensures var r := OnMessage(m, msg, now);
            && r.sched.cursor == Max(m.sched.cursor, now)
            && r.sched.queued == m.sched.queued
            && r.transcript == m.transcript && r.errors == m.errors
  {
  }

  /** After `stopSession` the cursor is not reset: a buffer arriving later
      is still queued behind the old cursor. */
  lemma StopKeepsCursor(m: Mentor, msg: ServerMsg, now: real)
    requires Valid(m.sched)
    requires !msg.interrupted && msg.audio.Some? && msg.audio.value != "" && BufferFrames(msg.audio.value).Success?
    requires now < m.sched.cursor
    ensures var s := StopSession(m).sched;
            var o := Handle(Scheduler, s, Msg(msg.audio, false), now, true);
            o.scheduled.Some? && o.scheduled.value.start == m.sched.cursor
  {
  }
}

=== FILE: i18n.dfy ===
/** The language context: the language chosen on first load, switching
    language, the translation lookup with its English fallback, and the
    writing direction. The translation table is a parameter: a map from a
    language code to that language's entries, which include "DIR". */
module I18n {
  import opened Wrappers
  import opened Text

  type Table = map<string, map<string, string>>

  /** `AppLanguage`. */
  const Languages: seq<string> := ["EN", "AR", "UR", "FR", "TR", "MS"]

  /** The languages the browser setting can select. */
  const Detectable: seq<string> := ["EN", "AR", "UR", "FR"]

  /** The storage key of the chosen language. */
  const StorageKey: string := "qwt_lang"

  /* ---------------- choosing the language ---------------- */

  /** The upper-cased primary subtag of a browser language tag:
      `navigator.language.split('-')[0].toUpperCase()`. */
  function PrimarySubtag(browser: string): (r: string)
    ensures |r| <= |browser| && '-' !in r
  {
    Upper(BeforeFirst(browser, '-'))
  }

  /** The initial language: a non-empty saved value is taken as it is,
      whatever it holds; otherwise the browser's primary subtag if it is
      one of the four detectable languages, else English. */
  function Detect(saved: Option<string>, browser: string): (r: string)
    ensures saved.Some? && |saved.value| > 0 ==> r == saved.value
    ensures (saved.None? || saved.value == "") ==> r in Detectable
    ensures (saved.None? || saved.value == "") && PrimarySubtag(browser) in Detectable ==>
              r == PrimarySubtag(browser)
    ensures (saved.None? || saved.value == "") && PrimarySubtag(browser) !in Detectable ==> r == "EN"
  {
    if saved.Some? && |saved.value| > 0 then saved.value
    else
      var sub := PrimarySubtag(browser);
      if sub in Detectable then sub else "EN"
  }

  /** Turkish and Malay are offered by the switcher but never chosen from
      the browser setting. */
  lemma NeverDetectsTurkishOrMalay(browser: string)
    ensures Detect(None, browser) != "TR" && Detect(None, browser) != "MS"
    ensures Detect(None, browser) in Languages
  {
  }

  /** Detection ignores the case of the browser tag. */
  lemma DetectIgnoresCase(browser: string)
    ensures Detect(None, Lower(browser)) == Detect(None, browser)
  {
    BeforeFirstLower(browser, '-');
    UpperLower(BeforeFirst(browser, '-'));
  }

  /** Cutting at a character the case maps leave alone commutes with
      lower-casing. */
  lemma {:induction false} BeforeFirstLower(s: string, sep: char)
    requires LowerChar(sep) == sep && !('a' <= sep <= 'z')
    ensures BeforeFirst(Lower(s), sep) == Lower(BeforeFirst(s, sep))
    decreases |s|
  {
    if |s| > 0 && s[0] != sep {
      assert Lower(s)[1..] == Lower(s[1..]);
      BeforeFirstLower(s[1..], sep);
      assert Lower([s[0]] + BeforeFirst(s[1..], sep)) == [LowerChar(s[0])] + Lower(BeforeFirst(s[1..], sep));
    }
  }

  /** "fr-CA" selects French; "de-DE" falls back to English. */
  lemma DetectExamples()
    ensures Detect(None, "fr-CA") == "FR"
    ensures Detect(None, "de-DE") == "EN"
    ensures Detect(Some(""), "ar") == "AR"
  {
    assert BeforeFirst("fr-CA", '-') == "fr";
    assert Upper("fr") == "FR";
    assert BeforeFirst("de-DE", '-') == "de";
    assert Upper("de") == "DE";
    assert BeforeFirst("ar", '-') == "ar";
    assert Upper("ar") == "AR";
  }

  /** The language in use and the value kept in storage. */
  datatype LangState = LangState(lang: string, stored: Option<string>)

  /** The state on first load. */
  function Load(stored: Option<string>, browser: string): (r: LangState)
    ensures r.stored == stored && r.lang == Detect(stored, browser)
  {
    LangState(Detect(stored, browser), stored)
  }

  /** `setLang`: the state and the storage both take the new code. */
  function SetLang(s: LangState, lang: string): (r: LangState)
    ensures r.lang == lang && r.stored == Some(lang)
  {
    LangState(lang, Some(lang))
  }

  /** A language chosen in the switcher survives a reload, whatever the
      browser says. */
  lemma ChoiceSurvivesReload(s: LangState, lang: string, browser: string)
    requires lang in Languages
    ensures Load(SetLang(s, lang).stored, browser) == SetLang(s, lang)
  {
  }

  /* ---------------- translation ---------------- */

  /** A JavaScript-truthy entry: present and not the empty string. */
  predicate HasEntry(entries: map<string, string>, key: string) {
    key in entries && |entries[key]| > 0
  }

  /** `t(key)`: the entry of the current language, else the English one,
      else the key itself. Looking a key up under a language the table does
      not hold fails, as indexing `undefined` does. */
  function Translate(table: Table, lang: string, key: string): (r: Option<string>)
    requires "EN" in table
    ensures r.None? <==> lang !in table
    ensures r.Some? ==> r.value == key || (key in table[lang] && r.value == table[lang][key])
                        || (key in table["EN"] && r.value == table["EN"][key])
    ensures r.Some? && HasEntry(table[lang], key) ==> r.value == table[lang][key]
    ensures r.Some? && !HasEntry(table[lang], key) && HasEntry(table["EN"], key) ==> r.value == table["EN"][key]
  {
    if lang !in table then None
    else if HasEntry(table[lang], key) then Some(table[lang][key])
    else if HasEntry(table["EN"], key) then Some(table["EN"][key])
    else Some(key)
  }

  /** A translation is never blank for a non-empty key: some entry or the
      key itself always shows. */
  lemma TranslationNeverBlank(table: Table, lang: string, key: string)
    requires "EN" in table && lang in table && |key| > 0
    ensures |Translate(table, lang, key).value| > 0
  {
  }

  /** An entry missing from a language, or left empty there, reads as the
      English text. */
  lemma MissingEntryReadsEnglish(table: Table, lang: string, key: string)
    requires "EN" in table && lang in table
    requires !HasEntry(table[lang], key) && HasEntry(table["EN"], key)
    ensures Translate(table, lang, key) == Translate(table, "EN", key)
  {
  }

  /** English has nothing to fall back on: it reads its own entry, or the
      key when that entry is missing or empty. */
  lemma EnglishReadsItself(table: Table, key: string)
    requires "EN" in table
    ensures Translate(table, "EN", key) == Some(if HasEntry(table["EN"], key) then table["EN"][key] else key)
  {
  }

  /* ---------------- direction ---------------- */

  /** `isRTL`: the language's "DIR" entry is "rtl"; fails for a language
      the table does not hold. */
  function IsRtl(table: Table, lang: string): (r: Option<bool>)
    ensures r.None? <==> lang !in table
    ensures r.Some? ==> (r.value <==> "DIR" in table[lang] && table[lang]["DIR"] == "rtl")
  {
    if lang !in table then None
    else Some("DIR" in table[lang] && table[lang]["DIR"] == "rtl")
  }

  /** The document's `dir` and `lang` attributes. */
  datatype DocumentAttributes = DocumentAttributes(dir: string, lang: string)

  /** The effect run after every change of language. */
  function Document(table: Table, s: LangState): (r: Option<DocumentAttributes>)
    ensures r.None? <==> s.lang !in table
    ensures r.Some? ==> r.value.lang == Lower(s.lang)
    ensures r.Some? ==> r.value.dir in {"rtl", "ltr"}
    ensures r.Some? ==> (r.value.dir == "rtl" <==> IsRtl(table, s.lang) == Some(true))
  {
    match IsRtl(table, s.lang)
    case None => None
    case Some(rtl) => Some(DocumentAttributes(if rtl then "rtl" else "ltr", Lower(s.lang)))
  }

  /** After switching, the document's direction is the new language's: it
      reads right to left exactly when that language's "DIR" says so. */
  lemma SwitchSetsDirection(table: Table, s: LangState, lang: string)
    requires lang in table
    ensures var doc := Document(table, SetLang(s, lang));
            && doc.Some?
            && (doc.value.dir == "rtl" <==> "DIR" in table[lang] && table[lang]["DIR"] == "rtl")
            && (doc.value.dir == "ltr" <==> !("DIR" in table[lang] && table[lang]["DIR"] == "rtl"))
  {
  }
}

=== FILE: invoice.dfy ===
/** The receipt utilities: the simulated transaction hash and the plain
    text receipt. The random draws and the amount text are inputs. */
module Invoice {
  import opened Text
  import opened JsMath

  /* ---------------- transaction hash ---------------- */

  /** `d.toString(16)` for a digit below sixteen. */
  function HexDigit(d: nat): (c: char)
    requires d < 16
    ensures IsHex(c)
  {
    if d < 10 then DigitChar(d) else ('a' as int + (d - 10)) as char
  }

  predicate IsHex(c: char) {
    '0' <= c <= '9' || 'a' <= c <= 'f'
  }

  /** The value of a lower-case hexadecimal digit. */
  function HexValue(c: char): (d: nat)
    requires IsHex(c)
    ensures d < 16
  {
    if '0' <= c <= '9' then c as int - '0' as int else c as int - 'a' as int + 10
  }

  /** `Math.floor(r * 16)` for a draw `r` in [0, 1): the sixteenth of the
      unit interval that holds `r`. */
  function Nibble(r: real): (d: nat)
    requires 0.0 <= r < 1.0
    ensures d < 16
    ensures d as real / 16.0 <= r < (d + 1) as real / 16.0
  {
    Floor(r * 16.0)
  }

  predicate ValidDraws(draws: seq<real>) {
    |draws| == 40 && forall i :: 0 <= i < |draws| ==> 0.0 <= draws[i] < 1.0
  }

  /** `generateTransactionHash` with its forty `Math.random()` draws as
      input: "0x" and forty hexadecimal digits. */
  function TransactionHash(draws: seq<real>): (h: string)
    requires ValidDraws(draws)
    ensures |h| == 42 && h[..2] == "0x"
    ensures forall i :: 2 <= i < 42 ==> IsHex(h[i])
  {
    "0x" + seq(40, i requires 0 <= i < 40 => HexDigit(Nibble(draws[i])))
  }

  /** Each digit of the hash names the sixteenth of [0, 1) its draw fell
      in, so reading the digits back recovers every draw to within one
      sixteenth. */
  lemma HashRecordsDraws(draws: seq<real>)
    requires ValidDraws(draws)
    ensures forall i :: 0 <= i < 40 ==>
              var d := HexValue(TransactionHash(draws)[i + 2]);
              d as real / 16.0 <= draws[i] < (d + 1) as real / 16.0
  {
    forall i | 0 <= i < 40
      ensures var d := HexValue(TransactionHash(draws)[i + 2]);
              d as real / 16.0 <= draws[i] < (d + 1) as real / 16.0
    {
      HexRoundTrip(Nibble(draws[i]));
    }
  }

  lemma HexRoundTrip(d: nat)
    requires d < 16
    ensures HexValue(HexDigit(d)) == d
  {
  }

  /* ---------------- the receipt ---------------- */

  /** `InvoiceData`, with the amount already written by `toFixed(2)`. */
  datatype InvoiceData = InvoiceData(id: string, date: string, studentName: string, academyId: string,
                                     tier: string, amountText: string, transactionHash: string)

  /** The closing line of the receipt. */
  const GovernanceLabel: string := "    Governance: QuranWithTahir.com Global Operations"

  /** The fixed text of each line of the receipt template, indentation
      included; the lines with a field end in its label. */
  const Labels: seq<string> := [
    "",
    "    QWT-OFFICIAL-INVOICE",
    "    --------------------",
    "    Receipt ID: ",
    "    Date: ",
    "    ",
    "    Verified Student: ",
    "    Academy ID: ",
    "    Instruction Tier: ",
    "    ",
    "    Amount Cleared: $",
    "    Status: PERMANENTLY VERIFIED",
    "    ",
    "    TXID: ",
    GovernanceLabel,
    "  " ]

  /** The field written after each label, if any. */
  function Fields(d: InvoiceData): (r: seq<string>)
    ensures |r| == |Labels|
  {
    ["", "", "", d.id, d.date, "", d.studentName, d.academyId, d.tier, "",
     d.amountText, "", "", d.transactionHash, "", ""]
  }

  function Lines(d: InvoiceData): (r: seq<string>)
    ensures |r| == 16
  {
    seq(16, i requires 0 <= i < 16 => Labels[i] + Fields(d)[i])
  }

  /** `generateInvoice`: the template with the fields in place. */
  function GenerateInvoice(d: InvoiceData): string {
    Join(Lines(d), "\n")
  }

  predicate SingleLine(s: string) {
    '\n' !in s
  }

  /** When no field spans lines, each field is read back verbatim after
      its label, on its own line of the receipt. */
  lemma InvoiceFieldsReadBack(d: InvoiceData)
    requires forall i :: 0 <= i < 16 ==> SingleLine(Fields(d)[i])
    ensures var l := Split(GenerateInvoice(d), "\n");
            && |l| == 16
            && forall i :: 0 <= i < 16 ==> l[i] == Labels[i] + Fields(d)[i]
  {
    var l := Lines(d);
    LabelsSingleLine();
    forall i | 0 <= i < |l|
      ensures '\n' !in l[i]
    {
      assert l[i] == Labels[i] + Fields(d)[i];
    }
    SplitJoinChar(l, '\n');
  }

  /** No label holds a line break. */
  lemma LabelsSingleLine()
    ensures forall i :: 0 <= i < |Labels| ==> SingleLine(Labels[i])
  {
    forall i | 0 <= i < |Labels|
      ensures SingleLine(Labels[i])
    {
      LabelSingleLine(i);
    }
  }

  /** One label at a time, in groups so that each case stays small:
      each is a literal without a line break. */
  lemma LabelSingleLine(i: nat)
    requires i < |Labels|
    ensures SingleLine(Labels[i])
  {
    var p := Labels[i];
    if i < 4 {
      forall k | 0 <= k < |p| ensures p[k] != '\n' { }
    } else if i < 8 {
      forall k | 0 <= k < |p| ensures p[k] != '\n' { }
    } else if i < 12 {
      forall k | 0 <= k < |p| ensures p[k] != '\n' { }
    } else if i != 14 {
      forall k | 0 <= k < |p| ensures p[k] != '\n' { }
    } else {
      GovernanceSingleLine();
    }
  }

  /** The governance label, checked in two halves: one stretch of 52
      characters is more than the solver will enumerate. */
  lemma GovernanceSingleLine()
    ensures SingleLine(GovernanceLabel)
  {
    var a, b := "    Governance: QuranWithTahir", ".com Global Operations";
    forall k | 0 <= k < |a| ensures a[k] != '\n' { }
    forall k | 0 <= k < |b| ensures b[k] != '\n' { }
    assert forall k :: 0 <= k < |a + b| ==> (a + b)[k] != '\n';
    assert a + b == GovernanceLabel;
  }

  /** With a generated hash the TXID line is 52 characters long: the
      label, "0x" and forty digits. */
  lemma ReceiptCarriesHash(d: InvoiceData, draws: seq<real>)
    requires ValidDraws(draws) && d.transactionHash == TransactionHash(draws)
    ensures |Lines(d)[13]| == 52 && Lines(d)[13][10..12] == "0x"
  {
    var h := TransactionHash(draws);
    assert Fields(d)[13] == h;
    assert Labels[13] == "    TXID: ";
    assert Lines(d)[13] == Labels[13] + h;
    assert Lines(d)[13][10..12] == h[..2];
  }
}

=== FILE: jsmath.dfy ===
/** The two rounding functions of ECMAScript's `Math` object that the
    money and identifier code uses, on exact reals. */
module JsMath {

  /** `Math.floor`: the greatest integer not above `x`. */
  function Floor(x: real): (r: int)
    ensures r as real <= x < r as real + 1.0
  {
    x.Floor
  }

  /** `Math.round` (section 21.3.2.28 of ECMA-262): the integer nearest to
      `x`, a tie going towards +infinity. */
  function Round(x: real): (r: int)
    ensures x - 0.5 < r as real <= x + 0.5
  {
    Floor(x + 0.5)
  }

  /** Rounding is the identity on integers. */
  lemma RoundInt(n: int)
    ensures Round(n as real) == n
  {
  }

  /** Rounding never reverses an order. */
  lemma RoundMonotone(x: real, y: real)
    requires x <= y
    ensures Round(x) <= Round(y)
  {
  }

  /** Any integer within one half of `x`, ties excluded, is its rounding. */
  lemma RoundUnique(x: real, n: int)
    requires x - 0.5 < n as real < x + 0.5
    ensures Round(x) == n
  {
  }
}

=== FILE: live_classroom.dfy ===
/** The live classroom: the system log, the session status, and the
    scheduler instantiated with a 50 ms safety offset and the interrupt
    examined before the audio. */
module LiveClassroom {
  import opened Wrappers
  import opened Playback

  /** `SAFETY_OFFSET`, in seconds. */
  const SafetyOffset: real := 0.05

  const Scheduler: Config := Config(SafetyOffset, InterruptFirst)

  /* ---------------- the system log ---------------- */

  datatype LogKind = Info | Warn | Succeeded

  datatype LogEntry = LogEntry(msg: string, kind: LogKind)

  /** At most this many log entries are kept. */
  const LogCap: nat := 15

  /** `addLog`: the new entry goes in front and the list is cut to the
      first fifteen entries. */
  function AddLog(logs: seq<LogEntry>, msg: string, kind: LogKind): (r: seq<LogEntry>)
    ensures 1 <= |r| <= LogCap
    ensures |r| == if |logs| + 1 <= LogCap then |logs| + 1 else LogCap
    ensures r[0] == LogEntry(msg, kind)
    ensures r[1..] == logs[..|r| - 1]
  {
    var full := [LogEntry(msg, kind)] + logs;
    var r := if |full| <= LogCap then full else full[..LogCap];
    assert r[1..] == full[1..|r|];
    r
  }

  /** Logging twice keeps both entries in front, newest first, and the
      rest of the log behind them in the same order. */
  lemma AddLogTwice(logs: seq<LogEntry>, a: LogEntry, b: LogEntry)
    ensures var r := AddLog(AddLog(logs, a.msg, a.kind), b.msg, b.kind);
            && r[0] == b && r[1] == a
            && r[2..] == logs[..|r| - 2]
  {
    var r1 := AddLog(logs, a.msg, a.kind);
    var r := AddLog(r1, b.msg, b.kind);
    assert r[1..] == r1[..|r| - 1];
    assert r[1] == r1[0];
    assert r[2..] == r1[1..|r| - 1];
  }

  /* ---------------- the session ---------------- */

  datatype Session = Session(active: bool, status: string, logs: seq<LogEntry>, sched: Sched, hasOutput: bool)

  const InitialSession: Session := Session(false, "Initializing Link...", [], Initial, false)

  /** `startSession` up to the connection: logs the cache sync and creates
      the output context. */
  function Start(s: Session): (r: Session)
    ensures r.hasOutput && |r.logs| > 0 && r.logs[0] == LogEntry("Initializing High-Speed Cache Sync", Info)
    ensures r.active == s.active && r.status == s.status && r.sched == s.sched
  {
    s.(logs := AddLog(s.logs, "Initializing High-Speed Cache Sync", Info), hasOutput := true)
  }

  /** `onopen`. */
  function OnOpen(s: Session): (r: Session)
    ensures r.active && r.status == "Active Sync"
    ensures |r.logs| > 0 && r.logs[0] == LogEntry("Redis Sync Pipeline Initialized", Succeeded)
    ensures r.sched == s.sched && r.hasOutput == s.hasOutput
  {
    s.(active := true, status := "Active Sync", logs := AddLog(s.logs, "Redis Sync Pipeline Initialized", Succeeded))
  }

  /** `onerror` and `onclose` both only mark the session inactive. */
  function OnErrorOrClose(s: Session): (r: Session)
    ensures !r.active && r == s.(active := false)
  {
    s.(active := false)
  }

  /** The `catch` of `startSession`. */
  function StartFailed(s: Session): (r: Session)
    ensures r.status == "Link Failure" && r == s.(status := "Link Failure")
  {
    s.(status := "Link Failure")
  }

  /** `onmessage`: the scheduler step with this component's configuration;
      playback needs the output context. */
  function OnMessage(s: Session, m: Msg, now: real): (r: Session)
    requires Valid(s.sched)
    ensures Valid(r.sched)
    ensures r.active == s.active && r.status == s.status && r.logs == s.logs && r.hasOutput == s.hasOutput
    ensures m.interrupted ==> r.sched.queued == {} && r.sched.cursor == 0.0 && r.sched.nextId == s.sched.nextId
    ensures !m.interrupted && !s.hasOutput ==> r == s
    ensures !m.interrupted ==> r.sched.cursor >= s.sched.cursor && r.sched.queued >= s.sched.queued
    ensures r.sched == Handle(Scheduler, s.sched, m, now, s.hasOutput).next
    ensures !m.interrupted && s.hasOutput && HasAudio(m) && BufferFrames(m.audio.value).Success? ==>
              && r.sched.queued == s.sched.queued + {s.sched.nextId}
              && r.sched.nextId == s.sched.nextId + 1
              && r.sched.cursor >= now + 0.05 + Duration(BufferFrames(m.audio.value).value)
              && r.sched.cursor >= s.sched.cursor + Duration(BufferFrames(m.audio.value).value)
  {
    s.(sched := Handle(Scheduler, s.sched, m, now, s.hasOutput).next)
  }

  /** A buffer that plays starts no earlier than 50 ms after the device
      clock and no earlier than the end of the previous buffer, and moves
      the cursor to its own end. */
  lemma StartsAfterSafetyOffset(s: Sched, m: Msg, now: real)
    requires Valid(s)
    requires !m.interrupted && HasAudio(m) && BufferFrames(m.audio.value).Success?
    ensures var o := Handle(Scheduler, s, m, now, true);
            && o.scheduled.Some?
            && o.scheduled.value.start >= now + 0.05
            && o.scheduled.value.start >= s.cursor
            && o.next.cursor == o.scheduled.value.start + Duration(BufferFrames(m.audio.value).value)
  {
  }

  /** Barge-in: an interrupted message stops everything, resets the cursor
      and plays none of the audio it carries. */
  lemma InterruptSkipsAudio(s: Sched, m: Msg, now: real, hasOutput: bool)
    requires Valid(s) && m.interrupted
    ensures var o := Handle(Scheduler, s, m, now, hasOutput);
            && o.scheduled.None? && !o.aborted
            && o.next.queued == {} && o.next.cursor == 0.0
  {
  }

  /** The buffer after a barge-in starts exactly 50 ms after the clock. */
  lemma ReanchorsAfterInterrupt(s: Sched, interrupt: Msg, m: Msg, now0: real, now: real)
    requires Valid(s) && interrupt.interrupted && now >= 0.0
    requires !m.interrupted && HasAudio(m) && BufferFrames(m.audio.value).Success?
    ensures var o1 := Handle(Scheduler, s, interrupt, now0, true);
            var o2 := Handle(Scheduler, o1.next, m, now, true);
            o2.scheduled.Some? && o2.scheduled.value.start == now + 0.05
  {
    ReanchorAfterInterrupt(Scheduler, s, m.audio.value, now);
  }
}

=== FILE: pcm.dfy ===
/** The sample codec of the live-audio pipeline: float samples are
    quantized into an `Int16Array` (`int16[i] = x * 32768`, which stores
    ECMAScript ToInt16 of the product, section 7.1.8 of ECMA-262), the
    array's bytes go on the wire little-endian, and `decodeAudioData`
    views received bytes as `Int16Array`, deinterleaves the channels and
    divides by 32768. */
module Pcm {
  import opened Wrappers
  import opened Base64

  type int16 = x: int | -32768 <= x < 32768

  const Scale: real := 32768.0

  /* ---------------- quantization ---------------- */

  /** Truncation toward zero (step 3 of ToInt16). */
  function Trunc(x: real): (n: int)
    ensures x >= 0.0 ==> n as real <= x < n as real + 1.0
    ensures x < 0.0 ==> n as real - 1.0 < x <= n as real
  {
    if x >= 0.0 then x.Floor else -((-x).Floor)
  }

  /** Steps 4 and 5 of ToInt16: reduce modulo 2^16 into the signed range. */
  function Wrap16(n: int): (r: int16)
    ensures (r - n) % 65536 == 0
    ensures -32768 <= n < 32768 ==> r == n
  {
    var m := n % 65536;
    if m >= 32768 then m - 65536 else m
  }

  /** ECMAScript ToInt16 of a finite number. */
  function ToInt16(x: real): int16 {
    Wrap16(Trunc(x))
  }

  /** What `int16[i] = inputData[i] * 32768` stores. */
  function Quantize(x: real): int16 {
    ToInt16(x * Scale)
  }

  /** The value `decodeAudioData` gives back for a stored sample. */
  function Dequantize(q: int16): (y: real)
    ensures -1.0 <= y < 1.0
  {
    q as real / Scale
  }

  /** For a sample in [-1, 1) the product never wraps, and dequantizing
      lands within one quantization step of the sample, on the side of
      zero. */
  lemma QuantizeInRange(x: real)
    requires -1.0 <= x < 1.0
    ensures Quantize(x) == Trunc(x * Scale)
    ensures -1.0 / Scale < x - Dequantize(Quantize(x)) < 1.0 / Scale
  {
    var p := x * Scale;
    var n := Trunc(p);
    assert -32768.0 <= p < 32768.0;
    assert -32768 <= n < 32768;
    assert p - 1.0 < n as real < p + 1.0;
  }

  /** Full scale positive input wraps: 1.0 becomes -32768, heard as -1.0. */
  lemma QuantizeOneWraps()
    ensures Quantize(1.0) == -32768
    ensures Dequantize(Quantize(1.0)) == -1.0
  {
    assert Trunc(1.0 * Scale) == 32768;
  }

  /** Out-of-range input wraps rather than clipping: 1.5 becomes -16384. */
  lemma QuantizeOverdriveWraps()
    ensures Quantize(1.5) == -16384
  {
    assert Trunc(1.5 * Scale) == 49152;
  }

  /** The `onaudioprocess` loop: one stored value per input sample, the
      ToInt16 of its product with 32768. An in-range sample is kept within
      one step; any other one wraps modulo 2^16 rather than clipping. */
  function CaptureBlock(samples: seq<real>): (r: seq<int16>)
    ensures |r| == |samples|
    ensures forall i :: 0 <= i < |samples| ==> r[i] == Quantize(samples[i])
    ensures forall i :: 0 <= i < |samples| ==> (r[i] - Trunc(samples[i] * Scale)) % 65536 == 0
    ensures forall i :: 0 <= i < |samples| && -1.0 <= samples[i] < 1.0 ==>
              -1.0 / Scale < samples[i] - Dequantize(r[i]) < 1.0 / Scale
  {
    if |samples| == 0 then []
    else
      QuantizeInRange(if -1.0 <= samples[0] < 1.0 then samples[0] else 0.0);
      [Quantize(samples[0])] + CaptureBlock(samples[1..])
  }

  /** Captured samples at and beyond full scale wrap: 1.0 is stored as
      -32768 and 1.5 as -16384. */
  lemma CaptureWraps()
    ensures CaptureBlock([1.0, 1.5]) == [-32768, -16384]
  {
    QuantizeOneWraps();
    QuantizeOverdriveWraps();
    var r := CaptureBlock([1.0, 1.5]);
    assert r[0] == Quantize(1.0) && r[1] == Quantize(1.5);
  }

  /* ---------------- little-endian bytes ---------------- */

  /** The two's-complement bit pattern of an int16, as an unsigned value. */
  function Unsigned16(v: int16): (u: int)
    ensures 0 <= u < 65536 && (u - v) % 65536 == 0
  {
    if v < 0 then v + 65536 else v
  }

  /** The int16 whose bit pattern is `u`. */
  function Signed16(u: int): (v: int16)
    requires 0 <= u < 65536
    ensures (u - v) % 65536 == 0
  {
    if u >= 32768 then u - 65536 else u
  }

  lemma SignedUnsigned(v: int16)
    ensures Signed16(Unsigned16(v)) == v
  {
  }

  lemma UnsignedSigned(u: int)
    requires 0 <= u < 65536
    ensures Unsigned16(Signed16(u)) == u
  {
  }

  /** The unsigned value of a little-endian byte pair. */
  function Word(lo: byte, hi: byte): (u: int)
    ensures 0 <= u < 65536
  {
    lo as int + 256 * hi as int
  }

  lemma WordInjective(a0: byte, a1: byte, b0: byte, b1: byte)
    requires Word(a0, a1) == Word(b0, b1)
    ensures a0 == b0 && a1 == b1
  {
  }

  /** `new Uint8Array(int16.buffer)` on a little-endian host: low byte
      first. */
  function PackLE(v: seq<int16>): (r: seq<byte>)
    ensures |r| == 2 * |v|
    ensures forall i :: 0 <= i < |v| ==> Word(r[2 * i], r[2 * i + 1]) == Unsigned16(v[i])
  {
    if |v| == 0 then []
    else
      var u := Unsigned16(v[0]);
      var rest := PackLE(v[1..]);
      var r := [u % 256, u / 256] + rest;
      assert forall i :: 1 <= i < |v| ==> r[2 * i] == rest[2 * (i - 1)] && r[2 * i + 1] == rest[2 * (i - 1) + 1];
      r
  }

  datatype AudioError =
    | RangeError        // a byte count the Int16Array view cannot cover
    | NotSupportedError // createBuffer refused the channel count, length or rate

  /** `new Int16Array(data.buffer)`: pairs of bytes, low byte first; an odd
      byte count cannot be viewed and throws. */
  function ViewInt16(b: seq<byte>): (r: Result<seq<int16>, AudioError>)
    ensures r.Success? <==> |b| % 2 == 0
    ensures r.Success? ==> |r.value| == |b| / 2
    ensures r.Success? ==> forall i :: 0 <= i < |r.value| ==> r.value[i] == Signed16(Word(b[2 * i], b[2 * i + 1]))
    ensures r.Failure? ==> r.error == RangeError
  {
    if |b| % 2 == 1 then Failure(RangeError)
    else Success(seq(|b| / 2, i requires 0 <= i < |b| / 2 && |b| % 2 == 0 => Signed16(Word(b[2 * i], b[2 * i + 1]))))
  }

  /** Viewing packed samples gives the samples back. */
  lemma ViewPack(v: seq<int16>)
    ensures ViewInt16(PackLE(v)) == Success(v)
  {
    var p := PackLE(v);
    var r := ViewInt16(p).value;
    forall i | 0 <= i < |v|
      ensures r[i] == v[i]
    {
      SignedUnsigned(v[i]);
    }
    assert r == v;
  }

  /** Packing a viewed byte sequence gives the bytes back. */
  lemma PackView(b: seq<byte>)
    requires |b| % 2 == 0
    ensures PackLE(ViewInt16(b).value) == b
  {
    var v := ViewInt16(b).value;
    var p := PackLE(v);
    forall i | 0 <= i < |v|
      ensures p[2 * i] == b[2 * i] && p[2 * i + 1] == b[2 * i + 1]
    {
      UnsignedSigned(Word(b[2 * i], b[2 * i + 1]));
      WordInjective(p[2 * i], p[2 * i + 1], b[2 * i], b[2 * i + 1]);
    }
    forall k | 0 <= k < |b|
      ensures p[k] == b[k]
    {
      var i := k / 2;
      if k % 2 == 0 {
        assert k == 2 * i;
      } else {
        assert k == 2 * i + 1;
      }
    }
  }

  /* ---------------- decodeAudioData ---------------- */

  /** An `AudioBuffer`: per-channel float data of equal length. */
  datatype AudioBuffer = AudioBuffer(sampleRate: int, length: nat, channels: seq<seq<real>>)
  {
    /** `buffer.duration` in seconds. */
    function Duration(): real
      requires sampleRate > 0
    {
      length as real / sampleRate as real
    }
  }

  /** `createBuffer` limits: 1 to 32 channels, at least one frame, and a
      rate between 3000 and 768000 Hz. */
  predicate BufferShapeOk(numChannels: int, frames: int, sampleRate: int) {
    1 <= numChannels <= 32 && frames >= 1 && 3000 <= sampleRate <= 768000
  }

  lemma MulMono(a: int, b: int, n: nat)
    requires a <= b
    ensures a * n <= b * n
  {
    assert b * n - a * n == (b - a) * n;
  }

  /** Sample `i * nc + c` of a view of `len` samples exists for every frame
      `i < len / nc` and channel `c < nc`. */
  lemma FrameIndexInRange(i: nat, c: nat, nc: nat, len: nat)
    requires 0 < nc && c < nc && i < len / nc
    ensures i * nc + c < len
  {
    var f := len / nc;
    assert f * nc + len % nc == len;
    MulMono(i + 1, f, nc);
    assert (i + 1) * nc == i * nc + nc;
  }

  /** Where frame `i` of channel `c` sits in an interleaved view of `len`
      samples over `nc` channels. */
  function FrameIndex(i: nat, c: nat, nc: nat, len: nat): (k: nat)
    requires 0 < nc && c < nc && i < len / nc
    ensures k == i * nc + c && k < len
  {
    FrameIndexInRange(i, c, nc, len);
    i * nc + c
  }

  /** The length of the buffer `decodeAudioData` builds, or the error it
      throws: an odd byte count cannot be viewed, and `createBuffer`
      refuses a shape outside its limits. */
  function FrameCount(data: seq<byte>, sampleRate: int, numChannels: int): (r: Result<nat, AudioError>)
    ensures r.Success? ==> r.value >= 1 && r.value * numChannels <= |data| / 2
    ensures |data| % 2 == 1 ==> r == Failure(RangeError)
  {
    if |data| % 2 == 1 then Failure(RangeError)
    else if numChannels <= 0 then Failure(NotSupportedError)
    else
      var frames := |data| / 2 / numChannels;
      if !BufferShapeOk(numChannels, frames, sampleRate) then Failure(NotSupportedError)
      else Success(frames)
  }

  /** `decodeAudioData(data, ctx, sampleRate, numChannels)`: views the bytes
      as int16, makes a buffer of `floor(count / numChannels)` frames and
      fills channel `c`, frame `i` with `int16[i * numChannels + c] / 32768`. */
  method DecodeAudioData(data: seq<byte>, sampleRate: int, numChannels: int)
    returns (r: Result<AudioBuffer, AudioError>)
    ensures r.Failure? <==> FrameCount(data, sampleRate, numChannels).Failure?
    ensures r.Failure? ==> r.error == FrameCount(data, sampleRate, numChannels).error
    ensures r.Success? ==> r.value.length == FrameCount(data, sampleRate, numChannels).value
    ensures r.Success? ==>
              var v := ViewInt16(data).value;
              var b := r.value;
              && b.sampleRate == sampleRate
              && b.length == |v| / numChannels
              && |b.channels| == numChannels
              && (forall c :: 0 <= c < numChannels ==> |b.channels[c]| == b.length)
              && (forall c, i :: 0 <= c < numChannels && 0 <= i < b.length ==>
                    b.channels[c][i] == Dequantize(v[FrameIndex(i, c, numChannels, |v|)]))
              && (forall c, i :: 0 <= c < numChannels && 0 <= i < b.length ==>
                    -1.0 <= b.channels[c][i] < 1.0)
  {
    var view := ViewInt16(data);
    if view.Failure? {
      return Failure(RangeError);
    }
    var v := view.value;
    if numChannels <= 0 {
      return Failure(NotSupportedError);
    }
    var frames := |v| / numChannels;
    if !BufferShapeOk(numChannels, frames, sampleRate) {
      return Failure(NotSupportedError);
    }
    var channels: seq<seq<real>> := [];
    var c := 0;
    while c < numChannels
      invariant 0 <= c <= numChannels
      invariant |channels| == c
      invariant forall c' :: 0 <= c' < c ==> |channels[c']| == frames
      invariant forall c', i :: 0 <= c' < c && 0 <= i < frames ==>
                  channels[c'][i] == Dequantize(v[FrameIndex(i, c', numChannels, |v|)])
    {
      var channelData: seq<real> := [];
      var i := 0;
      while i < frames
        invariant 0 <= i <= frames
        invariant |channelData| == i
        invariant forall i' :: 0 <= i' < i ==> channelData[i'] == Dequantize(v[FrameIndex(i', c, numChannels, |v|)])
      {
        channelData := channelData + [v[FrameIndex(i, c, numChannels, |v|)] as real / Scale];
        i := i + 1;
      }
      channels := channels + [channelData];
      c := c + 1;
    }
    return Success(AudioBuffer(sampleRate, frames, channels));
  }

  /* ---------------- the capture payload end to end ---------------- */

  /** The payload `onaudioprocess` sends: the quantized block, packed and
      base 64 encoded. */
  function CapturePayload(samples: seq<real>): (payload: string)
    ensures |payload| == 4 * ((2 * |samples| + 2) / 3)
    ensures var q := CaptureBlock(samples);
            DecodeBytes(payload).Success? && ViewInt16(DecodeBytes(payload).value) == Success(q)
  {
    var q := CaptureBlock(samples);
    DecodeEncode(PackLE(q));
    ViewPack(q);
    EncodeBytes(PackLE(q))
  }

  /** The round-trip law of the codec: decoding a captured mono block at
      the receiving side gives every in-range sample back to within one
      quantization step. */
  method CaptureRoundTrip(samples: seq<real>) returns (b: Result<AudioBuffer, AudioError>)
    requires |samples| > 0
    ensures b.Success? && |b.value.channels| == 1 && b.value.length == |samples| && |b.value.channels[0]| == |samples|
    ensures forall i :: 0 <= i < |samples| && -1.0 <= samples[i] < 1.0 ==>
              -1.0 / Scale < samples[i] - b.value.channels[0][i] < 1.0 / Scale
  {
    var payload := CapturePayload(samples);
    var bytes := DecodeBytes(payload).value;
    var q := CaptureBlock(samples);
    assert ViewInt16(bytes) == Success(q);
    assert |bytes| == 2 * |q| by {
      assert |ViewInt16(bytes).value| == |bytes| / 2;
    }
    assert FrameCount(bytes, 16000, 1) == Success(|q|);
    b := DecodeAudioData(bytes, 16000, 1);
    MonoChannel(samples, q, b.value.channels[0]);
  }

  /** A mono channel read from the captured block is within one step of
      the samples. */
  lemma MonoChannel(samples: seq<real>, q: seq<int16>, ch: seq<real>)
    requires q == CaptureBlock(samples) && |ch| == |q|
    requires forall i :: 0 <= i < |ch| ==> ch[i] == Dequantize(q[FrameIndex(i, 0, 1, |q|)])
    ensures forall i :: 0 <= i < |samples| && -1.0 <= samples[i] < 1.0 ==>
              -1.0 / Scale < samples[i] - ch[i] < 1.0 / Scale
  {
    forall i | 0 <= i < |ch|
      ensures ch[i] == Dequantize(q[i])
    {
      assert FrameIndex(i, 0, 1, |q|) == i;
    }
  }
}

=== FILE: playback.dfy ===
/** The gapless playback scheduler shared by the live tutor and the Hifz
    mentor. Its state is the `nextStartTime` cursor (seconds on the output
    context's clock) and the set of queued buffer sources; each incoming
    server message may carry base 64 audio and an `interrupted` flag.

    The two components differ in a safety offset added to the device
    clock and in whether the interrupt is examined before the audio (and
    then skips it) or after it. Each handler runs atomically: the
    interleaving of handlers across the `await` on decoding is not part of
    this model. */
module Playback {
  import opened Wrappers
  import Base64
  import Pcm

  /** Output sample rate and channel count of the model's audio. */
  const OutputRate: int := 24000
  const OutputChannels: int := 1

  type SourceId = nat

  datatype Order = InterruptFirst | AudioFirst

  /** `offset`: seconds added to `currentTime` when anchoring the cursor. */
  datatype Config = Config(offset: real, order: Order)

  /** `nextStartTimeRef`, `sourcesRef` and a counter naming new sources. */
  datatype Sched = Sched(cursor: real, queued: set<SourceId>, nextId: SourceId)

  /** One message as the handler sees it: the inline audio payload if any,
      and the `interrupted` flag. */
  datatype Msg = Msg(audio: Option<string>, interrupted: bool)

  /** A buffer source started at `start` and playing until `end`. */
  datatype Segment = Segment(id: SourceId, start: real, end: real)

  /** The result of handling one message. `aborted` is set when decoding
      threw, which rejects the handler at that point. */
  datatype Outcome = Outcome(next: Sched, scheduled: Option<Segment>, aborted: bool)

  /** Every queued source has an id below the counter, so new ids are fresh. */
  predicate Valid(s: Sched) {
    forall q :: q in s.queued ==> q < s.nextId
  }

  const Initial: Sched := Sched(0.0, {}, 0)

  function Max(a: real, b: real): (m: real)
    ensures m >= a && m >= b && (m == a || m == b)
  {
    if a >= b then a else b
  }

  /** Why the payload could not become a buffer. */
  datatype DecodeError = BadBase64 | BadAudio(error: Pcm.AudioError)

  /** `decodeAudioData(decode(payload), ctx, 24000, 1)`, reduced to the
      length in frames of the resulting buffer. */
  function BufferFrames(payload: string): (r: Result<nat, DecodeError>)
    ensures r.Success? ==> r.value >= 1
    ensures Base64.DecodeBytes(payload).Failure? ==> r == Failure(BadBase64)
  {
    var bytes := Base64.DecodeBytes(payload);
    if bytes.Failure? then Failure(BadBase64)
    else
      var frames := Pcm.FrameCount(bytes.value, OutputRate, OutputChannels);
      if frames.Failure? then Failure(BadAudio(frames.error)) else Success(frames.value)
  }

  /** `audioBuffer.duration` of the decoded payload. */
  function Duration(frames: nat): real {
    frames as real / OutputRate as real
  }

  /** A non-empty payload string (the empty string is falsy in JavaScript). */
  predicate HasAudio(m: Msg) {
    m.audio.Some? && m.audio.value != ""
  }

  /** Stop and forget every queued source and reset the cursor to zero. */
  function Flush(s: Sched): (r: Sched)
    ensures r.queued == {} && r.cursor == 0.0 && r.nextId == s.nextId
    ensures Valid(r)
  {
    Sched(0.0, {}, s.nextId)
  }

  /** The audio branch: anchor the cursor at `max(cursor, now + offset)`,
      decode, start the buffer at the cursor and advance the cursor by the
      buffer's duration. The cursor is anchored before decoding, so a
      payload that fails to decode still moves it. */
  function PlayAudio(cfg: Config, s: Sched, payload: string, now: real): (o: Outcome)
    requires Valid(s)
    ensures Valid(o.next) && o.next.nextId >= s.nextId
    ensures o.next.cursor == Max(s.cursor, now + cfg.offset) + (if o.scheduled.Some? then o.scheduled.value.end - o.scheduled.value.start else 0.0)
    ensures o.aborted <==> BufferFrames(payload).Failure?
    ensures o.aborted ==> o.scheduled.None? && o.next.queued == s.queued
    ensures !o.aborted ==> o.scheduled.Some?
    ensures o.scheduled.Some? ==>
              var g := o.scheduled.value;
              && g.start >= now + cfg.offset && g.start >= s.cursor
              && g.end == g.start + Duration(BufferFrames(payload).value) && g.end > g.start
              && o.next.cursor == g.end
              && g.id !in s.queued && o.next.queued == s.queued + {g.id}
    ensures o.next.nextId == s.nextId + (if o.scheduled.Some? then 1 else 0)
    ensures o.scheduled.Some? ==> o.scheduled.value.id == s.nextId
  {
    var anchor := Max(s.cursor, now + cfg.offset);
    var frames := BufferFrames(payload);
    if frames.Failure? then
      Outcome(Sched(anchor, s.queued, s.nextId), None, true)
    else
      var id := s.nextId;
      var g := Segment(id, anchor, anchor + Duration(frames.value));
      Outcome(Sched(g.end, s.queued + {id}, s.nextId + 1), Some(g), false)
  }

  /** The `onmessage` handler. With `InterruptFirst` an interrupted
      message flushes and returns before its audio is looked at; with
      `AudioFirst` the audio is scheduled and the flush follows, unless
      decoding threw first. `hasContext` says whether an output context
      exists to play on. */
  function Handle(cfg: Config, s: Sched, m: Msg, now: real, hasContext: bool): (o: Outcome)
    requires Valid(s)
    ensures Valid(o.next)
    ensures o.next.nextId == s.nextId + (if o.scheduled.Some? then 1 else 0)
    ensures o.scheduled.Some? ==> o.scheduled.value.id == s.nextId
    ensures o.scheduled.Some? ==> HasAudio(m) && hasContext
    ensures o.aborted ==> HasAudio(m) && hasContext && o.scheduled.None?
    ensures m.interrupted && !o.aborted ==> o.next.queued == {} && o.next.cursor == 0.0
    ensures !m.interrupted ==> o.next.cursor >= s.cursor
    ensures !m.interrupted && !(HasAudio(m) && hasContext) ==> o.next == s && o.scheduled.None?
    ensures cfg.order == InterruptFirst && m.interrupted ==> o == Outcome(Flush(s), None, false)
  {
    if cfg.order == InterruptFirst && m.interrupted then
      Outcome(Flush(s), None, false)
    else if HasAudio(m) && hasContext then
      var o := PlayAudio(cfg, s, m.audio.value, now);
      if o.aborted || !m.interrupted then o
      else Outcome(Flush(o.next), o.scheduled, false)
    else if m.interrupted then
      Outcome(Flush(s), None, false)
    else
      Outcome(s, None, false)
  }

  /** `source.onended`: the finished source leaves the queue; nothing else
      changes. */
  function OnEnded(s: Sched, id: SourceId): (r: Sched)
    ensures r.queued == s.queued - {id}
    ensures r.cursor == s.cursor && r.nextId == s.nextId
    ensures Valid(s) ==> Valid(r)
  {
    s.(queued := s.queued - {id})
  }

  /** An ended source other than `id` is still queued; `id` is not. */
  lemma OnEndedOnlyItself(s: Sched, id: SourceId, other: SourceId)
    requires other in s.queued && other != id
    ensures other in OnEnded(s, id).queued
    ensures id !in OnEnded(s, id).queued
  {
  }

  /** Audio arriving with no output context is dropped untouched. */
  lemma NoContextDrops(cfg: Config, s: Sched, m: Msg, now: real)
    requires Valid(s) && !m.interrupted
    ensures Handle(cfg, s, m, now, false) == Outcome(s, None, false)
  {
  }

  /** After a flush the next buffer re-anchors on the device clock: it
      starts exactly at `now + offset`, however late the flushed queue
      would have run. */
  lemma ReanchorAfterInterrupt(cfg: Config, s: Sched, payload: string, now: real)
    requires Valid(s) && now >= 0.0 && cfg.offset >= 0.0
    requires BufferFrames(payload).Success?
    ensures var o := PlayAudio(cfg, Flush(s), payload, now);
            o.scheduled.Some? && o.scheduled.value.start == now + cfg.offset
  {
  }

  /* ---------------- runs of messages ---------------- */

  /** A message together with the device clock when it is handled. */
  datatype Event = Event(msg: Msg, now: real)

  /** Handle a sequence of events in order; collect the scheduled segments. */
  function Run(cfg: Config, s: Sched, evs: seq<Event>, hasContext: bool): (r: (Sched, seq<Segment>))
    requires Valid(s)
    ensures Valid(r.0)
    decreases |evs|
  {
    if |evs| == 0 then (s, [])
    else
      var o := Handle(cfg, s, evs[0].msg, evs[0].now, hasContext);
      var rest := Run(cfg, o.next, evs[1..], hasContext);
      (rest.0, (if o.scheduled.Some? then [o.scheduled.value] else []) + rest.1)
  }

  predicate NoInterrupts(evs: seq<Event>) {
    forall i :: 0 <= i < |evs| ==> !evs[i].msg.interrupted
  }

  /** Segments in order, each ending no later than the next one starts. */
  predicate Back2Back(segs: seq<Segment>) {
    forall i, j :: 0 <= i < j < |segs| ==> segs[i].end <= segs[j].start
  }

  /** Without interrupts every buffer of a run starts at or after the
      cursor the run began with and ends by the final cursor, the cursor
      never decreases, and the buffers never overlap. */
  lemma {:induction false} RunNoOverlap(cfg: Config, s: Sched, evs: seq<Event>, hasContext: bool)
    requires Valid(s) && NoInterrupts(evs)
    ensures var r := Run(cfg, s, evs, hasContext);
            && r.0.cursor >= s.cursor
            && (forall k :: 0 <= k < |r.1| ==> s.cursor <= r.1[k].start < r.1[k].end <= r.0.cursor)
            && Back2Back(r.1)
    decreases |evs|
  {
    if |evs| > 0 {
      var o := Handle(cfg, s, evs[0].msg, evs[0].now, hasContext);
      assert NoInterrupts(evs[1..]) by {
        forall i | 0 <= i < |evs[1..]| ensures !evs[1..][i].msg.interrupted {
          assert evs[1..][i] == evs[i + 1];
        }
      }
      RunNoOverlap(cfg, o.next, evs[1..], hasContext);
      var rest := Run(cfg, o.next, evs[1..], hasContext);
      if o.scheduled.Some? {
        var g := o.scheduled.value;
        var segs := [g] + rest.1;
        assert g.end == o.next.cursor;
        assert forall k :: 1 <= k < |segs| ==> segs[k] == rest.1[k - 1];
      }
    }
  }

  /** Every id a run hands out lies between the counter it started with
      and the counter it ends with, so none of them was queued before. */
  lemma {:induction false} RunIdsFresh(cfg: Config, s: Sched, evs: seq<Event>, hasContext: bool)
    requires Valid(s)
    ensures var r := Run(cfg, s, evs, hasContext);
            && r.0.nextId >= s.nextId
            && (forall k :: 0 <= k < |r.1| ==> s.nextId <= r.1[k].id < r.0.nextId)
    decreases |evs|
  {
    if |evs| > 0 {
      var o := Handle(cfg, s, evs[0].msg, evs[0].now, hasContext);
      RunIdsFresh(cfg, o.next, evs[1..], hasContext);
      var rest := Run(cfg, o.next, evs[1..], hasContext);
      var segs := Run(cfg, s, evs, hasContext).1;
      if o.scheduled.Some? {
        assert segs == [o.scheduled.value] + rest.1;
        forall k | 0 <= k < |segs|
          ensures s.nextId <= segs[k].id < rest.0.nextId
        {
          if k > 0 {
            assert segs[k] == rest.1[k - 1];
          }
        }
      } else {
        assert segs == rest.1;
      }
    }
  }

  predicate IdsIncreasing(segs: seq<Segment>) {
    forall i, j :: 0 <= i < j < |segs| ==> segs[i].id < segs[j].id
  }

  lemma ConsIncreasing(g: Segment, rest: seq<Segment>)
    requires IdsIncreasing(rest)
    requires forall k :: 0 <= k < |rest| ==> g.id < rest[k].id
    ensures IdsIncreasing([g] + rest)
  {
    var segs := [g] + rest;
    forall i, j | 0 <= i < j < |segs|
      ensures segs[i].id < segs[j].id
    {
      assert segs[j] == rest[j - 1];
      if i > 0 {
        assert segs[i] == rest[i - 1];
      }
    }
  }

  /** The sources a run starts carry strictly increasing ids. */
  lemma {:induction false} RunIdsIncreasing(cfg: Config, s: Sched, evs: seq<Event>, hasContext: bool)
    requires Valid(s)
    ensures IdsIncreasing(Run(cfg, s, evs, hasContext).1)
    decreases |evs|
  {
    if |evs| > 0 {
      var o := Handle(cfg, s, evs[0].msg, evs[0].now, hasContext);
      RunIdsIncreasing(cfg, o.next, evs[1..], hasContext);
      RunIdsFresh(cfg, o.next, evs[1..], hasContext);
      var rest := Run(cfg, o.next, evs[1..], hasContext);
      var segs := Run(cfg, s, evs, hasContext).1;
      if o.scheduled.Some? {
        assert segs == [o.scheduled.value] + rest.1;
        ConsIncreasing(o.scheduled.value, rest.1);
      } else {
        assert segs == rest.1;
      }
    }
  }
}

=== FILE: portal.dfy ===
/** The member portal: signing in by academy identifier or by e-mail and
    password, the profile defaults filled in on sign-in, the family wing
    of a guardian, the payment hand-off and signing out. */
module Portal {
  import opened Wrappers
  import opened Text
  import opened Registry

  datatype LoginMethod = ById | ByEmail

  datatype AiView = ScholarView | HifzView | LabView

  datatype Tab = Overview | Family | Syllabus | Schedule | Billing

  datatype Session = Session(
    via: LoginMethod,
    identifier: string,
    password: string,
    logged: bool,
    current: Option<User>,
    error: Option<string>,
    aiView: Option<AiView>,
    tab: Tab,
    showPayment: bool)

  const NotRecognized: string := "The credentials entered were not recognized."

  /* ---------------- signing in ---------------- */

  /** The lookup rule of `handleAccess`. By identifier: the academy id
      equals the trimmed identifier, both upper-cased; no password is
      asked. By e-mail: the addresses are equal lower-cased (neither is
      trimmed) and the stored password equals the typed one exactly, so a
      user with no stored password never signs in this way. */
  predicate Matches(s: Session, u: User) {
    match s.via
    case ById => Upper(u.academyId) == Upper(Trim(s.identifier))
    case ByEmail => Lower(u.email) == Lower(s.identifier) && u.password == Some(s.password)
  }

  /** JavaScript truthiness of an optional number: absent and zero are
      falsy. */
  predicate Truthy(v: Option<int>) {
    v.Some? && v.value != 0
  }

  /** `v || fallback` on an optional number. */
  function OrDefault(v: Option<int>, fallback: int): (r: Option<int>)
    ensures Truthy(v) ==> r == v
    ensures !Truthy(v) ==> r == Some(fallback)
  {
    if Truthy(v) then v else Some(fallback)
  }

  /** The profile hydration: every field is copied and a falsy metric is
      replaced by its showcase value. */
  function Hydrate(u: User): (r: User)
    ensures Truthy(r.streakCount) && Truthy(r.points) && Truthy(r.progressPercent)
    ensures Truthy(r.avgPronunciationScore) && r.rank.Some?
    ensures Truthy(u.streakCount) ==> r.streakCount == u.streakCount
    ensures !Truthy(u.streakCount) ==> r.streakCount == Some(12)
    ensures Truthy(u.points) ==> r.points == u.points
    ensures !Truthy(u.points) ==> r.points == Some(1450)
    ensures Truthy(u.progressPercent) ==> r.progressPercent == u.progressPercent
    ensures !Truthy(u.progressPercent) ==> r.progressPercent == Some(35)
    ensures u.rank.Some? ==> r.rank == u.rank
    ensures u.rank.None? ==> r.rank == Some(Qari)
    ensures Truthy(u.avgPronunciationScore) ==> r.avgPronunciationScore == u.avgPronunciationScore
    ensures !Truthy(u.avgPronunciationScore) ==> r.avgPronunciationScore == Some(88)
    ensures r.(streakCount := u.streakCount, points := u.points, progressPercent := u.progressPercent,
               rank := u.rank, avgPronunciationScore := u.avgPronunciationScore) == u
  {
    u.(streakCount := OrDefault(u.streakCount, 12),
       points := OrDefault(u.points, 1450),
       progressPercent := OrDefault(u.progressPercent, 35),
       rank := if u.rank.Some? then u.rank else Some(Qari),
       avgPronunciationScore := OrDefault(u.avgPronunciationScore, 88))
  }

  /** Hydrating twice is hydrating once. */
  lemma HydrateIdempotent(u: User)
    ensures Hydrate(Hydrate(u)) == Hydrate(u)
  {
  }

  /** `handleAccess`: the first matching user, hydrated, becomes the
      current user; with no match the error is set and nothing else
      changes. */
  function HandleAccess(s: Session, reg: seq<User>): (r: Session)
    ensures r.via == s.via && r.identifier == s.identifier && r.password == s.password
    ensures r.aiView == s.aiView && r.tab == s.tab && r.showPayment == s.showPayment
    ensures (forall i :: 0 <= i < |reg| ==> !Matches(s, reg[i])) ==>
              r == s.(error := Some(NotRecognized))
    ensures r.error.None? ==> r.logged && r.current.Some?
    ensures r.error.None? ==> exists i :: 0 <= i < |reg| && Matches(s, reg[i]) && r.current == Some(Hydrate(reg[i]))
                                   && forall j :: 0 <= j < i ==> !Matches(s, reg[j])
    ensures (exists i :: 0 <= i < |reg| && Matches(s, reg[i])) ==> r.error.None?
  {
    match FindIndex(reg, u => Matches(s, u))
    case None => s.(error := Some(NotRecognized))
    case Some(i) => s.(error := None, current := Some(Hydrate(reg[i])), logged := true)
  }

  /** The identifier form ignores the password field entirely. */
  lemma IdLoginIgnoresPassword(s: Session, reg: seq<User>, other: string)
    requires s.via == ById
    ensures HandleAccess(s.(password := other), reg) == HandleAccess(s, reg).(password := other)
  {
    var t := s.(password := other);
    FindIndexAgree(reg, u => Matches(t, u), u => Matches(s, u));
  }

  /** A signed-out visitor who is not recognised stays signed out. */
  lemma UnknownStaysOut(s: Session, reg: seq<User>)
    requires !s.logged && s.current.None?
    requires forall i :: 0 <= i < |reg| ==> !Matches(s, reg[i])
    ensures var r := HandleAccess(s, reg); !r.logged && r.current.None? && r.error == Some(NotRecognized)
  {
  }

  /** The first user of the registry is always found by their own academy
      id, typed in lower case and padded with white space. */
  lemma FirstUserFoundById(s: Session, reg: seq<User>, pre: string, post: string)
    requires |reg| > 0 && s.via == ById
    requires AllJsSpace(pre) && AllJsSpace(post)
    requires |reg[0].academyId| > 0 && !IsJsSpace(reg[0].academyId[0]) && !IsJsSpace(reg[0].academyId[|reg[0].academyId| - 1])
    ensures HandleAccess(s.(identifier := pre + Lower(reg[0].academyId) + post), reg).current == Some(Hydrate(reg[0]))
  {
    var id := reg[0].academyId;
    var low := Lower(id);
    assert LowerChar(id[0]) == low[0] && LowerChar(id[|id| - 1]) == low[|low| - 1];
    LowerCharSpace(id[0]);
    LowerCharSpace(id[|id| - 1]);
    TrimFramed(pre, low, post);
    UpperLower(id);
    var t := s.(identifier := pre + low + post);
    assert Matches(t, reg[0]);
  }

  /** The ASCII case maps never turn a non-space into a space. */
  lemma LowerCharSpace(c: char)
    requires !IsJsSpace(c)
    ensures !IsJsSpace(LowerChar(c))
  {
  }

  /* ---------------- the family wing ---------------- */

  predicate IsGuardian(current: Option<User>) {
    current.Some? && current.value.role == Guardian
  }

  /** `familyMembers`: for a guardian, the users linked to them, in
      registry order; for anybody else, nobody. */
  function FamilyMembers(current: Option<User>, reg: seq<User>): (r: seq<User>)
    ensures !IsGuardian(current) ==> r == []
    ensures IsGuardian(current) ==> IsSubsequence(r, reg)
    ensures IsGuardian(current) ==>
              forall i :: 0 <= i < |reg| ==> (reg[i] in r <==> reg[i].guardianId == Some(current.value.academyId))
    ensures forall u :: u in r ==> u in reg && IsGuardian(current) && u.guardianId == Some(current.value.academyId)
    ensures IsGuardian(current) ==>
              forall u :: multiset(r)[u] == if u.guardianId == Some(current.value.academyId) then multiset(reg)[u] else 0
  {
    if !IsGuardian(current) then []
    else
      var p := (u: User) => u.guardianId == Some(current.value.academyId);
      FilterIsSubsequence(reg, p);
      FilterAt(reg, p);
      FilterCount(reg, p);
      Filter(reg, p)
  }

  /** The sidebar tabs: the family wing appears exactly for a guardian,
      between the overview and the curriculum. */
  function Tabs(current: Option<User>): (r: seq<Tab>)
    ensures Family in r <==> IsGuardian(current)
    ensures |r| >= 3 && r[0] == Overview && r[|r| - 2..] == [Syllabus, Schedule]
    ensures Billing !in r
  {
    [Overview] + (if IsGuardian(current) then [Family] else []) + [Syllabus, Schedule]
  }

  /* ---------------- payment and sign-out ---------------- */

  /** What `handlePaymentSuccess` does: the new session and the academy id
      passed on to `onBuyClass`, if any. */
  datatype Payment = Payment(session: Session, bought: Option<string>)

  /** Signed in, the current user is marked paid, the gateway closes and
      their id goes to the registry; signed out, nothing happens. */
  function PaymentSuccess(s: Session): (r: Payment)
    ensures s.current.None? ==> r == Payment(s, None)
    ensures s.current.Some? ==> r.bought == Some(s.current.value.academyId)
    ensures s.current.Some? ==>
              r.session == s.(current := Some(s.current.value.(hasPaid := Some(true))), showPayment := false)
  {
    if s.current.None? then Payment(s, None)
    else Payment(s.(current := Some(s.current.value.(hasPaid := Some(true))), showPayment := false),
                 Some(s.current.value.academyId))
  }

  /** After a payment, the registry entry of the current user and the
      portal's copy of them agree that the class is paid for. */
  lemma PaymentReachesRegistry(s: Session, reg: seq<User>, i: nat)
    requires s.current.Some? && i < |reg| && reg[i].academyId == s.current.value.academyId
    ensures var p := PaymentSuccess(s);
            && BuyClass(reg, p.bought.value)[i].hasPaid == Some(true)
            && p.session.current.value.hasPaid == Some(true)
            && !p.session.showPayment
  {
  }

  /** "Exit Terminal". */
  function Logout(s: Session): (r: Session)
    ensures !r.logged && r.current.None? && r.aiView.None?
    ensures r.(logged := s.logged, current := s.current, aiView := s.aiView) == s
  {
    s.(logged := false, current := None, aiView := None)
  }

  /** After signing out nobody is a guardian: the family wing and its
      members are gone. */
  lemma LogoutHidesFamily(s: Session, reg: seq<User>)
    ensures FamilyMembers(Logout(s).current, reg) == []
    ensures Family !in Tabs(Logout(s).current)
  {
  }
}

=== FILE: pricing.dfy ===
/** The pricing page's quote: a plan's monthly base price in dollars,
    converted to the chosen currency, multiplied by the number of students
    with the family discount, and for a quarter tripled with 15% off, then
    rounded. Rates are exact rationals. */
module Pricing {
  import opened JsMath

  datatype Currency = USD | GBP | EUR

  datatype Cycle = Monthly | Quarterly

  /** `exchangeRates`. */
  function ExchangeRate(c: Currency): (r: real)
    ensures 0.0 < r <= 1.0
    ensures r == 1.0 <==> c == USD
  {
    match c
    case USD => 1.0
    case GBP => 0.78
    case EUR => 0.92
  }

  /** The student count buttons: 1, 2 and "3+". */
  const SelectableCounts: seq<int> := [1, 2, 3]

  /** `plans[].basePrice`: starter, standard, elite. */
  const BasePrices: seq<int> := [35, 65, 110]

  /** 10% off for exactly two students, 20% for three or more. */
  function FamilyFactor(count: int): (f: real)
    ensures 0.8 <= f <= 1.0
    ensures count <= 1 ==> f == 1.0
    ensures count == 2 ==> f == 0.9
    ensures count >= 3 ==> f == 0.8
  {
    if count == 2 then 0.9 else if count >= 3 then 0.8 else 1.0
  }

  /** The price before the billing cycle and the rounding. */
  function MonthlyUnrounded(base: real, c: Currency, count: int): real {
    base * ExchangeRate(c) * count as real * FamilyFactor(count)
  }

  /** The price before `Math.round`. */
  function Unrounded(base: real, c: Currency, count: int, cycle: Cycle): real {
    var monthly := MonthlyUnrounded(base, c, count);
    if cycle == Quarterly then monthly * 3.0 * 0.85 else monthly
  }

  /** `calculatePrice(base)`: a whole amount in the chosen currency, never
      negative for a non-negative base and count. */
  function CalculatePrice(base: real, c: Currency, count: int, cycle: Cycle): (r: int)
    ensures base >= 0.0 && count >= 0 ==> r >= 0
  {
    NonNegative(base, c, count, cycle);
    Round(Unrounded(base, c, count, cycle))
  }

  lemma NonNegative(base: real, c: Currency, count: int, cycle: Cycle)
    ensures base >= 0.0 && count >= 0 ==> Unrounded(base, c, count, cycle) >= 0.0
  {
    if base >= 0.0 && count >= 0 {
      var a := base * ExchangeRate(c);
      assert a >= 0.0;
      assert a * count as real >= 0.0;
      assert a * count as real * FamilyFactor(count) >= 0.0;
    }
  }

  /** A single student in dollars per month pays the plan's base price. */
  lemma MonthlyUsdSingleIsBase(base: int)
    ensures CalculatePrice(base as real, USD, 1, Monthly) == base
  {
    assert Unrounded(base as real, USD, 1, Monthly) == base as real;
    RoundInt(base);
  }

  /** The same, for each of the three plans. */
  lemma PlansQuoteTheirBase()
    ensures forall i :: 0 <= i < |BasePrices| ==> CalculatePrice(BasePrices[i] as real, USD, 1, Monthly) == BasePrices[i]
  {
    forall i | 0 <= i < |BasePrices|
      ensures CalculatePrice(BasePrices[i] as real, USD, 1, Monthly) == BasePrices[i]
    {
      MonthlyUsdSingleIsBase(BasePrices[i]);
    }
  }

  /** The currency is converted exactly once: every quote is the rate times
      the quote in dollars before rounding. */
  lemma ConvertedOnce(base: real, c: Currency, count: int, cycle: Cycle)
    ensures Unrounded(base, c, count, cycle) == ExchangeRate(c) * Unrounded(base, USD, count, cycle)
  {
  }

  /** A quarter costs three months with 15% off, rounded once at the end
      rather than month by month. */
  lemma QuarterIsDiscountedMonths(base: real, c: Currency, count: int)
    ensures CalculatePrice(base, c, count, Quarterly) == Round(2.55 * MonthlyUnrounded(base, c, count))
  {
  }

  /** With everything else fixed, a larger base price never lowers the
      quote. */
  lemma MonotoneInBase(b1: real, b2: real, c: Currency, count: int, cycle: Cycle)
    requires b1 <= b2 && count >= 0
    ensures CalculatePrice(b1, c, count, cycle) <= CalculatePrice(b2, c, count, cycle)
  {
    var k := ExchangeRate(c) * count as real * FamilyFactor(count);
    assert k >= 0.0 by {
      assert ExchangeRate(c) * count as real >= 0.0;
    }
    MonthlyFactors(b1, c, count);
    MonthlyFactors(b2, c, count);
    ScaleMonotone(b1, b2, k);
    UnroundedMonotone(b1, b2, c, count, cycle);
    RoundMonotone(Unrounded(b1, c, count, cycle), Unrounded(b2, c, count, cycle));
  }

  /** The monthly price is the base times one factor of the currency and
      the count. */
  lemma MonthlyFactors(base: real, c: Currency, count: int)
    ensures MonthlyUnrounded(base, c, count) == base * (ExchangeRate(c) * count as real * FamilyFactor(count))
  {
  }

  lemma ScaleMonotone(x: real, y: real, k: real)
    requires x <= y && k >= 0.0
    ensures x * k <= y * k
  {
    assert y * k - x * k == (y - x) * k;
  }

  /** The cycle keeps the order of two monthly prices. */
  lemma UnroundedMonotone(b1: real, b2: real, c: Currency, count: int, cycle: Cycle)
    requires MonthlyUnrounded(b1, c, count) <= MonthlyUnrounded(b2, c, count)
    ensures Unrounded(b1, c, count, cycle) <= Unrounded(b2, c, count, cycle)
  {
    var m1, m2 := MonthlyUnrounded(b1, c, count), MonthlyUnrounded(b2, c, count);
    assert m1 * 3.0 <= m2 * 3.0;
    assert m1 * 3.0 * 0.85 <= m2 * 3.0 * 0.85;
  }

  /** Over the selectable counts, adding a student never lowers the quote:
      the multipliers are 1, 1.8 and 2.4. */
  lemma MonotoneInCount(base: real, c: Currency, n1: int, n2: int, cycle: Cycle)
    requires base >= 0.0 && n1 in SelectableCounts && n2 in SelectableCounts && n1 <= n2
    ensures CalculatePrice(base, c, n1, cycle) <= CalculatePrice(base, c, n2, cycle)
  {
    var a := base * ExchangeRate(c);
    assert a >= 0.0;
    assert n1 as real * FamilyFactor(n1) <= n2 as real * FamilyFactor(n2);
    assert MonthlyUnrounded(base, c, n1) == a * (n1 as real * FamilyFactor(n1));
    assert MonthlyUnrounded(base, c, n2) == a * (n2 as real * FamilyFactor(n2));
    assert a * (n1 as real * FamilyFactor(n1)) <= a * (n2 as real * FamilyFactor(n2));
    RoundMonotone(Unrounded(base, c, n1, cycle), Unrounded(base, c, n2, cycle));
  }

  /** Two students on the standard plan pay 117 dollars a month, and three
      on the elite plan pay 673 dollars a quarter (2.4 times 110 is 264,
      and 2.55 times that is 673.2). */
  lemma FamilyExamples()
    ensures CalculatePrice(65.0, USD, 2, Monthly) == 117
    ensures CalculatePrice(110.0, USD, 3, Quarterly) == 673
  {
    assert Unrounded(65.0, USD, 2, Monthly) == 117.0;
    RoundInt(117);
    assert Unrounded(110.0, USD, 3, Quarterly) == 673.2;
    RoundUnique(673.2, 673);
  }
}

=== FILE: pronunciation_lab.dfy ===
/** The pronunciation lab: the rolling feedback text, keyword scoring of
    the tutor's transcription, verse selection and the recording status. */
module PronunciationLab {
  import opened Wrappers
  import opened Text

  /** The feedback keeps this many trailing characters. */
  const FeedbackCap: nat := 500

  datatype Scores = Scores(accuracy: int, fluency: int, tajweed: int)

  const Praised: Scores := Scores(98, 95, 99)
  const Corrected: Scores := Scores(75, 80, 70)

  datatype Verse = Verse(id: string, surah: string)

  /** `VERSES_FOR_PRACTICE`, without the Arabic text and translation. */
  const Verses: seq<Verse> := [Verse("1", "Al-Fatiha"), Verse("2", "Al-Ikhlas"), Verse("3", "Al-Kawthar")]

  datatype Lab = Lab(verse: Verse, recording: bool, status: string, scores: Option<Scores>, feedback: string)

  const InitialLab: Lab := Lab(Verses[0], false, "Select a verse and tap Start", None, "")

  /** `(prev + ' ' + text).slice(-500)`. */
  function AppendFeedback(prev: string, text: string): (r: string)
    ensures |r| <= FeedbackCap
    ensures var full := prev + " " + text;
            && |r| <= |full| && r == full[|full| - |r|..]
            && (|full| <= FeedbackCap ==> r == full)
  {
    TakeLast(prev + " " + text, FeedbackCap)
  }

  /** The keyword rules: praise wins over correction; a text with neither
      keeps the previous scores. */
  function Score(prev: Option<Scores>, text: string): (r: Option<Scores>)
    ensures (Mentions(text, "excellent") || Mentions(text, "mashallah")) ==> r == Some(Praised)
    ensures (!(Mentions(text, "excellent") || Mentions(text, "mashallah")) && (Mentions(text, "correct") || Mentions(text, "try")))
            ==> r == Some(Corrected)
    ensures r != prev ==> r == Some(Praised) || r == Some(Corrected)
  {
    if Mentions(text, "excellent") || Mentions(text, "mashallah") then Some(Praised)
    else if Mentions(text, "correct") || Mentions(text, "try") then Some(Corrected)
    else prev
  }

  /** "incorrect" contains "correct", so a tutor saying a recitation was
      incorrect still sets the corrected scores. */
  lemma IncorrectCountsAsCorrect(prev: Option<Scores>)
    ensures Score(prev, "Incorrect") == Some(Corrected)
  {
    assert Lower("Incorrect") == "incorrect";
    assert OccursAt("incorrect", "correct", 2);
    ContainsAt("incorrect", "correct");
    assert !Mentions("Incorrect", "excellent") by {
      ContainsAt("incorrect", "excellent");
    }
    assert !Mentions("Incorrect", "mashallah") by {
      ContainsAt("incorrect", "mashallah");
    }
  }

  /** A transcription with no keyword leaves the scores as they were. */
  lemma NoKeywordKeepsScores(prev: Option<Scores>, text: string)
    requires !Mentions(text, "excellent") && !Mentions(text, "mashallah")
    requires !Mentions(text, "correct") && !Mentions(text, "try")
    ensures Score(prev, text) == prev
  {
  }

  /** `onmessage` with an output transcription. */
  function OnTranscription(l: Lab, text: string): (r: Lab)
    ensures r.feedback == AppendFeedback(l.feedback, text) && r.scores == Score(l.scores, text)
    ensures r.verse == l.verse && r.recording == l.recording && r.status == l.status
  {
    l.(feedback := AppendFeedback(l.feedback, text), scores := Score(l.scores, text))
  }

  /** Selecting a verse makes it active and starts over with no scores and
      empty feedback. */
  function SelectVerse(l: Lab, v: Verse): (r: Lab)
    ensures r.verse == v && r.scores.None? && r.feedback == ""
    ensures r.recording == l.recording && r.status == l.status
  {
    l.(verse := v, scores := None, feedback := "")
  }

  /** Selecting is idempotent and forgets any earlier selection. */
  lemma SelectVerseLast(l: Lab, v: Verse, w: Verse)
    ensures SelectVerse(SelectVerse(l, v), w) == SelectVerse(l, w)
  {
  }

  function Start(l: Lab): (r: Lab)
    ensures r.status == "Initializing AI Link..." && r.recording == l.recording
  {
    l.(status := "Initializing AI Link...")
  }

  function OnOpen(l: Lab): (r: Lab)
    ensures r.recording && r.status == "Reciting Verse..."
  {
    l.(recording := true, status := "Reciting Verse...")
  }

  function StartFailed(l: Lab): (r: Lab)
    ensures r.status == "Microphone Access Denied" && r.recording == l.recording
  {
    l.(status := "Microphone Access Denied")
  }

  /** `onerror` reports the failure but leaves the recording flag. */
  function OnError(l: Lab): (r: Lab)
    ensures r.status == "Connection Failure" && r.recording == l.recording
    ensures r.scores == l.scores && r.feedback == l.feedback
  {
    l.(status := "Connection Failure")
  }

  /** `onclose` clears the recording flag and leaves the status. */
  function OnClose(l: Lab): (r: Lab)
    ensures !r.recording && r.status == l.status
  {
    l.(recording := false)
  }

  function StopAnalysis(l: Lab): (r: Lab)
    ensures !r.recording && r.status == "Analysis Complete"
    ensures r.scores == l.scores && r.feedback == l.feedback && r.verse == l.verse
  {
    l.(recording := false, status := "Analysis Complete")
  }

  /** An error while recording leaves the lab showing "Connection Failure"
      with the recording flag still set until the socket closes. */
  lemma ErrorThenClose(l: Lab)
    requires l.recording
    ensures OnError(l).recording
    ensures var r := OnClose(OnError(l)); !r.recording && r.status == "Connection Failure"
  {
  }
}

=== FILE: registry.dfy ===
/** The user registry kept by the application shell: the user record, the
    salted envelope it is stored in, academy identifiers, the one-time
    code check, and the list updates (payment, status, deletion,
    enrolment). */
module Registry {
  import opened Wrappers
  import opened Text
  import Base64
  import opened JsMath
  import FinanceEngine

  /** `UserRole`. */
  datatype Role = Director | Dean | Tutor | Registrar | Bursar | Guardian | Student

  function RoleName(r: Role): (s: string)
    ensures |s| > 0
  {
    match r
    case Director => "DIRECTOR"
    case Dean => "DEAN"
    case Tutor => "TUTOR"
    case Registrar => "REGISTRAR"
    case Bursar => "BURSAR"
    case Guardian => "GUARDIAN"
    case Student => "STUDENT"
  }

  datatype Status = Pending | Approved | Rejected

  datatype AuthProvider = EmailAuth | GoogleAuth

  datatype Rank = Novice | Qari | Scholar | IjazahCandidate

  /** `RegistryUser`; optional fields are `Option`s, numbers are integers. */
  datatype User = User(
    academyId: string,
    name: string,
    email: string,
    phone: string,
    password: Option<string>,
    authProvider: AuthProvider,
    role: Role,
    status: Status,
    course: Option<string>,
    tier: Option<FinanceEngine.Tier>,
    timestamp: int,
    hasPaid: Option<bool>,
    guardianId: Option<string>,
    streakCount: Option<int>,
    points: Option<int>,
    progressPercent: Option<int>,
    rank: Option<Rank>,
    avgPronunciationScore: Option<int>)

  /** `NavPage`. */
  datatype Page = Home | About | Courses | Tutors | Pricing | Contact | Register | Resources
                | LiveClass | ReadQuran | BecomeTutor | Dashboard | DailyDuas | Admin | AiLab | Faq

  /* ---------------- the salted envelope ---------------- */

  const Salt: string := "QWT_PROTOCOL_99"
  const FieldSep: string := ":::"

  /** `SecureVault.encrypt` applied to the JSON text of the registry:
      `btoa` of the text, the separator and the salt. `btoa` throws on a
      character above U+00FF. */
  function Encrypt(json: string): (r: Result<string, Base64.DomError>)
    ensures r.Success? <==> Base64.IsLatin1(json)
    ensures r.Success? ==> Base64.Atob(r.value) == Success(json + FieldSep + Salt)
  {
    var text := json + FieldSep + Salt;
    assert Base64.IsLatin1(text) <==> Base64.IsLatin1(json) by {
      assert forall i :: 0 <= i < |json| ==> text[i] == json[i];
      assert forall i :: |json| <= i < |text| ==> text[i] in ":QWT_PROTOCL9";
    }
    if Base64.IsLatin1(text) then
      Base64.AtobBtoa(text);
      Base64.Btoa(text)
    else Base64.Btoa(text)
  }

  /** `SecureVault.decrypt`: the JSON text before the first separator,
      provided the text decodes and its second field is the salt; `None`
      stands for the empty registry the source falls back to. */
  function Decrypt(encrypted: string): (r: Option<string>)
    ensures Base64.Atob(encrypted).Failure? ==> r.None?
    ensures r.Some? <==> Base64.Atob(encrypted).Success?
                         && |Split(Base64.Atob(encrypted).value, FieldSep)| >= 2
                         && Split(Base64.Atob(encrypted).value, FieldSep)[1] == Salt
    ensures r.Some? ==> r.value == Split(Base64.Atob(encrypted).value, FieldSep)[0]
    ensures r.Some? ==> IsPrefix(r.value + FieldSep + Salt, Base64.Atob(encrypted).value)
    ensures r.Some? ==> forall k :: 0 <= k < |r.value| ==> !OccursAt(Base64.Atob(encrypted).value, FieldSep, k)
  {
    match Base64.Atob(encrypted)
    case Failure(_) => None
    case Success(d) =>
      var fields := Split(d, FieldSep);
      if |fields| >= 2 && fields[1] == Salt then
        SplitSecondPrefix(d, FieldSep);
        SplitParts(d, FieldSep);
        Some(fields[0])
      else None
  }

  /** The salt has no colon, so no separator. */
  lemma SaltHasNoSeparator()
    ensures forall k :: !OccursAt(Salt, FieldSep, k)
  {
    forall k
      ensures !OccursAt(Salt, FieldSep, k)
    {
      if 0 <= k && k + 3 <= |Salt| {
        assert Salt[k..k + 3][0] == Salt[k];
      }
    }
  }

  /** A registry text that can be stored (only code points up to U+00FF),
      contains no separator and does not end in a colon comes back
      unchanged. The JSON text of an array always ends in `]`. */
  lemma VaultRoundTrip(json: string)
    requires Base64.IsLatin1(json) && !Contains(json, FieldSep)
    requires |json| == 0 || json[|json| - 1] != ':'
    ensures Encrypt(json).Success? && Decrypt(Encrypt(json).value) == Some(json)
  {
    EnvelopeSplits(json);
    assert Base64.Atob(Encrypt(json).value) == Success(json + FieldSep + Salt);
  }

  /** The envelope of such a text splits into the text and the salt. */
  lemma EnvelopeSplits(json: string)
    requires !Contains(json, FieldSep)
    requires |json| == 0 || json[|json| - 1] != ':'
    ensures Split(json + FieldSep + Salt, FieldSep) == [json, Salt]
  {
    NoEarlySeparator(json, Salt);
    SaltHasNoSeparator();
    SplitTwo(json, FieldSep, Salt);
  }

  /** In `json + ":::" + tail`, the first separator is the one written
      there, when `json` has none and does not end in a colon. */
  lemma NoEarlySeparator(json: string, tail: string)
    requires !Contains(json, FieldSep)
    requires |json| == 0 || json[|json| - 1] != ':'
    ensures forall k :: 0 <= k < |json| ==> !OccursAt(json + FieldSep + tail, FieldSep, k)
  {
    var text := json + FieldSep + tail;
    ContainsAt(json, FieldSep);
    forall k | 0 <= k < |json|
      ensures !OccursAt(text, FieldSep, k)
    {
      if k + 3 <= |json| {
        assert json[k..k + 3] == text[k..k + 3];
        assert !OccursAt(json, FieldSep, k);
      } else {
        assert text[|json| - 1] == json[|json| - 1];
        assert text[k..k + 3][|json| - 1 - k] == text[|json| - 1];
      }
    }
  }

  /** A text ending in a colon does not survive the envelope: the colon and
      the separator read as a separator one place early, so the second
      field starts with a colon and is not the salt. */
  lemma VaultLosesTrailingColon()
    ensures Encrypt("[:").Success? && Decrypt(Encrypt("[:").value).None?
  {
    var text := "[:" + FieldSep + Salt;
    assert text[0] == '[';
    assert OccursAt(text, FieldSep, 1);
    assert !OccursAt(text, FieldSep, 0);
    var fields := Split(text, FieldSep);
    assert fields[0] == "[";
    SplitParts(text, FieldSep);
    assert fields[1..] == Split(text[4..], FieldSep);
    SplitParts(text[4..], FieldSep);
    var rest := text[4..];
    assert rest[0] == ':';
  }

  /** A registry whose text holds the separator inside a value, here the
      JSON text of a user named `a:::b`, fails the salt check when read
      back, and the store falls back to the empty registry. */
  lemma SeparatorInValueEmptiesRegistry()
    ensures Encrypt("[\"a:::b\"]").Success? && Decrypt(Encrypt("[\"a:::b\"]").value).None?
  {
    var json := "[\"a:::b\"]";
    var a, b := "[\"a", "b\"]" + FieldSep + Salt;
    assert Base64.IsLatin1(json);
    assert json + FieldSep + Salt == a + FieldSep + b;
    forall k | 0 <= k < |a|
      ensures !OccursAt(a + FieldSep + b, FieldSep, k)
    {
      assert (a + FieldSep + b)[k] == a[k];
    }
    SecondFieldNot(a, b, Salt);
  }

  /** When the first separator follows `a` and `b` starts unlike `salt`, the
      second field is not `salt`. */
  lemma SecondFieldNot(a: string, b: string, salt: string)
    requires forall k :: 0 <= k < |a| ==> !OccursAt(a + FieldSep + b, FieldSep, k)
    requires |b| > 0 && |salt| > 0 && b[0] != salt[0]
    ensures var f := Split(a + FieldSep + b, FieldSep); |f| >= 2 && f[1] != salt
  {
    SplitFirst(a, FieldSep, b);
    SplitParts(b, FieldSep);
  }

  /** The envelope read back by its known ending: the text before the
      final separator and salt, whatever the text itself holds. */
  function DecryptSuffix(encrypted: string): (r: Option<string>)
    ensures Base64.Atob(encrypted).Failure? ==> r.None?
    ensures r.Some? <==> Base64.Atob(encrypted).Success? && IsSuffix(FieldSep + Salt, Base64.Atob(encrypted).value)
    ensures r.Some? ==> Base64.Atob(encrypted).value == r.value + FieldSep + Salt
  {
    match Base64.Atob(encrypted)
    case Failure(_) => None
    case Success(d) =>
      var tail := FieldSep + Salt;
      if IsSuffix(tail, d) then
        assert d == d[..|d| - |tail|] + tail;
        Some(d[..|d| - |tail|])
      else None
  }

  predicate IsSuffix(t: string, s: string) {
    |t| <= |s| && s[|s| - |t|..] == t
  }

  /** With the ending read back instead of the first field, every text that
      can be stored comes back unchanged, separators and colons included. */
  lemma SuffixVaultRoundTrip(json: string)
    requires Base64.IsLatin1(json)
    ensures Encrypt(json).Success? && DecryptSuffix(Encrypt(json).value) == Some(json)
  {
    var tail := FieldSep + Salt;
    assert json + FieldSep + Salt == json + tail;
    SuffixOf(json, tail);
  }

  lemma SuffixOf(a: string, t: string)
    ensures IsSuffix(t, a + t) && (a + t)[..|a + t| - |t|] == a
  {
    assert (a + t)[|a + t| - |t|..] == t;
  }

  /* ---------------- academy identifiers ---------------- */

  function IdPrefix(role: Role): (p: string)
    ensures |p| == 5 && p[..4] == "QWT-"
  {
    if role == Student then "QWT-S" else if role == Tutor then "QWT-T" else "QWT-A"
  }

  /** `Math.floor(1000 + Math.random() * 9000)` for a random value in
      [0, 1). */
  function IdNumber(random: real): (n: nat)
    requires 0.0 <= random < 1.0
    ensures 1000 <= n <= 9999
  {
    Floor(1000.0 + random * 9000.0)
  }

  /** `generateAcademyId(role)`: prefix, year and a four-digit number. The
      clock's year and the random value are inputs. */
  function GenerateAcademyId(role: Role, year: nat, random: real): (id: string)
    requires 0.0 <= random < 1.0
    ensures IsPrefix(IdPrefix(role) + "-", id)
  {
    IdPrefix(role) + "-" + Decimal(year) + "-" + Decimal(IdNumber(random))
  }

  /** Lengths of numerals up to four digits. */
  lemma {:induction false} DecimalLength(n: nat)
    ensures n < 10 ==> |Decimal(n)| == 1
    ensures 10 <= n < 100 ==> |Decimal(n)| == 2
    ensures 100 <= n < 1000 ==> |Decimal(n)| == 3
    ensures 1000 <= n < 10000 ==> |Decimal(n)| == 4
  {
    if n >= 10 {
      DecimalLength(n / 10);
    }
  }

  lemma NoDashInDigits(s: string)
    requires AllDigits(s)
    ensures forall k :: !OccursAt(s, "-", k)
  {
    forall k | OccursAt(s, "-", k)
      ensures false
    {
      OccursAtChar(s, '-', k);
    }
  }

  /** The four dash-separated fields of an identifier come apart again. */
  lemma IdFieldsSplit(letter: string, y: string, n: string)
    requires '-' !in letter && AllDigits(y) && AllDigits(n)
    ensures Split("QWT" + "-" + (letter + "-" + (y + "-" + n)), "-") == ["QWT", letter, y, n]
  {
    var p3 := y + "-" + n;
    var p2 := letter + "-" + p3;
    assert Split(p3, "-") == [y, n] by {
      NoDashInDigits(n);
      SplitNone(n, "-");
      assert forall i :: 0 <= i < |y| ==> y[i] != '-';
      SplitOnChar(y, '-', n);
    }
    assert Split(p2, "-") == [letter, y, n] by {
      SplitOnChar(letter, '-', p3);
    }
    SplitOnChar("QWT", '-', p2);
  }

  /** Splitting an academy identifier on `-` gives back "QWT", the role
      letter, the year and a four-digit number between 1000 and 9999. */
  lemma AcademyIdFields(role: Role, year: nat, random: real)
    requires 0.0 <= random < 1.0
    ensures var f := Split(GenerateAcademyId(role, year, random), "-");
            && |f| == 4 && f[0] == "QWT" && f[1] == IdPrefix(role)[4..]
            && AllDigits(f[2]) && DigitsValue(f[2]) == year
            && |f[3]| == 4 && AllDigits(f[3]) && DigitsValue(f[3]) == IdNumber(random)
  {
    var y := Decimal(year);
    var n := Decimal(IdNumber(random));
    DecimalLength(IdNumber(random));
    var letter := IdPrefix(role)[4..];
    assert GenerateAcademyId(role, year, random) == "QWT" + "-" + (letter + "-" + (y + "-" + n));
    IdFieldsSplit(letter, y, n);
  }

  /* ---------------- the one-time code ---------------- */

  /** The code field's `maxLength`. */
  const OtpMaxLength: nat := 4

  /** The code field: the browser keeps at most the first four characters
      typed, and `replace(/\D/g, '')` then keeps only their digits. */
  function OtpInput(typed: string): (r: string)
    ensures AllDigits(r) && |r| <= |typed| && |r| <= OtpMaxLength
  {
    var kept := if |typed| <= OtpMaxLength then typed else typed[..OtpMaxLength];
    DigitsOnly(kept)
  }

  /** Whatever is typed after the first four characters is ignored. */
  lemma OtpInputIgnoresOverflow(typed: string, extra: string)
    requires |typed| >= OtpMaxLength
    ensures OtpInput(typed + extra) == OtpInput(typed)
  {
    var kept := if |typed| == OtpMaxLength then typed else typed[..OtpMaxLength];
    assert OtpInput(typed) == DigitsOnly(kept);
    if |extra| == 0 {
      assert typed + extra == typed;
    } else {
      assert (typed + extra)[..OtpMaxLength] == typed[..OtpMaxLength] == kept;
    }
  }

  /** Typing five digits leaves an accepted code in the field. */
  lemma OtpOverlongAccepted()
    ensures OtpInput("12345") == "1234" && OtpAccepted(OtpInput("12345"))
  {
    assert "12345"[..OtpMaxLength] == "1234";
    DigitSplitCovers("1234");
  }

  /** The demonstration codes. */
  predicate OtpAccepted(code: string) {
    code == "1234" || code == "0000"
  }

  /** Typing an accepted code, followed by anything at all, leaves exactly
      that code in the field. */
  lemma OtpInputKeepsCode(code: string, extra: string)
    requires OtpAccepted(code)
    ensures OtpInput(code) == code && OtpInput(code + extra) == code
  {
    DigitSplitCovers(code);
    OtpInputIgnoresOverflow(code, extra);
  }

  /* ---------------- registry updates ---------------- */

  /** `handleBuyClass(id)` once its delay elapses: every user with that
      identifier has paid; everybody else is untouched. */
  function BuyClass(reg: seq<User>, id: string): (r: seq<User>)
    ensures |r| == |reg|
    ensures forall i :: 0 <= i < |reg| ==>
              r[i] == if reg[i].academyId == id then reg[i].(hasPaid := Some(true)) else reg[i]
  {
    seq(|reg|, i requires 0 <= i < |reg| =>
      if reg[i].academyId == id then reg[i].(hasPaid := Some(true)) else reg[i])
  }

  /** `updateRegistryStatus(id, status, tier?, role?)`: matching users get
      the status, and the tier and role when given. */
  function UpdateStatus(reg: seq<User>, id: string, status: Status, tier: Option<FinanceEngine.Tier>, role: Option<Role>): (r: seq<User>)
    ensures |r| == |reg|
    ensures forall i :: 0 <= i < |reg| && reg[i].academyId != id ==> r[i] == reg[i]
    ensures forall i :: 0 <= i < |reg| && reg[i].academyId == id ==>
              && r[i].status == status
              && r[i].tier == (if tier.Some? then tier else reg[i].tier)
              && r[i].role == (if role.Some? then role.value else reg[i].role)
              && r[i] == reg[i].(status := r[i].status, tier := r[i].tier, role := r[i].role)
  {
    seq(|reg|, i requires 0 <= i < |reg| =>
      if reg[i].academyId == id then
        reg[i].(status := status, tier := if tier.Some? then tier else reg[i].tier,
                role := if role.Some? then role.value else reg[i].role)
      else reg[i])
  }

  /** `deleteRegistryUser(id)`. */
  function Delete(reg: seq<User>, id: string): (r: seq<User>)
    ensures |r| <= |reg|
    ensures forall u :: u in r ==> u.academyId != id
  {
    FilterMembers(reg, (u: User) => u.academyId != id);
    Filter(reg, (u: User) => u.academyId != id)
  }

  /** Deletion removes every copy of the users with that identifier and
      keeps every copy of every other one, in order. */
  lemma DeleteExactly(reg: seq<User>, id: string)
    ensures forall u :: u in Delete(reg, id) <==> u in reg && u.academyId != id
    ensures forall u :: multiset(Delete(reg, id))[u] == if u.academyId != id then multiset(reg)[u] else 0
    ensures IsSubsequence(Delete(reg, id), reg)
  {
    FilterMembers(reg, (u: User) => u.academyId != id);
    FilterCount(reg, (u: User) => u.academyId != id);
    FilterIsSubsequence(reg, (u: User) => u.academyId != id);
  }

  /** Deleting twice is deleting once. */
  lemma DeleteIdempotent(reg: seq<User>, id: string)
    ensures Delete(Delete(reg, id), id) == Delete(reg, id)
  {
    var d := Delete(reg, id);
    FilterMembers(reg, (u: User) => u.academyId != id);
    assert forall i :: 0 <= i < |d| ==> d[i] in d;
    FilterAllPass(d, (u: User) => u.academyId != id);
  }

  /** A status update keeps every identifier in place, so the registry's
      identifiers are the same before and after. */
  lemma UpdateKeepsIds(reg: seq<User>, id: string, status: Status, tier: Option<FinanceEngine.Tier>, role: Option<Role>)
    ensures var r := UpdateStatus(reg, id, status, tier, role);
            forall i :: 0 <= i < |reg| ==> r[i].academyId == reg[i].academyId && r[i].hasPaid == reg[i].hasPaid
  {
  }

  /** Paying twice is paying once. */
  lemma BuyClassIdempotent(reg: seq<User>, id: string)
    ensures BuyClass(BuyClass(reg, id), id) == BuyClass(reg, id)
  {
  }

  /* ---------------- enrolment ---------------- */

  /** The enrolment form; absent or empty fields fall back to defaults. */
  datatype Form = Form(name: Option<string>, email: string, password: Option<string>, phone: Option<string>, course: Option<string>)

  /** `value || fallback` on an optional string: undefined and the empty
      string are falsy. */
  function OrElse(v: Option<string>, fallback: string): (r: string)
    ensures v.Some? && v.value != "" ==> r == v.value
    ensures v.None? || v.value == "" ==> r == fallback
  {
    if v.Some? && v.value != "" then v.value else fallback
  }

  /** The shell's enrolment state. */
  datatype Enrolment = Enrolment(registry: seq<User>, pending: Option<Form>, showOtp: bool, otp: string,
                                 otpError: Option<string>, submitting: bool, page: Page)

  /** The record `finalizeEnrollment` appends. */
  function NewUser(form: Form, role: Role, provider: AuthProvider, id: string, now: int): (u: User)
    ensures u.academyId == id && u.role == role && u.authProvider == provider && u.email == form.email
    ensures u.status == Approved && u.hasPaid == Some(false) && u.tier == Some(FinanceEngine.Standard)
    ensures u.name == OrElse(form.name, "Student Candidate")
    ensures u.password == Some(OrElse(form.password, "SOCIAL_AUTH_SECURE"))
    ensures u.phone == OrElse(form.phone, "N/A")
    ensures u.course == Some(OrElse(form.course, "General Tajweed"))
    ensures u.timestamp == now && u.guardianId.None?
  {
    User(id, OrElse(form.name, "Student Candidate"), form.email, OrElse(form.phone, "N/A"),
         Some(OrElse(form.password, "SOCIAL_AUTH_SECURE")), provider, role, Approved,
         Some(OrElse(form.course, "General Tajweed")), Some(FinanceEngine.Standard), now, Some(false),
         None, None, None, None, None, None)
  }

  /** `finalizeEnrollment(form, role, provider)`: appends one new user with
      a fresh identifier, clears the pending form and the code screen, and
      opens the dashboard. */
  function FinalizeEnrollment(e: Enrolment, form: Form, role: Role, provider: AuthProvider,
                              year: nat, random: real, now: int): (r: Enrolment)
    requires 0.0 <= random < 1.0
    ensures |r.registry| == |e.registry| + 1 && r.registry[..|e.registry|] == e.registry
    ensures r.registry[|e.registry|] == NewUser(form, role, provider, GenerateAcademyId(role, year, random), now)
    ensures r.pending.None? && !r.showOtp && !r.submitting && r.page == Dashboard
    ensures r.otp == e.otp && r.otpError == e.otpError
  {
    var u := NewUser(form, role, provider, GenerateAcademyId(role, year, random), now);
    e.(registry := e.registry + [u], pending := None, showOtp := false, submitting := false, page := Dashboard)
  }

  /** `handleVerifyOtp` once its delay elapses: an accepted code enrols the
      pending form as a student signed up by e-mail; any other code
      reports the violation and leaves the registry alone. With no pending
      form the enrolment throws and the state stays submitting. */
  function VerifyOtp(e: Enrolment, year: nat, random: real, now: int): (r: Enrolment)
    requires 0.0 <= random < 1.0
    ensures !OtpAccepted(e.otp) ==>
              r.registry == e.registry && !r.submitting && r.page == e.page
              && r.otpError == Some("Security Violation: Invalid verification code.")
    ensures OtpAccepted(e.otp) && e.pending.Some? ==>
              r.registry == e.registry + [NewUser(e.pending.value, Student, EmailAuth,
                                                  GenerateAcademyId(Student, year, random), now)]
    ensures OtpAccepted(e.otp) && e.pending.Some? ==>
              r.pending.None? && !r.showOtp && !r.submitting && r.page == Dashboard
              && r.otp == e.otp && r.otpError.None?
    ensures OtpAccepted(e.otp) && e.pending.None? ==>
              r == e.(otpError := None, submitting := true)
    ensures !OtpAccepted(e.otp) ==>
              r == e.(otpError := Some("Security Violation: Invalid verification code."), submitting := false)
  {
    var started := e.(otpError := None, submitting := true);
    if OtpAccepted(e.otp) then
      match e.pending
      case Some(form) => FinalizeEnrollment(started, form, Student, EmailAuth, year, random, now)
      case None => started
    else started.(otpError := Some("Security Violation: Invalid verification code."), submitting := false)
  }

  /** After an accepted code, the pending student is the registry's last
      user: their e-mail is the form's, they are approved and unpaid, and
      their identifier reads back as a student's of that year. Everybody
      registered before is still there, in place. */
  lemma VerifiedStudentReadsBack(e: Enrolment, year: nat, random: real, now: int)
    requires 0.0 <= random < 1.0
    requires OtpAccepted(e.otp) && e.pending.Some?
    ensures var r := VerifyOtp(e, year, random, now);
            && |r.registry| == |e.registry| + 1
            && (forall i :: 0 <= i < |e.registry| ==> r.registry[i] == e.registry[i])
            && var u := r.registry[|e.registry|];
               && u.email == e.pending.value.email && u.role == Student && u.authProvider == EmailAuth
               && u.status == Approved && u.hasPaid == Some(false)
               && var f := Split(u.academyId, "-");
                  |f| == 4 && f[0] == "QWT" && f[1] == "S" && AllDigits(f[2]) && DigitsValue(f[2]) == year
  {
    AcademyIdFields(Student, year, random);
  }

  /** Enrolment never disturbs the users already registered, and the new
      user can still be found by identifier after a later payment. */
  lemma EnrolThenPay(e: Enrolment, form: Form, role: Role, year: nat, random: real, now: int)
    requires 0.0 <= random < 1.0
    ensures var r := FinalizeEnrollment(e, form, role, EmailAuth, year, random, now);
            var id := GenerateAcademyId(role, year, random);
            var paid := BuyClass(r.registry, id);
            && paid[|e.registry|].hasPaid == Some(true)
            && paid[|e.registry|].status == Approved
  {
  }
}

=== FILE: resources.dfy ===
/** The resource library: a category tab and a search over titles and
    tags. */
module Resources {
  import opened Text

  datatype Kind = Pdf | Video | Interactive | Article

  /** `Resource`, without the picture. */
  datatype Resource = Resource(id: string, title: string, category: string, kind: Kind,
                               description: string, tags: seq<string>)

  /** `RESOURCES`. */
  const Library: seq<Resource> := [
    Resource("1", "Digital Noorani Qaida (HD)", "Foundations", Pdf,
             "A complete, high-resolution digital version of the traditional Qaida for offline practice.",
             ["Beginner", "Kids", "Essential"]),
    Resource("2", "Interactive Tajweed Poster", "Tajweed", Interactive,
             "Visual map of articulation points (Makharij) with color-coded pronunciation rules.",
             ["Advanced", "Visual", "Rules"]),
    Resource("3", "Daily Sunnah Checklist", "Lifestyle", Pdf,
             "A beautifully designed printable tracker for kids to follow daily Islamic habits.",
             ["Habits", "Kids", "Printable"]),
    Resource("4", "Pronunciation Mastery Series", "Recitation", Video,
             "Masterclass video series covering the top 10 most common mistakes in recitation.",
             ["Correction", "Mastery", "Video"]),
    Resource("5", "Tafseer for Modern Teens", "Understanding", Article,
             "Contextual analysis of Surah Al-Kahf simplified for the modern English-speaking youth.",
             ["Teens", "English", "Reflection"]),
    Resource("6", "Prayer (Salah) Step-by-Step", "Fiqh", Interactive,
             "An interactive 3D-style guide to performing Namaz with correct Arabic utterances.",
             ["Salah", "Beginner", "Guide"])
  ]

  /** The category tabs. 'Recitation' is not among them. */
  const Categories: seq<string> := ["All", "Foundations", "Tajweed", "Lifestyle", "Understanding", "Fiqh"]

  /** The query occurs in the title or in a tag; the description is not
      searched. */
  predicate MatchesSearch(r: Resource, q: string) {
    ContainsCI(r.title, q) || AnyContainsCI(r.tags, q)
  }

  predicate Keeps(category: string, q: string, r: Resource) {
    (category == "All" || r.category == category) && MatchesSearch(r, q)
  }

  /** `filteredResources`. */
  function FilteredResources(category: string, q: string): (r: seq<Resource>)
    ensures IsSubsequence(r, Library)
    ensures forall i :: 0 <= i < |Library| ==> (Library[i] in r <==> Keeps(category, q, Library[i]))
    ensures forall x :: x in r ==> (category == "All" || x.category == category) && MatchesSearch(x, q)
  {
    var p := (x: Resource) => Keeps(category, q, x);
    var lib := Library;
    FilterIsSubsequence(lib, p);
    FilterAt(lib, p);
    Filter(lib, p)
  }

  /** The page state: the active tab and the query. */
  datatype View = View(category: string, query: string)

  /** "Clear all filters". */
  function Clear(v: View): (r: View)
    ensures FilteredResources(r.category, r.query) == Library
  {
    AllEmptyShowsLibrary();
    View("All", "")
  }

  /** 'All' with an empty query lists all six resources. */
  lemma AllEmptyShowsLibrary()
    ensures FilteredResources("All", "") == Library && |Library| == 6
  {
    forall i | 0 <= i < |Library|
      ensures Keeps("All", "", Library[i])
    {
      ContainsCIEmpty(Library[i].title);
    }
    FilterAllPass(Library, x => Keeps("All", "", x));
  }

  /** Changing the description never changes whether a resource is kept. */
  lemma DescriptionNotSearched(category: string, q: string, r: Resource, d: string)
    ensures Keeps(category, q, r.(description := d)) <==> Keeps(category, q, r)
  {
  }

  /** The recitation series is listed under no tab except 'All', whatever
      the query, since its category has no tab. */
  lemma RecitationOnlyUnderAll(category: string, q: string)
    requires category in Categories && category != "All"
    ensures Library[3] !in FilteredResources(category, q)
  {
    assert Library[3].category == "Recitation";
  }
}

=== FILE: stat_counter.dfy ===
/** The animated statistic counters of the home page: the number and the
    suffix read out of a statistic such as "5200+", and the value shown
    while the animation runs. */
module StatCounter {
  import opened Text
  import opened JsMath

  /** `parseInt(value.replace(/\D/g, '')) || 0`: the number formed by all
      the digits of the statistic, 0 when there are none. */
  function NumericValue(value: string): (n: nat)
    ensures DigitsOnly(value) == [] ==> n == 0
  {
    var d := DigitsOnly(value);
    if d == [] then 0 else DigitsValue(d)
  }

  /** `value.replace(/[0-9]/g, '')`. */
  function Suffix(value: string): (s: string)
    ensures forall i :: 0 <= i < |s| ==> !IsDigit(s[i])
  {
    NonDigits(value)
  }

  /** Every character of the statistic is either one of the digits read or
      part of the suffix. */
  lemma ValueAndSuffixCover(value: string)
    ensures |DigitsOnly(value)| + |Suffix(value)| == |value|
  {
    DigitSplitCovers(value);
  }

  /** A statistic written as a number followed by a digit-free suffix reads
      back as that number and that suffix. */
  lemma ReadsBack(n: nat, suffix: string)
    requires forall i :: 0 <= i < |suffix| ==> !IsDigit(suffix[i])
    ensures NumericValue(Decimal(n) + suffix) == n
    ensures Suffix(Decimal(n) + suffix) == suffix
  {
    DigitSplitAppend(Decimal(n), suffix);
    DigitSplitCovers(Decimal(n));
    NoDigitsSplit(suffix);
    assert Decimal(n) + [] == Decimal(n);
  }

  /** The rating "5.0" counts up to fifty and keeps only the point. */
  lemma RatingReadsAsFifty()
    ensures NumericValue("5.0") == 50 && Suffix("5.0") == "."
  {
    var v := "5.0";
    assert v[1..] == ".0" && v[1..][1..] == "0" && v[1..][1..][1..] == [];
    assert DigitsOnly(v) == "50" && NonDigits(v) == ".";
    var d := "50";
    assert d[..1] == "5" && d[..1][..0] == [];
    assert DigitsValue(d[..1]) == 5;
    assert DigitsValue(d) == 50;
  }

  /** The animation length, in milliseconds. */
  const Duration: real := 2500.0

  /** `Math.min(elapsed / duration, 1)`. */
  function Progress(elapsed: real): (p: real)
    ensures p <= 1.0
    ensures elapsed >= 0.0 ==> p >= 0.0
    ensures p == 1.0 <==> elapsed >= Duration
  {
    if elapsed / Duration < 1.0 then elapsed / Duration else 1.0
  }

  /** The count shown `elapsed` milliseconds in: the eased fraction of the
      value, rounded down, until the animation ends, then the value itself.
      `eased` is `1 - (1 - progress)^5`, which lies in [0, 1] and is an
      input here. */
  function Displayed(elapsed: real, eased: real, value: nat): (c: int)
    requires 0.0 <= eased <= 1.0
    ensures 0 <= c <= value
    ensures elapsed >= Duration ==> c == value
  {
    if Progress(elapsed) < 1.0 then
      assert eased * value as real <= value as real by {
        assert (1.0 - eased) * value as real >= 0.0;
      }
      Floor(eased * value as real)
    else value
  }
}

=== FILE: text.dfy ===
/** String helpers that stand for the JavaScript built-ins the program calls:
    `toLowerCase`/`toUpperCase` (ASCII case map), `includes` (substring
    search), `trim`, `slice(-n)`, `split(c)[0]`, the digit regexes `\D` and
    `[0-9]`, `parseInt` on a digit string, `Number.prototype.toString` on a
    natural number, `split` and `join`, and `Array.prototype.filter`. */
module Text {
  import opened Wrappers

  /* ---------------- case maps ---------------- */

  function LowerChar(c: char): char {
    if 'A' <= c <= 'Z' then (c as int + 32) as char else c
  }

  function UpperChar(c: char): char {
    if 'a' <= c <= 'z' then (c as int - 32) as char else c
  }

  /** `s.toLowerCase()`, restricted to the ASCII letters. */
  function Lower(s: string): (r: string)
    ensures |r| == |s|
    ensures forall i :: 0 <= i < |s| ==> r[i] == LowerChar(s[i])
  {
    seq(|s|, i requires 0 <= i < |s| => LowerChar(s[i]))
  }

  /** `s.toUpperCase()`, restricted to the ASCII letters. */
  function Upper(s: string): (r: string)
    ensures |r| == |s|
    ensures forall i :: 0 <= i < |s| ==> r[i] == UpperChar(s[i])
  {
    seq(|s|, i requires 0 <= i < |s| => UpperChar(s[i]))
  }

  /** Upper-casing forgets an earlier lower-casing. */
  lemma UpperLower(s: string)
    ensures Upper(Lower(s)) == Upper(s)
  {
    assert forall i :: 0 <= i < |s| ==> UpperChar(LowerChar(s[i])) == UpperChar(s[i]);
  }

  /* ---------------- substring search ---------------- */

  predicate IsPrefix(p: string, s: string) {
    |p| <= |s| && s[..|p|] == p
  }

  /** `hay.includes(needle)`. */
  predicate Contains(hay: string, needle: string)
    decreases |hay|
  {
    IsPrefix(needle, hay) || (|hay| > 0 && Contains(hay[1..], needle))
  }

  /** `needle` occurs in `hay` starting at offset `k`. */
  predicate OccursAt(hay: string, needle: string, k: int) {
    0 <= k && k + |needle| <= |hay| && hay[k..k + |needle|] == needle
  }

  /** `Contains` holds exactly when `needle` occurs at some offset of `hay`. */
  lemma {:induction false} ContainsAt(hay: string, needle: string)
    ensures Contains(hay, needle) <==> exists k :: OccursAt(hay, needle, k)
    decreases |hay|
  {
    assert OccursAt(hay, needle, 0) <==> IsPrefix(needle, hay);
    if |hay| == 0 {
      if exists k :: OccursAt(hay, needle, k) {
        var k :| OccursAt(hay, needle, k);
        assert k == 0;
      }
    } else {
      ContainsAt(hay[1..], needle);
      OccursShift(hay, needle);
      if exists k :: OccursAt(hay, needle, k) {
        var k :| OccursAt(hay, needle, k);
        if k > 0 {
          assert OccursAt(hay[1..], needle, k - 1);
        }
      }
      if Contains(hay[1..], needle) {
        var k :| OccursAt(hay[1..], needle, k);
        assert OccursAt(hay, needle, k + 1);
      }
    }
  }

  /** An occurrence in the tail is an occurrence one place further on. */
  lemma OccursShift(hay: string, needle: string)
    requires |hay| > 0
    ensures forall k :: 0 <= k ==> (OccursAt(hay[1..], needle, k) <==> OccursAt(hay, needle, k + 1))
  {
    forall k | 0 <= k
      ensures OccursAt(hay[1..], needle, k) <==> OccursAt(hay, needle, k + 1)
    {
      if 0 <= k && k + 1 + |needle| <= |hay| {
        assert hay[1..][k..k + |needle|] == hay[k + 1..k + 1 + |needle|];
      }
    }
  }

  /** A needle whose first character appears nowhere it could start is not
      found. */
  lemma NotContains(hay: string, needle: string)
    requires 0 < |needle| <= |hay|
    requires needle[0] !in hay[..|hay| - |needle| + 1]
    ensures !Contains(hay, needle)
  {
    ContainsAt(hay, needle);
    var early := hay[..|hay| - |needle| + 1];
    forall k
      ensures !OccursAt(hay, needle, k)
    {
      if 0 <= k && k + |needle| <= |hay| {
        assert hay[k..k + |needle|][0] == hay[k] == early[k];
      }
    }
  }

  /** The empty string occurs in every string: an empty search query keeps
      every row of every catalogue. */
  lemma ContainsEmpty(hay: string)
    ensures Contains(hay, "")
  {
    assert IsPrefix("", hay);
  }

  /** `hay.toLowerCase().includes(q.toLowerCase())`: the case-insensitive
      search used by every catalogue filter. */
  predicate ContainsCI(hay: string, q: string) {
    Contains(Lower(hay), Lower(q))
  }

  lemma ContainsCIEmpty(hay: string)
    ensures ContainsCI(hay, "")
  {
    ContainsEmpty(Lower(hay));
  }

  /** `text.toLowerCase().includes(word)`, for a `word` written in lower
      case in the source. */
  predicate Mentions(text: string, word: string) {
    Contains(Lower(text), word)
  }

  /** `xs.some(x => x.toLowerCase().includes(q.toLowerCase()))`. */
  predicate AnyContainsCI(xs: seq<string>, q: string) {
    exists i :: 0 <= i < |xs| && ContainsCI(xs[i], q)
  }

  /* ---------------- split on a separator ---------------- */

  /** The first offset at or after `from` where `sep` occurs in `s`. */
  function IndexFrom(s: string, sep: string, from: nat): (r: Option<nat>)
    requires |sep| > 0
    ensures r.Some? ==> from <= r.value && OccursAt(s, sep, r.value)
    ensures forall k :: from <= k && (r.None? || k < r.value) ==> !OccursAt(s, sep, k)
    decreases |s| - from
  {
    if from + |sep| > |s| then None
    else if s[from..from + |sep|] == sep then Some(from)
    else IndexFrom(s, sep, from + 1)
  }

  /** `s.split(sep)` for a non-empty separator: the pieces between
      successive non-overlapping occurrences, searched left to right. */
  function Split(s: string, sep: string): (r: seq<string>)
    requires |sep| > 0
    ensures |r| >= 1
    decreases |s|
  {
    match IndexFrom(s, sep, 0)
    case None => [s]
    case Some(k) => [s[..k]] + Split(s[k + |sep|..], sep)
  }

  /** `parts.join(sep)`. */
  function Join(parts: seq<string>, sep: string): string
    requires |parts| >= 1
  {
    if |parts| == 1 then parts[0] else parts[0] + sep + Join(parts[1..], sep)
  }

  /** Joining the pieces of a split gives the original string back. */
  lemma {:induction false} SplitJoin(s: string, sep: string)
    requires |sep| > 0
    ensures Join(Split(s, sep), sep) == s
    decreases |s|
  {
    match IndexFrom(s, sep, 0)
    case None =>
    case Some(k) =>
      var rest := s[k + |sep|..];
      var parts := Split(s, sep);
      assert parts == [s[..k]] + Split(rest, sep);
      assert parts[1..] == Split(rest, sep);
      SplitJoin(rest, sep);
      assert Join(parts, sep) == s[..k] + sep + rest;
      assert s[k..k + |sep|] == sep;
      assert s == s[..k] + s[k..k + |sep|] + rest;
  }

  /** The first piece is the text before the first occurrence of the
      separator, and the other pieces are the split of what follows it. */
  lemma SplitParts(s: string, sep: string)
    requires |sep| > 0
    ensures var r := Split(s, sep);
            && IsPrefix(r[0], s)
            && (forall k :: 0 <= k < |r[0]| ==> !OccursAt(s, sep, k))
            && (|r| == 1 ==> r[0] == s)
            && (|r| > 1 ==> OccursAt(s, sep, |r[0]|) && r[1..] == Split(s[|r[0]| + |sep|..], sep))
  {
    match IndexFrom(s, sep, 0)
    case None =>
    case Some(k) =>
      var r := Split(s, sep);
      assert r == [s[..k]] + Split(s[k + |sep|..], sep);
      assert r[0] == s[..k] && r[1..] == Split(s[k + |sep|..], sep);
  }

  /** A string with no occurrence of the separator is a single piece. */
  lemma SplitNone(s: string, sep: string)
    requires |sep| > 0 && forall k :: !OccursAt(s, sep, k)
    ensures Split(s, sep) == [s]
  {
  }

  /** When the first occurrence of the separator in `a + sep + b` is the one
      written between them, `a` is the first piece. */
  lemma SplitFirst(a: string, sep: string, b: string)
    requires |sep| > 0
    requires forall k :: 0 <= k < |a| ==> !OccursAt(a + sep + b, sep, k)
    ensures Split(a + sep + b, sep) == [a] + Split(b, sep)
  {
    var s := a + sep + b;
    assert OccursAt(s, sep, |a|);
    assert s[..|a|] == a && s[|a| + |sep|..] == b;
  }

  /** The first two pieces, with the separator between them, begin the
      string. */
  lemma SplitSecondPrefix(s: string, sep: string)
    requires |sep| > 0 && |Split(s, sep)| >= 2
    ensures var f := Split(s, sep); IsPrefix(f[0] + sep + f[1], s)
  {
    var f := Split(s, sep);
    SplitFirstPiece(s, sep);
    var m := |f[0]| + |sep|;
    var rest := s[m..];
    SplitParts(rest, sep);
    SliceJoin(s, m);
    PrefixExtend(f[0] + sep, f[1], rest);
  }

  /** With two pieces or more, the string begins with the first piece and
      the separator, and the second piece begins what follows. */
  lemma SplitFirstPiece(s: string, sep: string)
    requires |sep| > 0 && |Split(s, sep)| >= 2
    ensures var f := Split(s, sep);
            && |f[0]| + |sep| <= |s| && s[..|f[0]| + |sep|] == f[0] + sep
            && f[1] == Split(s[|f[0]| + |sep|..], sep)[0]
  {
    var f := Split(s, sep);
    var n := |f[0]|;
    SplitParts(s, sep);
    assert s[..n] + s[n..n + |sep|] == s[..n + |sep|];
  }

  lemma SliceJoin<T>(s: seq<T>, m: nat)
    requires m <= |s|
    ensures s == s[..m] + s[m..]
  {
  }

  /** A prefix stays a prefix behind a common beginning. */
  lemma PrefixExtend(a: string, p: string, s: string)
    requires IsPrefix(p, s)
    ensures IsPrefix(a + p, a + s)
  {
    assert (a + s)[..|a + p|] == a + s[..|p|];
  }

  /** Two pieces: the separator written between them is its only
      occurrence. */
  lemma SplitTwo(a: string, sep: string, b: string)
    requires |sep| > 0
    requires forall k :: 0 <= k < |a| ==> !OccursAt(a + sep + b, sep, k)
    requires forall k :: !OccursAt(b, sep, k)
    ensures Split(a + sep + b, sep) == [a, b]
  {
    SplitFirst(a, sep, b);
    SplitNone(b, sep);
  }

  /** A one-character separator occurs exactly where that character is. */
  lemma OccursAtChar(s: string, c: char, k: int)
    ensures OccursAt(s, [c], k) <==> 0 <= k < |s| && s[k] == c
  {
    if 0 <= k < |s| {
      assert s[k..k + 1] == [s[k]];
    }
  }

  /** A string without the separator character is a single piece. */
  lemma SplitNoChar(s: string, c: char)
    requires c !in s
    ensures Split(s, [c]) == [s]
  {
    forall k
      ensures !OccursAt(s, [c], k)
    {
      OccursAtChar(s, c, k);
    }
    SplitNone(s, [c]);
  }

  /** A first part free of the separator character is the first piece. */
  lemma SplitOnChar(a: string, c: char, b: string)
    requires c !in a
    ensures Split(a + [c] + b, [c]) == [a] + Split(b, [c])
  {
    var s := a + [c] + b;
    forall k | 0 <= k < |a|
      ensures !OccursAt(s, [c], k)
    {
      OccursAtChar(s, c, k);
      assert s[k] == a[k];
    }
    SplitFirst(a, [c], b);
  }

  /** Splitting on a character undoes joining with it, when no part holds
      that character. */
  lemma {:induction false} SplitJoinChar(parts: seq<string>, c: char)
    requires |parts| >= 1
    requires forall i :: 0 <= i < |parts| ==> c !in parts[i]
    ensures Split(Join(parts, [c]), [c]) == parts
    decreases |parts|
  {
    if |parts| == 1 {
      SplitNoChar(parts[0], c);
    } else {
      var rest := parts[1..];
      assert forall i :: 0 <= i < |rest| ==> rest[i] == parts[i + 1];
      SplitJoinChar(rest, c);
      SplitOnChar(parts[0], c, Join(rest, [c]));
      assert [parts[0]] + rest == parts;
    }
  }

  /* ---------------- trim ---------------- */

  /** ECMAScript WhiteSpace and LineTerminator code points, the set that
      `String.prototype.trim` strips. */
  predicate IsJsSpace(c: char) {
    c == '\U{0009}' || c == '\U{000B}' || c == '\U{000C}' || c == ' '
    || c == '\U{00A0}' || c == '\U{FEFF}' || c == '\U{1680}'
    || ('\U{2000}' <= c <= '\U{200A}') || c == '\U{202F}' || c == '\U{205F}'
    || c == '\U{3000}' || c == '\n' || c == '\r' || c == '\U{2028}' || c == '\U{2029}'
  }

  predicate AllJsSpace(s: string) {
    forall i :: 0 <= i < |s| ==> IsJsSpace(s[i])
  }

  function TrimStart(s: string): (r: string)
    ensures |r| <= |s| && r == s[|s| - |r|..]
    ensures AllJsSpace(s[..|s| - |r|])
    ensures |r| > 0 ==> !IsJsSpace(r[0])
  {
    if |s| > 0 && IsJsSpace(s[0]) then TrimStart(s[1..]) else s
  }

  function TrimEnd(s: string): (r: string)
    ensures |r| <= |s| && r == s[..|r|]
    ensures AllJsSpace(s[|r|..])
    ensures |r| > 0 ==> !IsJsSpace(r[|r| - 1])
  {
    if |s| > 0 && IsJsSpace(s[|s| - 1]) then TrimEnd(s[..|s| - 1]) else s
  }

  /** `r` is the slice of `s` at offset `i`, with only white space cut off
      on either side. */
  predicate TrimmedAt(s: string, r: string, i: int) {
    0 <= i <= |s| - |r| && r == s[i..i + |r|] && AllJsSpace(s[..i]) && AllJsSpace(s[i + |r|..])
  }

  /** `s.trim()`: the middle slice that neither starts nor ends with white
      space; everything cut off is white space. */
  function Trim(s: string): (r: string)
    ensures exists i :: TrimmedAt(s, r, i)
    ensures |r| > 0 ==> !IsJsSpace(r[0]) && !IsJsSpace(r[|r| - 1])
  {
    var a := TrimStart(s);
    var b := TrimEnd(a);
    var i := |s| - |a|;
    assert b == s[i..i + |b|];
    assert s[i + |b|..] == a[|b|..];
    assert TrimmedAt(s, b, i);
    b
  }

  /** Trimming does not touch a string that is framed by white space
      around a core that neither starts nor ends with it. */
  lemma {:induction false} TrimFramed(pre: string, core: string, post: string)
    requires AllJsSpace(pre) && AllJsSpace(post)
    requires |core| > 0 && !IsJsSpace(core[0]) && !IsJsSpace(core[|core| - 1])
    ensures Trim(pre + core + post) == core
  {
    assert pre + core + post == pre + (core + post);
    TrimStartFramed(pre, core + post);
    TrimEndFramed(core, post);
  }

  lemma {:induction false} TrimStartFramed(pre: string, rest: string)
    requires AllJsSpace(pre)
    requires |rest| > 0 && !IsJsSpace(rest[0])
    ensures TrimStart(pre + rest) == rest
    decreases |pre|
  {
    if |pre| > 0 {
      assert (pre + rest)[1..] == pre[1..] + rest;
      TrimStartFramed(pre[1..], rest);
    } else {
      assert pre + rest == rest;
    }
  }

  lemma {:induction false} TrimEndFramed(rest: string, post: string)
    requires AllJsSpace(post)
    requires |rest| > 0 && !IsJsSpace(rest[|rest| - 1])
    ensures TrimEnd(rest + post) == rest
    decreases |post|
  {
    if |post| > 0 {
      assert (rest + post)[..|rest + post| - 1] == rest + post[..|post| - 1];
      TrimEndFramed(rest, post[..|post| - 1]);
    } else {
      assert rest + post == rest;
    }
  }

  /* ---------------- slicing and splitting ---------------- */

  /** `s.slice(-n)` for `n > 0`: the last `n` elements, or all of `s` when
      it is shorter. */
  function TakeLast<T>(s: seq<T>, n: nat): (r: seq<T>)
    ensures |r| == if |s| <= n then |s| else n
    ensures r == s[|s| - |r|..]
  {
    if |s| <= n then s else s[|s| - n..]
  }

  /** `s.split(sep)[0]`: everything before the first `sep`, or all of `s`. */
  function BeforeFirst(s: string, sep: char): (r: string)
    ensures IsPrefix(r, s)
    ensures sep !in r
    ensures |r| < |s| ==> s[|r|] == sep
  {
    if |s| == 0 then []
    else if s[0] == sep then []
    else [s[0]] + BeforeFirst(s[1..], sep)
  }

  /* ---------------- digits and numbers ---------------- */

  predicate IsDigit(c: char) { '0' <= c <= '9' }

  predicate AllDigits(s: string) {
    forall i :: 0 <= i < |s| ==> IsDigit(s[i])
  }

  /** `s.replace(/\D/g, '')`: the digits of `s` in order. */
  function DigitsOnly(s: string): (r: string)
    ensures AllDigits(r)
    ensures |r| <= |s|
  {
    if |s| == 0 then []
    else if IsDigit(s[0]) then [s[0]] + DigitsOnly(s[1..])
    else DigitsOnly(s[1..])
  }

  /** `s.replace(/[0-9]/g, '')`: everything but the digits, in order. */
  function NonDigits(s: string): (r: string)
    ensures forall i :: 0 <= i < |r| ==> !IsDigit(r[i])
    ensures |r| <= |s|
  {
    if |s| == 0 then []
    else if IsDigit(s[0]) then NonDigits(s[1..])
    else [s[0]] + NonDigits(s[1..])
  }

  /** Every character lands in exactly one of the two parts. */
  lemma {:induction false} DigitSplitCovers(s: string)
    ensures |DigitsOnly(s)| + |NonDigits(s)| == |s|
    ensures AllDigits(s) ==> DigitsOnly(s) == s && NonDigits(s) == []
  {
    if |s| > 0 {
      DigitSplitCovers(s[1..]);
      if AllDigits(s) {
        assert AllDigits(s[1..]);
      }
    }
  }

  /** Both halves of the split distribute over concatenation. */
  lemma {:induction false} DigitSplitAppend(a: string, b: string)
    ensures DigitsOnly(a + b) == DigitsOnly(a) + DigitsOnly(b)
    ensures NonDigits(a + b) == NonDigits(a) + NonDigits(b)
    decreases |a|
  {
    if |a| == 0 {
      assert a + b == b;
    } else {
      assert (a + b)[1..] == a[1..] + b;
      DigitSplitAppend(a[1..], b);
    }
  }

  /** A string without digits is all non-digit part. */
  lemma {:induction false} NoDigitsSplit(s: string)
    requires forall i :: 0 <= i < |s| ==> !IsDigit(s[i])
    ensures DigitsOnly(s) == [] && NonDigits(s) == s
    decreases |s|
  {
    if |s| > 0 {
      NoDigitsSplit(s[1..]);
    }
  }

  function DigitValue(c: char): nat
    requires IsDigit(c)
  {
    c as int - '0' as int
  }

  function DigitChar(d: nat): (c: char)
    requires d < 10
    ensures IsDigit(c) && DigitValue(c) == d
  {
    ('0' as int + d) as char
  }

  /** The number a string of decimal digits denotes (`parseInt` base 10). */
  function DigitsValue(s: string): nat
    requires AllDigits(s)
  {
    if |s| == 0 then 0 else DigitsValue(s[..|s| - 1]) * 10 + DigitValue(s[|s| - 1])
  }

  /** `n.toString()` for a natural number: shortest decimal numeral. */
  function Decimal(n: nat): (r: string)
    ensures |r| > 0 && AllDigits(r)
    ensures DigitsValue(r) == n
    ensures |r| > 1 ==> r[0] != '0'
  {
    if n < 10 then [DigitChar(n)]
    else
      var p := Decimal(n / 10);
      var r := p + [DigitChar(n % 10)];
      assert r[..|r| - 1] == p;
      r
  }

  /* ---------------- filtering ---------------- */

  /** `a` can be obtained from `b` by deleting elements: an order-preserving
      selection. */
  ghost predicate IsSubsequence<T>(a: seq<T>, b: seq<T>)
    decreases |b|
  {
    if |a| == 0 then true
    else if |b| == 0 then false
    else (a[0] == b[0] && IsSubsequence(a[1..], b[1..])) || IsSubsequence(a, b[1..])
  }

  /** `Array.prototype.filter`: keeps, in order, exactly the elements that
      satisfy `p`, each as often as it occurs (see `FilterMembers`,
      `FilterCount` and `FilterIsSubsequence`). */
  function Filter<T(!new)>(s: seq<T>, p: T -> bool): (r: seq<T>)
    ensures |r| <= |s|
  {
    if |s| == 0 then []
    else if p(s[0]) then [s[0]] + Filter(s[1..], p)
    else Filter(s[1..], p)
  }

  /** A list whose elements all pass is kept whole. */
  lemma {:induction false} FilterAllPass<T(!new)>(s: seq<T>, p: T -> bool)
    requires forall i :: 0 <= i < |s| ==> p(s[i])
    ensures Filter(s, p) == s
    decreases |s|
  {
    if |s| > 0 {
      FilterAllPass(s[1..], p);
    }
  }

  /** Filtering drops something exactly when some element fails. */
  lemma {:induction false} FilterShrinks<T(!new)>(s: seq<T>, p: T -> bool)
    ensures |Filter(s, p)| == |s| <==> forall i :: 0 <= i < |s| ==> p(s[i])
    decreases |s|
  {
    if |s| > 0 {
      FilterShrinks(s[1..], p);
      assert forall i :: 1 <= i < |s| ==> s[i] == s[1..][i - 1];
    }
  }

  /** An element is kept exactly when it occurs and passes. */
  lemma {:induction false} FilterMembers<T(!new)>(s: seq<T>, p: T -> bool)
    ensures forall x :: x in Filter(s, p) <==> x in s && p(x)
    decreases |s|
  {
    if |s| > 0 {
      FilterMembers(s[1..], p);
      assert forall x :: x in s <==> x == s[0] || x in s[1..];
    }
  }

  /** `Filter` keeps the order of the elements it keeps. */
  lemma {:induction false} FilterIsSubsequence<T(!new)>(s: seq<T>, p: T -> bool)
    ensures IsSubsequence(Filter(s, p), s)
    decreases |s|
  {
    if |s| > 0 {
      FilterIsSubsequence(s[1..], p);
      var r := Filter(s, p);
      if p(s[0]) {
        assert r[0] == s[0] && r[1..] == Filter(s[1..], p);
      }
    }
  }

  /** `Filter` keeps every passing element as often as it occurs and drops
      every other one: with `FilterIsSubsequence` this fixes the result. */
  lemma {:induction false} FilterCount<T(!new)>(s: seq<T>, p: T -> bool)
    ensures forall x :: multiset(Filter(s, p))[x] == if p(x) then multiset(s)[x] else 0
    decreases |s|
  {
    if |s| > 0 {
      FilterCount(s[1..], p);
      assert s == [s[0]] + s[1..];
      assert multiset(s) == multiset([s[0]]) + multiset(s[1..]);
    }
  }

  /** Filtering distributes over concatenation. */
  lemma {:induction false} FilterAppend<T(!new)>(a: seq<T>, b: seq<T>, p: T -> bool)
    ensures Filter(a + b, p) == Filter(a, p) + Filter(b, p)
    decreases |a|
  {
    if |a| == 0 {
      assert a + b == b;
    } else {
      assert (a + b)[0] == a[0];
      assert (a + b)[1..] == a[1..] + b;
      FilterAppend(a[1..], b, p);
    }
  }

  /** Position-wise form of `FilterMembers`: the element at index `i` is
      kept exactly when it passes. */
  lemma FilterAt<T(!new)>(s: seq<T>, p: T -> bool)
    ensures forall i :: 0 <= i < |s| ==> (s[i] in Filter(s, p) <==> p(s[i]))
    ensures forall x :: x in Filter(s, p) ==> x in s && p(x)
  {
    FilterMembers(s, p);
  }

  /** `Array.prototype.findIndex`: the position of the first element that
      passes, if any. `find` is the element at that position. */
  function FindIndex<T>(s: seq<T>, p: T -> bool): (r: Option<nat>)
    ensures r.Some? ==> r.value < |s| && p(s[r.value])
    ensures r.Some? ==> forall j :: 0 <= j < r.value ==> !p(s[j])
    ensures r.None? ==> forall j :: 0 <= j < |s| ==> !p(s[j])
    decreases |s|
  {
    if |s| == 0 then None
    else if p(s[0]) then Some(0)
    else
      match FindIndex(s[1..], p)
      case None => None
      case Some(k) => Some(k + 1)
  }

  /** Two tests that agree on every element find the same position. */
  lemma {:induction false} FindIndexAgree<T>(s: seq<T>, p: T -> bool, q: T -> bool)
    requires forall i :: 0 <= i < |s| ==> p(s[i]) == q(s[i])
    ensures FindIndex(s, p) == FindIndex(s, q)
    decreases |s|
  {
    if |s| > 0 {
      FindIndexAgree(s[1..], p, q);
    }
  }

  /* ---------------- de-duplication ---------------- */

  predicate NoDup<T(==)>(s: seq<T>) {
    forall i, j :: 0 <= i < j < |s| ==> s[i] != s[j]
  }

  /** `[...new Set(s)]`: the distinct elements of `s`, each at the place of
      its first occurrence (see `DedupFirstOccurrenceOrder`). */
  function Dedup<T(==,!new)>(s: seq<T>): (r: seq<T>)
    ensures NoDup(r)
    ensures forall x :: x in r <==> x in s
    ensures |r| <= |s|
  {
    if |s| == 0 then []
    else
      var d := Dedup(s[..|s| - 1]);
      var x := s[|s| - 1];
      assert forall y :: y in s <==> y in s[..|s| - 1] || y == x;
      if x in d then d else d + [x]
  }

  /** `indexOf`: the position of the first occurrence of `x`. */
  function IndexOf<T(==)>(s: seq<T>, x: T): (k: nat)
    requires x in s
    ensures k < |s| && s[k] == x
    ensures forall j :: 0 <= j < k ==> s[j] != x
  {
    if s[0] == x then 0
    else
      assert x in s[1..];
      IndexOf(s[1..], x) + 1
  }

  /** Appending leaves the first occurrence of an element already present
      where it was. */
  lemma IndexOfSnoc<T>(p: seq<T>, x: T, y: T)
    requires y in p
    ensures IndexOf(p + [x], y) == IndexOf(p, y)
  {
    var k1, k2 := IndexOf(p + [x], y), IndexOf(p, y);
    assert (p + [x])[k2] == y;
  }

  /** `Dedup` lists the distinct elements in the order of their first
      occurrences, which with `NoDup` and the same members fixes it. */
  lemma {:induction false} DedupFirstOccurrenceOrder<T(!new)>(s: seq<T>)
    ensures forall i, j :: 0 <= i < j < |Dedup(s)| ==> IndexOf(s, Dedup(s)[i]) < IndexOf(s, Dedup(s)[j])
    decreases |s|
  {
    if |s| > 0 {
      var p, x := s[..|s| - 1], s[|s| - 1];
      assert s == p + [x];
      DedupFirstOccurrenceOrder(p);
      var d := Dedup(p);
      forall y | y in d
        ensures IndexOf(s, y) == IndexOf(p, y)
      {
        IndexOfSnoc(p, x, y);
      }
      forall i, j | 0 <= i < j < |d|
        ensures IndexOf(s, d[i]) < IndexOf(s, d[j])
      {
        assert d[i] in d && d[j] in d;
        assert IndexOf(p, d[i]) < IndexOf(p, d[j]);
      }
      if x in d {
        assert Dedup(s) == d;
      } else {
        assert Dedup(s) == d + [x];
        assert IndexOf(s, x) == |p|;
        forall i | 0 <= i < |d|
          ensures IndexOf(s, d[i]) < IndexOf(s, x)
        {
          assert d[i] in d;
        }
      }
    }
  }

  /** The first element is kept, in first place. */
  lemma {:induction false} DedupHead<T(!new)>(s: seq<T>)
    requires |s| > 0
    ensures |Dedup(s)| > 0 && Dedup(s)[0] == s[0]
    decreases |s|
  {
    if |s| > 1 {
      var p := s[..|s| - 1];
      DedupHead(p);
      assert p[0] == s[0];
    } else {
      assert s[..0] == [];
    }
  }

  /** A list without duplicates is its own de-duplication. */
  lemma {:induction false} DedupNoDup<T(!new)>(s: seq<T>)
    requires NoDup(s)
    ensures Dedup(s) == s
    decreases |s|
  {
    if |s| > 0 {
      var p := s[..|s| - 1];
      assert NoDup(p);
      DedupNoDup(p);
      assert s[|s| - 1] !in p;
      assert p + [s[|s| - 1]] == s;
    }
  }

  /** Adding one element to a duplicate-free list through a set keeps the
      list when the element is already there and appends it otherwise. */
  lemma DedupAppend<T(!new)>(p: seq<T>, x: T)
    requires NoDup(p)
    ensures Dedup(p + [x]) == if x in p then p else p + [x]
  {
    var s := p + [x];
    assert s[..|s| - 1] == p;
    DedupNoDup(p);
  }

  lemma TakeLastNoDup<T>(s: seq<T>, n: nat)
    requires NoDup(s)
    ensures NoDup(TakeLast(s, n))
  {
    var r := TakeLast(s, n);
    var k := |s| - |r|;
    forall i, j | 0 <= i < j < |r|
      ensures r[i] != r[j]
    {
      assert r[i] == s[k + i] && r[j] == s[k + j];
    }
  }
}

=== FILE: tutors.dfy ===
/** The faculty page: the list of specializations offered as filters, the
    tutor filter, the badge colour of a specialization tag and the colour
    of an availability status. */
module Tutors {
  import opened Wrappers
  import opened Text

  datatype Availability = Available | Limited | Full

  /** `Tutor`, without the biography, picture and schooling. `languages` is
      optional because the filter reads it through `?.`. */
  datatype Tutor = Tutor(id: string, name: string, specializations: seq<string>,
                         availability: Availability, languages: Option<seq<string>>)

  /** `TUTORS`. */
  const Faculty: seq<Tutor> := [
    Tutor("1", "Sheikh Abdullah Ahmed", ["Tajweed Expert", "Qirat Specialist", "Ijazah Holder"],
          Available, Some(["Arabic (Native)", "English (Fluent)", "Urdu"])),
    Tutor("2", "Ustadha Fatima Zahra", ["Female Tutor", "Kids Specialist", "Noorani Qaida"],
          Limited, Some(["English (Fluent)", "Arabic", "Urdu"]))
  ]

  /* ---------------- specializations ---------------- */

  /** Every specialization of every tutor, in list order. */
  function AllSpecializations(tutors: seq<Tutor>): (r: seq<string>)
    ensures forall i, s :: 0 <= i < |tutors| && s in tutors[i].specializations ==> s in r
    ensures forall s :: s in r ==> exists i :: 0 <= i < |tutors| && s in tutors[i].specializations
    decreases |tutors|
  {
    if |tutors| == 0 then []
    else
      var rest := AllSpecializations(tutors[1..]);
      assert forall i :: 1 <= i < |tutors| ==> tutors[i] == tutors[1..][i - 1];
      tutors[0].specializations + rest
  }

  /** `specializations`: a set seeded with 'All', then every specialization
      in first-seen order. */
  function Specializations(tutors: seq<Tutor>): (r: seq<string>)
    ensures |r| > 0 && r[0] == "All" && NoDup(r)
    ensures forall i, s :: 0 <= i < |tutors| && s in tutors[i].specializations ==> s in r
    ensures forall s :: s in r ==> s == "All" || exists i :: 0 <= i < |tutors| && s in tutors[i].specializations
  {
    var all := ["All"] + AllSpecializations(tutors);
    DedupHead(all);
    Dedup(all)
  }

  /** On the faculty list the filter offers 'All' and the six
      specializations, in order. */
  lemma FacultySpecializations()
    ensures Specializations(Faculty) == ["All", "Tajweed Expert", "Qirat Specialist", "Ijazah Holder",
                                         "Female Tutor", "Kids Specialist", "Noorani Qaida"]
  {
    var l := ["All", "Tajweed Expert", "Qirat Specialist", "Ijazah Holder",
              "Female Tutor", "Kids Specialist", "Noorani Qaida"];
    assert AllSpecializations(Faculty[1..][1..]) == [];
    assert AllSpecializations(Faculty[1..]) == Faculty[1].specializations;
    assert ["All"] + AllSpecializations(Faculty) == l;
    assert NoDup(l) by {
      var heads := "ATQIFKN";
      assert forall k :: 0 <= k < |l| ==> |l[k]| > 0 && l[k][0] == heads[k];
      assert NoDup(heads);
    }
    DedupNoDup(l);
  }

  /* ---------------- the filter ---------------- */

  /** `activeAvailability`: 'All' or one status. */
  datatype AvailabilityFilter = AnyAvailability | OnlyAvailability(status: Availability)

  /** The three filter inputs. */
  datatype Filters = Filters(query: string, spec: string, availability: AvailabilityFilter)

  /** The query occurs in the name, a specialization or a language. A tutor
      without a language list is searched by name and specialization. */
  predicate MatchesSearch(t: Tutor, q: string) {
    ContainsCI(t.name, q) || AnyContainsCI(t.specializations, q)
    || (t.languages.Some? && AnyContainsCI(t.languages.value, q))
  }

  predicate MatchesSpec(t: Tutor, spec: string) {
    spec == "All" || spec in t.specializations
  }

  predicate MatchesAvailability(t: Tutor, a: AvailabilityFilter) {
    a.AnyAvailability? || t.availability == a.status
  }

  predicate Keeps(f: Filters, t: Tutor) {
    MatchesSearch(t, f.query) && MatchesSpec(t, f.spec) && MatchesAvailability(t, f.availability)
  }

  /** `filteredTutors`. */
  function FilteredTutors(tutors: seq<Tutor>, f: Filters): (r: seq<Tutor>)
    ensures IsSubsequence(r, tutors)
    ensures forall i :: 0 <= i < |tutors| ==> (tutors[i] in r <==> Keeps(f, tutors[i]))
    ensures forall t :: t in r ==> MatchesSearch(t, f.query) && MatchesSpec(t, f.spec)
                                    && MatchesAvailability(t, f.availability)
  {
    FilterIsSubsequence(tutors, t => Keeps(f, t));
    FilterAt(tutors, t => Keeps(f, t));
    Filter(tutors, t => Keeps(f, t))
  }

  /** "Reset All Filters". */
  const Reset: Filters := Filters("", "All", AnyAvailability)

  /** After a reset every tutor is shown. */
  lemma ResetShowsEveryone(tutors: seq<Tutor>)
    ensures FilteredTutors(tutors, Reset) == tutors
  {
    forall i | 0 <= i < |tutors|
      ensures Keeps(Reset, tutors[i])
    {
      ContainsCIEmpty(tutors[i].name);
    }
    FilterAllPass(tutors, t => Keeps(Reset, t));
  }

  /** A tutor without languages is found only through their name or a
      specialization. */
  lemma NoLanguagesSearch(t: Tutor, q: string)
    requires t.languages.None?
    ensures MatchesSearch(t, q) <==> ContainsCI(t.name, q) || AnyContainsCI(t.specializations, q)
  {
  }

  /** Filtering on the female tutors' specialization shows only
      Ustadha Fatima, whatever the availability filter allows. */
  lemma FemaleTutorFilter()
    ensures FilteredTutors(Faculty, Filters("", "Female Tutor", AnyAvailability)) == [Faculty[1]]
  {
    var f := Filters("", "Female Tutor", AnyAvailability);
    assert !MatchesSpec(Faculty[0], "Female Tutor");
    ContainsCIEmpty(Faculty[1].name);
    assert Keeps(f, Faculty[1]);
    assert Faculty[1..][1..] == [];
  }

  /* ---------------- badges and availability colours ---------------- */

  datatype Badge = EmeraldBadge | BlueBadge | PurpleBadge | RoseBadge | SlateBadge

  /** `getBadgeStyles`: the first rule whose word the lower-cased tag
      mentions decides. */
  function BadgeStyle(tag: string): (b: Badge)
    ensures b == EmeraldBadge <==> Mentions(tag, "tajweed") || Mentions(tag, "qaida")
    ensures b == BlueBadge <==> (!(Mentions(tag, "tajweed") || Mentions(tag, "qaida"))
                                 && (Mentions(tag, "tafseer") || Mentions(tag, "scholar")))
    ensures b == PurpleBadge <==> (!(Mentions(tag, "tajweed") || Mentions(tag, "qaida"))
                                   && !(Mentions(tag, "tafseer") || Mentions(tag, "scholar"))
                                   && Mentions(tag, "hifz"))
    ensures b == RoseBadge <==> (!(Mentions(tag, "tajweed") || Mentions(tag, "qaida"))
                                 && !(Mentions(tag, "tafseer") || Mentions(tag, "scholar"))
                                 && !Mentions(tag, "hifz")
                                 && (Mentions(tag, "female") || Mentions(tag, "kids")))
    ensures b == SlateBadge <==> !Mentions(tag, "tajweed") && !Mentions(tag, "qaida")
                                 && !Mentions(tag, "tafseer") && !Mentions(tag, "scholar")
                                 && !Mentions(tag, "hifz") && !Mentions(tag, "female") && !Mentions(tag, "kids")
  {
    if Mentions(tag, "tajweed") || Mentions(tag, "qaida") then EmeraldBadge
    else if Mentions(tag, "tafseer") || Mentions(tag, "scholar") then BlueBadge
    else if Mentions(tag, "hifz") then PurpleBadge
    else if Mentions(tag, "female") || Mentions(tag, "kids") then RoseBadge
    else SlateBadge
  }

  /** The rule order matters: a tag naming both tajweed and hifz gets the
      tajweed colour. */
  lemma TajweedBeforeHifz()
    ensures BadgeStyle("Tajweed & Hifz") == EmeraldBadge
  {
    assert Lower("Tajweed & Hifz") == "tajweed & hifz";
    assert OccursAt("tajweed & hifz", "tajweed", 0);
    ContainsAt("tajweed & hifz", "tajweed");
  }

  /** A tag shown in rose mentions "female" or "kids" and none of the
      words of the earlier rules. */
  lemma RoseMeansNoEarlierRule(tag: string)
    requires BadgeStyle(tag) == RoseBadge
    ensures Mentions(tag, "female") || Mentions(tag, "kids")
    ensures !Mentions(tag, "tajweed") && !Mentions(tag, "qaida") && !Mentions(tag, "tafseer")
    ensures !Mentions(tag, "scholar") && !Mentions(tag, "hifz")
  {
  }

  datatype Colour = Emerald | Amber | Red | Slate

  /** `getAvailabilityColor`: defined for every string, with the slate
      default for anything but the three statuses. */
  function AvailabilityColour(status: string): (c: Colour)
    ensures c == Emerald <==> status == "Available"
    ensures c == Amber <==> status == "Limited"
    ensures c == Red <==> status == "Full"
  {
    if status == "Available" then Emerald
    else if status == "Limited" then Amber
    else if status == "Full" then Red
    else Slate
  }

  function AvailabilityName(a: Availability): string {
    match a
    case Available => "Available"
    case Limited => "Limited"
    case Full => "Full"
  }

  /** Every status a tutor can have gets its own colour: the default is
      reached only by strings outside the type. */
  lemma StatusesHaveColours(a: Availability, b: Availability)
    ensures AvailabilityColour(AvailabilityName(a)) != Slate
    ensures a != b ==> AvailabilityColour(AvailabilityName(a)) != AvailabilityColour(AvailabilityName(b))
  {
  }
}

=== FILE: wrappers.dfy ===
/** Failure-compatible wrappers shared by every module of the model:
    `Option` for JavaScript's `undefined`/`null`, and `Result` for the
    places where the program throws (or a promise rejects). */
module Wrappers {

  datatype Option<+T> = None | Some(value: T) {
    predicate IsFailure() { None? }

    function PropagateFailure<U>(): Option<U>
      requires None?
    {
      None
    }

    function Extract(): T
      requires Some?
    {
      value
    }

    function GetOr(default: T): T {
      match this
      case Some(v) => v
      case None => default
    }
  }

  datatype Result<+R, +E> = Success(value: R) | Failure(error: E) {
    predicate IsFailure() { Failure? }

    function PropagateFailure<U>(): Result<U, E>
      requires Failure?
    {
      Failure(error)
    }

    function Extract(): R
      requires Success?
    {
      value
    }
  }
}
